=== FILE: README.md ===
# CppServer core, modelled in Dafny

This project models the core of CppServer. CppServer is a C++ server framework built on user-space coroutines. The model covers these parts:

- **Timers:** a deadline-ordered set with cancel, refresh, reset and conditional timers. When the set is harvested, expired callbacks are collected and recurring timers are re-armed. A backward clock jump of more than an hour is detected.
- **Fibers:** the six-state coroutine life cycle, with the per-thread current, main and scheduler fibers, global id and live counters, and reset for reuse.
- **Scheduler:** a task queue of fibers or callbacks, each with an optional thread affinity. It covers how a worker picks the first task it may run, what happens to a fiber after it yields or returns, the reusable callback fiber, the idle fiber, and the tickle decisions.
- **I/O manager:** the per-descriptor event contexts (READ/WRITE), the pending-event count, and the kernel's epoll interest list.
  - It covers `addEvent`, `delEvent`, `cancelEvent` and `cancelAll`.
  - It covers the translation of epoll results into scheduled work in `idle`.
  - It covers `tickle` and `stopping`.
- **Hooks:** the libc replacements.
  - `sleep`, `usleep` and `nanosleep` are modelled as a timer plus a yield.
  - `socket`, `accept`, `connect` with a timeout, and the generic `do_io` retry loop for the read/write family.
  - `close`, and the `fcntl`/`ioctl` bookkeeping of user-visible non-blocking mode.
  - `setsockopt` with its capture of receive and send timeouts.
- **Logging:** levels and their names, loggers with appenders, level filtering, and the log formatter.
  - The formatter covers pattern tokenisation (`%name{arg}`, `%%`), item resolution and rendering.
- **Configuration:** the `Config::Lookup` registry with name validation and type replacement, and `ConfigVar` get, set and string conversion.
- **Endian:** `byteswap` for 16/32/64-bit values and the host-order selectors.

The state is modelled as immutable datatypes and the operations as pure functions. A few loops are modelled as methods, with the functional definition as their contract.

The following are parameters of the operations:
- the result of each system call (`epoll_ctl`, `epoll_wait`, the original libc function);
- the clock (`GetCurrentMS`, `strftime`);
- the per-thread hook-enable flag;
- every conversion (`boost::lexical_cast`, YAML).

Pointers to objects become handles into maps. Shared objects that the code mutates through several pointers are kept once, in one map, and their holders keep the handle: a log appender added to several loggers is one entry of the appender map.

Where the model departs from the design description:
- **addEvent's return value:** the comment in `iomanager.h` says `addEvent` returns 1 on success. The code returns 0, and the model follows the code.
- **EXEC fibers:** the design describes at most one EXEC fiber per thread. The code leaves the thread's main fiber in EXEC while a child fiber runs under `call`. The model follows the code: the invariant is "the current fiber is EXEC", not "only one fiber is EXEC".
- **Equal deadlines in `listExpiredCb`:** timers with the same deadline as the probe are ordered by the probe's address. The model makes that address a parameter.

## Model

| member | source | states |
|---|---|---|
| Basics.ToU64 | CppServer/hook.cpp:57 | conversion to `uint64_t` is reduction modulo 2^64: in-range values are kept, and -1 becomes the all-ones value |
| Basics.ToInt32 | CppServer/iomanager.cpp:287 | the `(int)` cast of a 64-bit value lands in the 32-bit signed range and agrees with the input modulo 2^32 |
| Endian.ToBytes | CppServer/endian.h:12-28 | the byte view of a value has exactly the requested number of entries, each a byte |
| Endian.FromBytes | CppServer/endian.h:12-28 | reading bytes back gives a value below 256^n |
| Endian.FromToBytes | CppServer/endian.h:12-28 | a value that fits in n bytes is recovered from its n-byte view |
| Endian.ToFromBytes | CppServer/endian.h:12-28 | a byte sequence is recovered from the value it denotes |
| Endian.Reverse | CppServer/endian.h:12-28 | element i of the reversal is element n-1-i of the input |
| Endian.ReverseReverse | CppServer/endian.h:12-28 | reversing twice is the identity |
| Endian.Byteswap | CppServer/endian.h:12-28 | the result fits the same width and its bytes are the input's bytes in reverse order |
| Endian.ByteswapInvolutive | CppServer/endian.h:12-28 | swapping twice restores every value of the width |
| Endian.ByteswapOnLittleEndian | CppServer/endian.h:30-58 | swaps on a little-endian host and is the identity on a big-endian one |
| Endian.ByteswapOnBigEndian | CppServer/endian.h:30-58 | swaps on a big-endian host and is the identity on a little-endian one |
| Endian.SelectorsComplement | CppServer/endian.h:30-58 | on either host the two selectors compose to one swap, and each selector undoes itself |
| Endian.Swap16Example | CppServer/endian.h:24-28 | 0x1234 swaps to 0x3412 |
| TimerOrder.Compare | CppServer/timer.cpp:7-25 | null sorts before every timer and after nothing; two timers compare by deadline, with ties broken by identity |
| TimerOrder.CompareStrictTotalOrder | CppServer/timer.cpp:7-25 | the comparator is irreflexive, asymmetric, transitive and total on distinct keys, so the set keeps each timer once |
| TimerOrder.Insert | CppServer/timer.cpp:171-183 | inserting keeps the set sorted with unique identities, adds exactly the new key, and the key goes first exactly when it precedes the old first |
| TimerOrder.Remove | CppServer/timer.cpp:43-52 | erasing removes exactly the keys of that identity and keeps the order |
| TimerOrder.UpperBound | CppServer/timer.cpp:155-158 | `upper_bound` splits the set into keys not after the probe and keys after it |
| Timers.Probe | CppServer/timer.cpp:38-40 | the probe timer has only its deadline set; period, recurrence and callback keep their defaults |
| Timers.NewManager | CppServer/timer.cpp:94-96 | a new manager has no timers, no pending wake-up and records the construction time |
| Timers.InsertWithHook | CppServer/timer.cpp:171-183 | the timer is stored and inserted; the front-insertion hook fires exactly when it becomes the earliest and no wake-up is pending, and then one becomes pending |
| Timers.AddTimer | CppServer/timer.cpp:102-108 | the new timer's deadline is now + ms (64-bit), it joins the set, and the hook fires exactly when it is the new earliest and no wake-up is pending |
| Timers.Run | CppServer/timer.cpp:110-115 | a conditional callback runs its action only while its guard is alive; a plain one always runs |
| Timers.AddConditionTimer | CppServer/timer.cpp:117-121 | the stored callback runs the action for exactly the sets of live objects that contain the guard |
| Timers.Cancel | CppServer/timer.cpp:43-52 | succeeds exactly when the callback is still set; then it clears the callback and takes the timer out of the set, otherwise nothing changes |
| Timers.Refresh | CppServer/timer.cpp:54-67 | succeeds exactly for an armed timer in the set, moving its deadline to now + period and keeping it in the set once; otherwise nothing changes |
| Timers.Reset | CppServer/timer.cpp:69-92 | succeeds unless the period is unchanged and not from now, or the timer is disarmed or gone; on success the period and start change, the timer is re-inserted, and the hook may fire |
| Timers.CancelledTimerIsInert | CppServer/timer.cpp:43-92 | after a successful cancel, cancel, refresh and reset on the same timer all fail |
| Timers.ResetOrigin | CppServer/timer.cpp:82-89 | without wrap-around, a reset from now sets the deadline to now + ms, and otherwise to the current cycle's start + ms |
| Timers.GetNextTimer | CppServer/timer.cpp:123-136 | clears the pending wake-up; with no timers gives all ones, gives 0 if one is due, and otherwise the time to the earliest deadline |
| Timers.HasTimer | CppServer/timer.cpp:198-201 | true exactly when some stored timer is in the set |
| Timers.Rollover | CppServer/timer.cpp:187-195 | the clock has rolled back when now is more than an hour before the previous reading (64-bit subtraction included) |
| Timers.DetectClockRollover | CppServer/timer.cpp:187-195 | always records now and reports a backward jump of more than an hour |
| Timers.Expire | CppServer/timer.cpp:160-168 | each harvested timer contributes its callback in order; recurring ones are re-armed at now + period and re-inserted, and the rest are disarmed |
| Timers.ExpireOne | CppServer/timer.cpp:160-168 | one harvested timer: a recurring one gets a new deadline and rejoins the set, and a one-shot one loses its callback |
| Timers.ExpirePrefix | CppServer/timer.cpp:155-168 | harvesting the first keys of the set yields their callbacks in order, keeps the rest, and leaves every armed timer in the set |
| Timers.ListExpired | CppServer/timer.cpp:138-169 | an empty set returns at once; otherwise the callbacks of the due prefix come out in deadline order, the clock is recorded, and later timers stay |
| Timers.CancelledTimerNeverFires | CppServer/timer.cpp:138-169 | a cancelled timer contributes no callback and stays disarmed, whatever the clock reads |
| Timers.AddThenNextTimeout | CppServer/timer.cpp:102-136 | right after a timer is added to an empty manager, the next timeout is that timer's delay |
| Fibers.Blank | CppServer/fiber.h:63-68 | the member defaults: id 0, state INIT, no stack, size 0, no callback |
| Fibers.NewFiber | CppServer/fiber.cpp:56-77 | a new fiber takes the next id and a stack of the requested or configured size, starts in INIT with its callback, and raises the live count by one |
| Fibers.DefaultArguments | CppServer/fiber.cpp:20-21 | with the default arguments a fiber gets the 1 MiB configured stack and returns through `MainFunc` |
| Fibers.IdsIncrease | CppServer/fiber.cpp:56-59 | two successive constructions give increasing, distinct, positive ids |
| Fibers.GetThis | CppServer/fiber.cpp:156-164 | returns the current fiber; without one it creates the main fiber, which becomes current and the thread fiber |
| Fibers.Resume | CppServer/fiber.cpp:116-142 | the resumed fiber becomes current and EXEC; no other fiber changes |
| Fibers.Yield | CppServer/fiber.cpp:144-176 | the yielding fiber becomes READY or HOLD and the scheduler fiber becomes current again |
| Fibers.Finish | CppServer/fiber.cpp:182-237 | a normal return leaves the fiber in TERM with its callback dropped, and an exception leaves it in EXCEPT; control goes back to the thread fiber for a use_caller fiber, and to the scheduler fiber otherwise |
| Fibers.Reset | CppServer/fiber.cpp:98-114 | a finished fiber with a stack keeps its id and stack and restarts in INIT with the new callback |
| Fibers.Destroy | CppServer/fiber.cpp:79-96 | destroying a finished (or stackless main) fiber removes it, lowers the live count, and clears the current pointer if it was current |
| Fibers.DestroyedCurrentIsMain | CppServer/fiber.cpp:79-96 | a destroyable fiber that is current is the stackless main fiber |
| Fibers.GetFiberId | CppServer/fiber.cpp:37-42 | the current fiber's id, or 0 when the thread has none |
| Fibers.LiveCountBalances | CppServer/fiber.cpp:56-96 | constructing and then destroying a fiber leaves the live count unchanged |
| Fibers.LifeCycle | CppServer/fiber.cpp:98-206 | a new fiber runs, yields to HOLD, resumes, returns to TERM and can be reset to INIT with the same id |
| Scheduling.MakeTask | CppServer/scheduler.h:72-87 | a task built from a fiber holds only that fiber, one built from a callback holds only that callback, and both keep the affinity |
| Scheduling.TakeTask | CppServer/scheduler.h:77-80 | the pointer constructors build the same task and leave the caller's item empty |
| Scheduling.EmptyTask | CppServer/scheduler.h:81-87 | the default and reset task is empty and runnable on any thread |
| Scheduling.NewScheduler | CppServer/scheduler.cpp:14-35 | a new scheduler is stopped with nothing queued; use_caller reserves the caller thread and one fewer thread is spawned |
| Scheduling.Start | CppServer/scheduler.cpp:52-71 | a stopped scheduler records the spawned threads and stops being stopped; a running one is unchanged |
| Scheduling.StartIdempotent | CppServer/scheduler.cpp:52-71 | starting twice is starting once |
| Scheduling.Stop | CppServer/scheduler.cpp:73-135 | the early return happens exactly when there is a caller root fiber, no other thread, a root not yet run or finished, and the virtual `stopping()` (the base test together with the subclass's extra condition) then holds; on the wrong thread the assertion fails; otherwise stop is requested, every thread and the root are tickled, and the root runs unless `stopping()` already holds |
| Scheduling.ScheduleNoLock | CppServer/scheduler.h:63-70 | a tickle is requested exactly when the queue was empty; a non-empty task is appended and an empty one dropped |
| Scheduling.Schedule | CppServer/scheduler.h:28-37 | only the queue changes: the item is appended with its affinity unless empty, and the tickle happens exactly when the queue was empty |
| Scheduling.BatchTasks | CppServer/scheduler.h:39-52 | a batch contributes well-formed, non-empty tasks with no affinity, at most one per item |
| Scheduling.ScheduleBatch | CppServer/scheduler.h:39-52 | the batch's tasks are appended, a tickle happens exactly when the batch is non-empty and the queue was empty, and every item is emptied |
| Scheduling.BatchIsItemByItem | CppServer/scheduler.h:39-52 | scheduling a batch queues what scheduling its items one by one with no affinity does |
| Scheduling.Scan | CppServer/scheduler.cpp:155-174 | the scan stops at the first task this thread may run (not pinned elsewhere, not an executing fiber); tickle_me is set exactly when a pinned-elsewhere task was passed |
| Scheduling.RemoveAt | CppServer/scheduler.cpp:170 | erasing position i keeps the order of every other task |
| Scheduling.Take | CppServer/scheduler.cpp:155-174 | the first eligible task (none before it is eligible) leaves the queue and the thread becomes active; with none, nothing changes; the thread tickles exactly when a task pinned to another thread lies before the taken one, or anywhere in the queue when none is taken |
| Scheduling.StopThenDrainedTakesNothing | CppServer/scheduler.cpp:73-174 | after `stop` goes through with an empty queue and no active thread, the scheduler is stopping and a worker takes nothing |
| Scheduling.TakeRespectsAffinity | CppServer/scheduler.cpp:158-167 | a thread never takes a task pinned to another thread, nor a fiber that is executing |
| Scheduling.StoppingTakesNothing | CppServer/scheduler.cpp:243-246 | a stopping scheduler has nothing to take |
| Scheduling.RunUntilBack | CppServer/scheduler.cpp:184 | running a fiber until it switches back changes only that fiber's state |
| Scheduling.RunFiberTask | CppServer/scheduler.cpp:182-193 | a READY fiber is queued again (tickling on an empty queue), a finished one is left, and any other state becomes HOLD; the active count drops back |
| Scheduling.RunCallbackTask | CppServer/scheduler.cpp:194-216 | the callback runs on the reused or a new callback fiber; READY queues that fiber and drops it from the worker, finished resets it for reuse, and otherwise it is parked in HOLD and dropped |
| Scheduling.RunIdle | CppServer/scheduler.cpp:217-234 | the loop exits, changing nothing, exactly when the idle fiber has terminated; swapping in an idle fiber that ended by an exception reaches the never-reached assertion of fiber.cpp:205 and aborts, exactly in that state; otherwise only the idle fiber changes, and the queue and counters stay as they were |
| Scheduling.Dispatch | CppServer/scheduler.cpp:182-234 | a taken task is run and its active mark undone, and a taken fiber that has already finished is dropped untouched; the loop exits or aborts only when nothing was taken, and then changes nothing; it aborts exactly when nothing was taken and the idle fiber ended by an exception |
| Scheduling.TakeKeepsEnvValid | CppServer/scheduler.cpp:155-193 | what the scan hands over can be dispatched: the worker's state stays valid and a taken fiber is not the idle or callback fiber |
| Scheduling.Step | CppServer/scheduler.cpp:149-236 | one loop iteration keeps the worker valid, returns the active and idle counts to their values, and never changes the stop flags; it aborts exactly when nothing can be taken and the idle fiber ended by an exception |
| IOManager.Kind.Bit | CppServer/iomanager.cpp:15-24 | only READ and WRITE have a context |
| IOManager.FdContext.WithContext | CppServer/iomanager.cpp:15-24 | replacing one event's context leaves the other context, the descriptor and the mask alone |
| IOManager.EmptySlot | CppServer/iomanager.cpp:82-90 | a new table slot knows its descriptor and has no events |
| IOManager.Slots | CppServer/iomanager.cpp:82-90 | new slots are empty and numbered consecutively |
| IOManager.ContextResize | CppServer/iomanager.cpp:82-90 | growing keeps the existing slots, numbers the new empty ones, and adds no registered events |
| IOManager.EpollCtl | CppServer/iomanager.cpp:107-119 | the interest-list effect of `epoll_ctl`: ADD of a watched fd and MOD/DEL of an unwatched one fail, and a failure changes nothing |
| IOManager.NewIO | CppServer/iomanager.cpp:45-67 | 64 empty slots, no pending events, and only the tickle pipe registered (edge-triggered read) |
| IOManager.GrowTo | CppServer/iomanager.cpp:95-103 | the table grows to fd * 1.5, truncated |
| IOManager.Slotted | CppServer/iomanager.cpp:95-103 | a descriptor without a slot makes the table grow to fd * 1.5 with fresh numbered slots; other slots and the count are untouched |
| IOManager.Registered | CppServer/iomanager.cpp:127-142 | the slot gains the event bit and its context |
| IOManager.Register | CppServer/iomanager.cpp:107-142 | success (0) when `epoll_ctl` succeeds, adding one pending event and the context; -1 changes nothing; other slots are untouched |
| IOManager.AddEvent | CppServer/iomanager.cpp:92-143 | returns 0 or -1; the table is grown first; on success the count rises by one, and the context records the calling thread's scheduler, null when it has none, and resumes the current fiber when no callback is given |
| IOManager.DelEvent | CppServer/iomanager.cpp:145-174 | succeeds exactly for a registered event whose `epoll_ctl` succeeds; it drops one pending event and clears the context without running it; failure changes nothing |
| IOManager.DelEventKernel | CppServer/iomanager.cpp:145-174 | after a successful removal the descriptor stays registered, edge-triggered, for exactly the remaining events, or is deleted from epoll when none remain; no other registration changes |
| IOManager.TriggerEvent | CppServer/iomanager.cpp:32-43 | firing clears the bit and the context and hands the callback, or else the fiber, to the context's scheduler, null included |
| IOManager.AddThenTrigger | CppServer/iomanager.cpp:32-143 | a trigger hands the work to exactly the scheduler `addEvent` recorded, so an event added on a thread without a scheduler reaches a null one |
| IOManager.CancelEvent | CppServer/iomanager.cpp:176-203 | succeeds exactly when delEvent would, leaving the same registrations, but hands the event's work over to run |
| IOManager.DelAndCancelAgree | CppServer/iomanager.cpp:145-203 | delEvent and cancelEvent succeed on the same inputs and leave the same manager state |
| IOManager.Fire | CppServer/iomanager.cpp:230-238 | firing a set of events clears exactly those registered bits and hands over one piece of work per registered fired bit, READ first |
| IOManager.CancelAll | CppServer/iomanager.cpp:205-242 | succeeds exactly for a descriptor with events whose DEL succeeds; the slot becomes empty, the fd leaves the interest list, and every event's work is handed over |
| IOManager.TickleAfterSchedule | CppServer/iomanager.cpp:248-255 | queueing never changes whether the pipe is written; after a single task or a non-empty batch, the pipe is written exactly when the queue was empty and no thread was idle |
| IOManager.PendingBlocksStopping | CppServer/iomanager.cpp:257-262 | a manager with a registered event is never stopping |
| IOManager.ArmedBlocksEarlyStop | CppServer/scheduler.cpp:73-117 | `stop` on a manager with a registered event or an armed timer never returns early, and on the right thread it runs the caller's root fiber whenever there is one |
| IOManager.WaitTimeoutAsWritten | CppServer/iomanager.cpp:285-293 | as written: 5000 ms without timers and the timeout itself up to 5000 ms, but the result is whatever the `(int)` casts give |
| IOManager.WaitTimeoutCastCounterexample | CppServer/iomanager.cpp:287-293 | a timer 2^31 ms away gives the wait -2^31 (block forever), and one 2^32 ms away gives 0 |
| IOManager.WaitTimeout | CppServer/iomanager.cpp:285-293 | the intended wait: between 0 and 5000 ms, the time to the next timer when that is shorter |
| IOManager.WaitTimeoutAgreesBelowTwo31 | CppServer/iomanager.cpp:285-293 | the two agree whenever the timeout is below 2^31 ms or there is no timer |
| IOManager.RealEvents | CppServer/iomanager.cpp:319-328 | only READ/WRITE come out; an error or hang-up counts as every registered direction |
| IOManager.RealEventsDirections | CppServer/iomanager.cpp:319-328 | READ fires exactly when EPOLLIN was reported, or an error or hang-up was reported with READ registered; WRITE likewise with EPOLLOUT |
| IOManager.HandleReady | CppServer/iomanager.cpp:309-354 | one ready descriptor: the tickle pipe is drained without effect; otherwise the fired registered events are removed and handed over, and each handoff lowers the pending count by one |
| IOManager.FireRegistered | CppServer/iomanager.cpp:334-354 | with the fired events known: when `epoll_ctl` succeeds, exactly the fired registered events are handed over and removed, each lowering the pending count by one; no other descriptor or registration changes |
| IOManager.StillReportable | CppServer/iomanager.cpp:308-355 | handling one descriptor leaves every other descriptor's registration as it was |
| IOManager.ProcessReady | CppServer/iomanager.cpp:308-355 | the whole batch keeps the manager valid, each handoff accounts for one pending event, and unmentioned descriptors are untouched |
| IOManager.IdleRound | CppServer/iomanager.cpp:276-363 | the loop exits exactly when stopping; otherwise it waits between 0 and 5000 ms and schedules the expired timer callbacks and the ready events |
| IOManager.IdleRoundWaitsAsWritten | CppServer/iomanager.cpp:285-293 | the round's wait is the source's own `epoll_wait` timeout whenever the next timer is under 2^31 ms away or there is none |
| Hooks.Signed | CppServer/hook.cpp:372-386 | the `int` view of a flag word is in the 32-bit signed range and agrees modulo 2^32 |
| Hooks.Others | CppServer/hook.cpp:353-370 | masking out O_NONBLOCK leaves a word without it |
| Hooks.WithNonblock | CppServer/hook.cpp:353-370 | setting or clearing O_NONBLOCK decides that bit and keeps every other bit |
| Hooks.FlagsDetermined | CppServer/hook.cpp:353-386 | a flag word is its O_NONBLOCK bit plus its other bits |
| Hooks.FcntlSetfl | CppServer/hook.cpp:353-370 | on a tracked open socket, the user's O_NONBLOCK is recorded and the real call always sets O_NONBLOCK; other descriptors pass through |
| Hooks.FcntlGetflAsWritten | CppServer/hook.cpp:372-386 | as written: on a tracked socket the O_NONBLOCK bit shown is the user's, even when the call failed |
| Hooks.GetflErrorCounterexample | CppServer/hook.cpp:381-385 | a failing F_GETFL on a socket the user left blocking returns -2049, not -1 |
| Hooks.FcntlGetfl | CppServer/hook.cpp:372-386 | corrected: -1 passes through; on success, a tracked socket shows the user's O_NONBLOCK bit |
| Hooks.GetflAgreesOnSuccess | CppServer/hook.cpp:372-386 | the corrected and original F_GETFL differ only on the error value |
| Hooks.SetflThenGetfl | CppServer/hook.cpp:353-386 | on a tracked socket, F_GETFL after F_SETFL returns exactly the flags the user set |
| Hooks.Ioctl | CppServer/hook.cpp:438-453 | FIONBIO on a tracked open socket records the user's non-blocking wish; anything else changes nothing |
| Hooks.IoctlThenGetfl | CppServer/hook.cpp:438-453 | a mode set with FIONBIO is what F_GETFL reports afterwards |
| Hooks.TimevalMs | CppServer/hook.cpp:459-473 | the captured timeout is sec * 1000 + usec / 1000 when in range |
| Hooks.Setsockopt | CppServer/hook.cpp:459-473 | SO_RCVTIMEO and SO_SNDTIMEO at SOL_SOCKET on a tracked descriptor update the matching timeout; anything else changes nothing |
| Hooks.SleepAsWritten | CppServer/hook.cpp:160-172 | as written: unhooked, libc sleeps; hooked, a timer of seconds*1000 ms, computed in 32 bits |
| Hooks.SleepWrapCounterexample | CppServer/hook.cpp:167 | sleep(4294968) sets a 704 ms timer |
| Hooks.Sleep | CppServer/hook.cpp:160-172 | corrected: the timer lasts exactly the requested seconds |
| Hooks.SleepAgreesBelowWrap | CppServer/hook.cpp:160-172 | both agree for sleeps shorter than 2^32 ms |
| Hooks.Usleep | CppServer/hook.cpp:174-186 | the timer is the whole milliseconds in the request |
| Hooks.DivDiv | CppServer/hook.cpp:192 | for non-negative nanoseconds, two C divisions by 1000 are one by a million |
| Hooks.NanosleepAsWritten | CppServer/hook.cpp:188-201 | as written: unhooked, libc sleeps; hooked, the timer is sec * 1000 + nsec / 10^6 ms whenever that fits an `int`, and otherwise that sum narrowed to `int` and widened to 64 bits |
| Hooks.NanosleepWrapCounterexample | CppServer/hook.cpp:192 | a 2^31 ms request arms a timer of 2^64 - 2^31 ms, whose deadline wraps into the past |
| Hooks.Nanosleep | CppServer/hook.cpp:188-201 | corrected: the timer holds the whole milliseconds of every request that fits `addTimer`'s 64 bits |
| Hooks.NanosleepAgreesBelowWrap | CppServer/hook.cpp:188-201 | both agree for requests shorter than 2^31 ms |
| Hooks.ConnectTimeout | CppServer/hook.cpp:57-67 | the configured connect timeout as `uint64_t`: -1 means no timeout (all ones) |
| Hooks.RouteOf | CppServer/hook.cpp:90-105 | do_io fails a closed descriptor with EBADF, manages only tracked blocking sockets with the matching timeout, and otherwise calls libc |
| Hooks.Retry | CppServer/hook.cpp:109-150 | a returned call is neither EINTR nor EAGAIN; ETIMEDOUT needs a finite timeout; an addEvent failure is one in the trace |
| Hooks.RunRetry | CppServer/hook.cpp:109-150 | the nested EINTR/`goto retry` loops compute the recursive definition |
| Hooks.InterruptsAreTransparent | CppServer/hook.cpp:110-113 | a run of EINTR results is invisible to the caller |
| Hooks.DoIo | CppServer/hook.cpp:88-151 | direct calls return the first libc result, a closed descriptor gives EBADF, and a timeout only happens on a managed socket with a finite timeout |
| Hooks.SetsockoptGovernsRecv | CppServer/hook.cpp:459-473 | the timeout captured by setsockopt(SO_RCVTIMEO) is the one a later blocking receive waits with |
| Hooks.Binding | CppServer/hook.cpp:286-332 | the receiving calls wait for READ with the receive timeout, the sending ones for WRITE with the send timeout |
| Hooks.SocketTracks | CppServer/hook.cpp:203-213 | `socket` tracks the descriptor exactly when hooking is on and a descriptor was returned |
| Hooks.AcceptTracks | CppServer/hook.cpp:286-292 | `accept` tracks exactly the results passed through from the call that are non-negative |
| Hooks.AcceptTracksUnhooked | CppServer/hook.cpp:203-292 | with hooking off, `accept` still tracks its result, while `socket` does not |
| Hooks.Connect | CppServer/hook.cpp:215-280 | unhooked or not a managed socket: libc's result or EBADF; otherwise an in-progress connect waits and reports ETIMEDOUT or the socket's pending error, and 0 only without one |
| Hooks.ConnectStricterThanDoIo | CppServer/hook.cpp:215-229 | connect refuses an untracked descriptor where do_io would call libc |
| Hooks.PendingErrorIsReported | CppServer/hook.cpp:260-279 | a connection refused while in progress is reported through errno, never as success |
| Hooks.Close | CppServer/hook.cpp:334-347 | a tracked descriptor is untracked and, with an IOManager, all its events are cancelled so none stays registered; other descriptors pass straight to libc |
| LogFormat.LevelName | CppServer/log.cpp:147-163 | the five levels have their names and everything else is "UNKNOWN" |
| LogFormat.LevelNamesDistinct | CppServer/log.cpp:147-163 | distinct levels have distinct names |
| LogFormat.Decimal | CppServer/log.cpp:23-90 | a number prints as a non-empty string of digits |
| LogFormat.FormatConcat | CppServer/log.cpp:261-267 | formatting concatenated item lists concatenates their outputs |
| LogFormat.TextOnly | CppServer/log.cpp:99-108 | a string item prints its text whatever the event |
| LogFormat.NameLenSpec | CppServer/log.cpp:290-295 | the name run consists of name characters and stops at the first other character |
| LogFormat.CloseBraceSpec | CppServer/log.cpp:305-311 | the argument ends at the first `}`, and none is found only when there is none |
| LogFormat.ScanSpecShape | CppServer/log.cpp:284-319 | a closed scan yields a name of name characters, an argument without `}`, and a suffix of its input |
| LogFormat.ScanLoop | CppServer/log.cpp:284-319 | the inner loop reports status 1 exactly for an unclosed `{`, and otherwise the name, argument and resume position of the scan |
| LogFormat.ScanRun | CppServer/log.cpp:284-319 | the loop's three exits: a name ending before the end, a closed `{...}`, or the end of the pattern |
| LogFormat.NameStopsAt | CppServer/log.cpp:291-294 | a name followed by a non-name character other than `{` closes with an empty argument |
| LogFormat.BraceClosesAt | CppServer/log.cpp:296-311 | `{` followed by a first `}` gives the argument between them |
| LogFormat.BraceNeverCloses | CppServer/log.cpp:313-318 | a `{` with no `}` after it leaves the specifier unclosed |
| LogFormat.NameRunToEnd | CppServer/log.cpp:313-318 | a name running to the end of the pattern closes with an empty argument |
| LogFormat.Flush | CppServer/log.cpp:321-325 | the pending literal is pushed exactly when it is non-empty |
| LogFormat.PassAsWritten | CppServer/log.cpp:274-331 | each pass of the outer loop, as written, consumes input |
| LogFormat.PercentEscapeCounterexample | CppServer/log.cpp:280-283 | as written, "100%%" tokenises to the literal "100%" and a specifier with an empty name |
| LogFormat.TrailingEscape | CppServer/log.cpp:280-283 | as written, any text ending in `%%` ends in an empty-named specifier |
| LogFormat.DoublePercentName | CppServer/log.cpp:280-283 | as written, `%%d` yields the literal `%` and the specifier d |
| LogFormat.LexAsWrittenPlain | CppServer/log.cpp:275-278 | as written, text without `%` joins the pending literal |
| LogFormat.LexAsWrittenName | CppServer/log.cpp:313-326 | as written, a trailing `%` plus one letter yields the literal and that specifier |
| LogFormat.LexAsWrittenSpec | CppServer/log.cpp:321-327 | as written, a closing specifier is pushed after the pending literal and scanning resumes after it |
| LogFormat.LexAsWrittenChar | CppServer/log.cpp:275-278 | as written, one ordinary character joins the literal |
| LogFormat.LexAsWrittenDouble | CppServer/log.cpp:280-283 | as written, `%%` adds one `%` but consumes only the first of the two |
| LogFormat.LexAsWrittenEnd | CppServer/log.cpp:284-326 | as written, a lone trailing `%` becomes an empty-named specifier |
| LogFormat.LexPass | CppServer/log.cpp:274-331 | the corrected pass also consumes input, taking `%%` whole |
| LogFormat.LexShaped | CppServer/log.cpp:274-335 | the corrected tokenizer produces non-empty literals, names of name characters, and arguments without `}` |
| LogFormat.LexAgreesWithoutEscapes | CppServer/log.cpp:274-335 | on patterns without `%%` the corrected tokenizer is the original |
| LogFormat.PassesAgree | CppServer/log.cpp:274-331 | without `%%`, one pass is the same either way |
| LogFormat.Escape | CppServer/log.cpp:280-283 | escaping keeps the first character of non-empty text |
| LogFormat.SpecText | CppServer/log.cpp:284-319 | a written specifier is `%`, its name, and a braced argument when there is one |
| LogFormat.LexChar | CppServer/log.cpp:275-278 | an ordinary character joins the pending literal |
| LogFormat.LexPercent | CppServer/log.cpp:280-283 | `%%` joins one `%` to the pending literal |
| LogFormat.LexEscaped | CppServer/log.cpp:274-283 | escaped text is absorbed into the pending literal verbatim |
| LogFormat.ScanSpecText | CppServer/log.cpp:284-319 | a written specifier scans back to its name and argument, leaving what follows |
| LogFormat.LexSpecText | CppServer/log.cpp:284-327 | text starting with a written specifier lexes to the pending literal, the specifier, then the rest |
| LogFormat.LexAtSpec | CppServer/log.cpp:321-327 | a closing specifier emits the pending literal and itself, then lexes what follows |
| LogFormat.LexUnparse | CppServer/log.cpp:270-335 | every well-formed token list, written as a pattern, tokenises back to itself |
| LogFormat.UnparseSpecStep | CppServer/log.cpp:284-327 | a specifier at the front is read back, then the rest is |
| LogFormat.UnparseLiteralStep | CppServer/log.cpp:274-327 | a literal at the front ends at the specifier that follows it |
| LogFormat.LiteralThenSpec | CppServer/log.cpp:274-327 | an escaped literal followed by a written specifier lexes to those two tokens, then the rest |
| LogFormat.EscapedPrefix | CppServer/log.cpp:274-283 | escaped text at the start becomes the pending literal |
| LogFormat.LexPlain | CppServer/log.cpp:274-335 | text without `%` is one literal |
| LogFormat.EscapePlain | CppServer/log.cpp:280-283 | escaping text without `%` changes nothing |
| LogFormat.Lookup | CppServer/log.cpp:336-352 | the table knows exactly the eleven names; m is the message, and d takes its argument as a date format with a default |
| LogFormat.ResolveAsWritten | CppServer/log.cpp:354-365 | as written, resolution is defined only when every name is known, giving one item per token |
| LogFormat.Resolve | CppServer/log.cpp:354-365 | corrected: one item per token; literals become text, and an unknown name becomes its error literal alone |
| LogFormat.ResolveAgrees | CppServer/log.cpp:354-365 | the original is defined exactly when every name is known, and then equals the corrected one |
| LogFormat.UnknownSpecifierCounterexample | CppServer/log.cpp:359-362 | as written `%x` has no defined outcome; corrected it formats as "<<error_format %x>>" |
| LogFormat.InitAsWritten | CppServer/log.cpp:256-365 | the original constructor is defined exactly when every tokenised name is known |
| LogFormat.Init | CppServer/log.cpp:256-365 | the corrected constructor never produces an empty text item |
| LogFormat.InitAgrees | CppServer/log.cpp:270-365 | on patterns without `%%` and with known names only, both constructors build the same items |
| LogFormat.PlainPattern | CppServer/log.cpp:261-278 | a pattern without `%` formats to itself whatever the event |
| Logging.NewAppender | CppServer/log.h:125 | a new appender has level DEBUG and no formatter |
| Logging.NewLogger | CppServer/log.cpp:178-183 | a new logger has level DEBUG, no appenders and the formatter of the default pattern |
| Logging.RootLogger | CppServer/log.h:144 | the default logger is named "root" |
| Logging.SetLevel | CppServer/log.h:155-156 | only the logger's level changes, to the given one |
| Logging.SetAppenderLevel | CppServer/log.h:132-133 | on the shared appender object: only that appender's level changes, to the given one; every other appender is unchanged |
| Logging.SetFormatter | CppServer/log.h:130-131 | on the shared appender object: only that appender's formatter changes, to the given one; every other appender is unchanged |
| Logging.AddAppender | CppServer/log.cpp:185-190 | the appender's id goes last in the list; a shared appender without a formatter gets the logger's formatter, on the shared object itself; no other appender changes |
| Logging.AddKeepsValid | CppServer/log.cpp:185-190 | installing a formatter on a shared appender keeps every other logger's appenders able to format |
| Logging.FirstIndex | CppServer/log.cpp:193-198 | the position of the first entry that is the appender, or the length when it is absent |
| Logging.RemoveFirstSpec | CppServer/log.cpp:192-200 | erasing cuts the list at the first entry of that appender and nowhere else |
| Logging.DelAppender | CppServer/log.cpp:192-200 | only the first matching entry leaves the list; name, level and formatter are unchanged |
| Logging.RemoveFirstSubset | CppServer/log.cpp:192-200 | deleting removes at most one entry and invents none |
| Logging.AddThenDel | CppServer/log.cpp:185-200 | adding a new appender and deleting it restores the appender list |
| Logging.AppenderLog | CppServer/log.cpp:236-240 | an appender writes exactly the records at or above its level, formatted with its formatter |
| Logging.Listening | CppServer/log.cpp:202-209 | the appenders asked are those whose level lets the record through, in list order |
| Logging.Emit | CppServer/log.cpp:202-209 | the output is one record per listening appender, in list order |
| Logging.Log | CppServer/log.cpp:202-229 | below the logger's level nothing is written; otherwise each appender is asked in order |
| Logging.MacroFilterRedundant | CppServer/log.h:15-31 | the macros' level test skips only events that `log` would drop anyway |
| Logging.ListeningAppend | CppServer/log.cpp:185-209 | an appender added at the end listens after all the others |
| Logging.EmitAppend | CppServer/log.cpp:185-209 | adding an appender adds its output, if any, after the others |
| Logging.EmitFrame | CppServer/log.cpp:202-209 | what a logger writes depends only on the appenders it holds |
| Logging.AddThenLog | CppServer/log.cpp:185-209 | after addAppender the new appender writes last, with the formatter the shared object ended up with |
| Logging.SharedAppenderKeepsFirstFormatter | CppServer/log.cpp:185-209 | an appender without a formatter added to two loggers keeps the first logger's formatter, and the second logger's records from it use that formatter, not its own |
| Logging.SharedLevelSilencesEverywhere | CppServer/log.cpp:236-240 | raising a shared appender's level above a record's level silences it in every logger that holds it |
| Logging.FreshLoggerWritesEverything | CppServer/log.cpp:178-209 | a fresh logger with a fresh appender writes each record of a known level once, in the default layout |
| Logging.RaisingLevelSilences | CppServer/log.cpp:202-209 | raising the logger's level leaves each output either unchanged or empty |
| Config.Lower | CppServer/config.h:15-19 | `tolower` maps A-Z to a-z and fixes everything else |
| Config.ToLower | CppServer/config.h:15-19 | lowercasing works character by character and keeps the length |
| Config.NewVar | CppServer/config.h:80-83 | a variable stores its name lowercased, with its default and description |
| Config.LowerOfValid | CppServer/config.h:126-134 | a name that passes validation is already lower case |
| Config.Find | CppServer/config.h:137-144 | found exactly when the name is present with this type, and then it is that variable |
| Config.LookupOrCreate | CppServer/config.h:117-135 | an existing variable of this type is returned unchanged; an invalid name throws; a valid one gets a new variable with the default; the registry invariant is kept |
| Config.LookupIdempotent | CppServer/config.h:117-135 | a second lookup returns the same variable, ignores its default and changes nothing |
| Config.UpperCaseRejected | CppServer/config.h:126-130 | a name with an upper-case letter is never found and is rejected |
| Config.TypeChangeReplaces | CppServer/config.h:117-135 | a lookup with another type replaces the variable, and afterwards only the new type finds it |
| Config.SetValue | CppServer/config.h:107-108 | only the value changes, and getValue then returns it |
| Config.FromString | CppServer/config.h:96-105 | a successful conversion sets the value, a throwing one leaves it, and the result is always false |
| Config.ToString | CppServer/config.h:85-94 | the converted text, or "" when the conversion throws |
| Config.SetInRegistry | CppServer/config.h:107-124 | setting through the shared variable changes only that entry and keeps the registry valid |
| Config.SetThenLookup | CppServer/config.h:107-124 | a later lookup of the name sees the value set, not its own default |
| Config.FromStringToString | CppServer/config.h:85-105 | when conversion and printing are inverse, fromString then toString gives the text back |

## Left out

- Context switching (`ucontext`, `makecontext`, `swapcontext`), stack allocation and `malloc` are left out. Only the state changes and which fiber is current are modelled.
- Threads, mutexes, read-write locks, semaphores and atomics are left out. Each operation is one atomic step, and interleavings are not modelled.
- `epoll_create`, `epoll_ctl`, `epoll_wait`, `pipe`, `fcntl`, `read` and `write` on the tickle pipe, and every original libc function behind a hook are not modelled. Their results are parameters (`ok`, `Call`, `Wait`).
- The clock (`GetCurrentMS`), `time(0)` and `strftime` are parameters. The date item renders through a clock function.
- `fd_manager.h` and the internals of `FdMgr` are not part of this model. A tracked descriptor's `FdCtx` is a record of the fields the hooks read and write.
- The per-thread hook-enable flag is a parameter. `hook_init`, `dlsym` and `set_hook_enable` are left out.
- Log sinks (stdout, file streams, `reopen`), `vasprintf` and `LogEvent::format`, `LogEventWrap` and the event's string stream are left out. A record is the formatted string.
- `LoggerManager` (log.cpp:377-385) is left out: it does not compile as written.
- `LoadFromYaml` and `LookupBase` are declared in config.h, and config.cpp is not part of this model. `boost::lexical_cast` and the YAML conversions are parameters. The log messages `Lookup` writes are left out.
- Appenders are keys of one appender map, and a logger holds their keys in order; the code compares `shared_ptr` values, the model compares keys.
- Descriptors are natural numbers: negative descriptors, which the code would use as vector indices, are excluded.
- `Scheduler::stop`'s final part is left out: running the root fiber, joining the threads and swapping the thread list. So are `Scheduler::tickle`'s log line and `run`'s hook-enable call.
- Timers.ListExpired: the probe's address, which decides ties in the comparator, is a parameter. The harvest is stated through the set's sorted prefix, not by simulating `upper_bound` on pointers.
- Hooks.Nanosleep: states the timer only for non-negative fields; a negative `tv_sec` or `tv_nsec`, which libc rejects with `EINVAL`, is passed on as the wrapped 64-bit value.
- LogFormat.Init: the tokenisation of the default logger pattern is not spelled out by a lemma. NewLogger's formatter is stated as `Init` of that pattern.
- `Logger::debug` to `Logger::fatal` are `Logging.Log` at a fixed level, so they have no members of their own.
- IOManager.IdleRound: the `EINTR` retry around `epoll_wait` and the swap back to the scheduler are not modelled. The round takes the events `epoll_wait` returned.
- IOManager.IdleRound: the wait is the corrected `WaitTimeout` (see Findings). For a next timer 2^31 ms or more away the round does not reproduce the source's cast wait, which `WaitTimeoutAsWritten` models.
- IOManager.IdleRound: the next timeout and the expired callbacks are inputs, not computed from a `Timers.Manager`. So the round does not show `getNextTimer` clearing the tickled flag (timer.cpp:125), nor `listExpiredCb` removing and re-arming timers; those are stated by `Timers.GetNextTimer` and `Timers.ListExpired` on their own.
- IOManager.HandleReady: the tickle pipe is recognised by its descriptor. The source registers the pipe through `data.fd` (iomanager.cpp:56) and every other descriptor through `data.ptr` (iomanager.cpp:117), then reads `data.fd` of every event (iomanager.cpp:310). The model assumes no context pointer's low bits equal the pipe's descriptor.
- Scheduling.Stop: the subclass's extra `stopping()` condition is the parameter `quiet`; for an IOManager, its `getNextTimer` call, which also clears the tickled flag (timer.cpp:125), is not part of the step.
- IOManager.TriggerEvent: a handoff to a null scheduler is the null dereference at iomanager.cpp:37-39; the model returns it as a `None` scheduler rather than modelling the crash.
- Scheduling.NewScheduler: with `use_caller` the constructor's fiber effects (scheduler.cpp:18-27) are not modelled: the calling thread's main fiber that `Fiber::GetThis` creates, the root fiber built to run `Scheduler::run`, the thread-locals `t_scheduler` and `t_scheduler_fiber`, and the assertion that the thread has no scheduler yet. The model records only `hasRoot`; the root fiber's state is the parameter `rootState` of `Scheduling.Stop`.
- Scheduling.Step: what a resumed fiber or callback does while it runs is not modelled. Its own calls to `schedule`, `stop` or `addTimer`, and the idle fiber's queueing and triggering in `IOManager::idle` (iomanager.cpp:303-304, 347-353), are not part of the iteration: the state it returns in is the parameter `after`, and the scheduler is the one before the swap. `IOManager.IdleRound` states the idle fiber's effect separately.

## Findings

| source | as written | input that shows it | evidently intended | confidence | as-written member | corrected member |
|---|---|---|---|---|---|---|
| CppServer/iomanager.cpp:287 | the clamp compares `(int) next_timeout` and passes `(int) next_timeout` to `epoll_wait` | a next timer 0x8000_0000 ms away gives the wait -2^31, so `epoll_wait` blocks indefinitely; one 2^32 ms away gives 0, a busy loop | wait at most 5000 ms | not executed | IOManager.WaitTimeoutCastCounterexample | IOManager.WaitTimeout |
| CppServer/hook.cpp:167 | `seconds*1000` is computed in `unsigned int` | sleep(4294968) sets a 704 ms timer | a timer of exactly the requested seconds | not executed | Hooks.SleepWrapCounterexample | Hooks.Sleep |
| CppServer/hook.cpp:192 | `timeout_ms` is an `int`, so the `long` sum is narrowed to 32 bits before `addTimer` widens it to `uint64_t` | nanosleep of 2147483 s and 648000000 ns arms a timer of 2^64 - 2^31 ms, whose deadline is already past | a timer of the requested whole milliseconds | not executed | Hooks.NanosleepWrapCounterexample | Hooks.Nanosleep |
| CppServer/hook.cpp:381-385 | the O_NONBLOCK bit is rewritten on the return value even when F_GETFL failed | a failing F_GETFL on a blocking socket returns -2049 instead of -1 | -1 passed through unchanged | not executed | Hooks.GetflErrorCounterexample | Hooks.FcntlGetfl |
| CppServer/log.cpp:280-283 | `%%` appends one `%` but the loop does not skip the second `%` | "100%%" gives the literal "100%" followed by a specifier with an empty name | `%%` stands for one literal `%` | not executed | LogFormat.PercentEscapeCounterexample | LogFormat.LexUnparse |
| CppServer/log.cpp:359-362 | after pushing the error item for an unknown name, `it->second` is still called on `end()` | the pattern "%x" dereferences the end iterator | the error literal alone | not executed | LogFormat.UnknownSpecifierCounterexample | LogFormat.Resolve |

=== FILE: basics.dfy ===
/**
  Shared vocabulary of the runtime model: an optional value (the source's
  null pointers and empty `std::function`s) and the machine-integer
  conversions the C++ code relies on implicitly.
 */
module Basics {

  /** A nullable slot: a `shared_ptr`, a raw pointer or a `std::function`. */
  datatype Option<+T> = None | Some(value: T)

  const TWO_32: nat := 0x1_0000_0000
  const TWO_64: nat := 0x1_0000_0000_0000_0000

  /** All-ones 64-bit value: `~0ull` and `(uint64_t) -1`. */
  const MAX_U64: nat := TWO_64 - 1

  type u64 = x: nat | x < 0x1_0000_0000_0000_0000

  /** Reduction of any integer modulo 2^64, as a conversion to `uint64_t` does. */
  function ToU64(x: int): (r: u64)
    ensures 0 <= x < TWO_64 ==> r == x
    ensures (r - x) % TWO_64 == 0
  {
    x % TWO_64
  }

  /** `uint64_t` addition. */
  function Add64(a: u64, b: u64): u64
  {
    if a + b < TWO_64 then a + b else a + b - TWO_64
  }

  /** `uint64_t` subtraction. */
  function Sub64(a: u64, b: u64): u64
  {
    if b <= a then a - b else a - b + TWO_64
  }

  /** Conversion of a 64-bit unsigned value to a 32-bit `int` (two's complement, as GCC does it). */
  function ToInt32(x: u64): (r: int)
    ensures -0x8000_0000 <= r < 0x8000_0000
    ensures (r - x) % TWO_32 == 0
  {
    var low := x % TWO_32;
    if low < 0x8000_0000 then low else low - TWO_32
  }

  /** C division: truncates toward zero (Dafny's `/` is Euclidean). */
  function CDiv(a: int, b: int): int
    requires b > 0
  {
    if a >= 0 then a / b else -((-a) / b)
  }
}

=== FILE: config.dfy ===
/**
  The configuration registry (config.h): `ConfigVarBase`, `ConfigVar<T>`
  and the two `Config::Lookup` overloads over the name map `s_datas`.

  C++'s per-variable template type becomes a type tag: a variable of tag
  `t` is what `ConfigVar<T>` is for one `T`, and `dynamic_pointer_cast`
  succeeds exactly when the tags agree. The values of every type are drawn
  from one type parameter `V`. `boost::lexical_cast` and the YAML
  conversions are parameters: the outcome of a conversion, or `None` when
  it throws.
 */
module Config {
  import opened Basics

  /** `ConfigVar<T>`: lowercased name, description, type tag and current value. */
  datatype Var<V> = Var(name: string, description: string, typ: nat, val: V)

  /** `Config::ConfigVarMap`: the registry, keyed by the name passed to `Lookup`. */
  type Registry<V> = map<string, Var<V>>

  /** The characters `Lookup` accepts in a new name. */
  predicate NameChar(c: char) {
    ('a' <= c <= 'z') || c == '.' || c == '_' || ('0' <= c <= '9')
  }

  predicate ValidName(name: string) {
    forall k :: 0 <= k < |name| ==> NameChar(name[k])
  }

  /** `::tolower` in the C locale. */
  function Lower(c: char): (r: char)
    ensures 'A' <= c <= 'Z' ==> 'a' <= r <= 'z' && r as int - c as int == 32
    ensures !('A' <= c <= 'Z') ==> r == c
  {
    if 'A' <= c <= 'Z' then (c as int + 32) as char else c
  }

  /** `std::transform(..., ::tolower)` over the whole name. */
  function ToLower(s: string): (r: string)
    ensures |r| == |s| && forall k :: 0 <= k < |s| ==> r[k] == Lower(s[k])
  {
    if |s| == 0 then [] else [Lower(s[0])] + ToLower(s[1..])
  }

  /** `ConfigVar(name, default_value, description)`: the name is stored lowercased. */
  function NewVar<V>(name: string, default: V, description: string, typ: nat): (v: Var<V>)
    ensures v.name == ToLower(name) && v.val == default
    ensures v.description == description && v.typ == typ
  {
    Var(ToLower(name), description, typ, default)
  }

  /** A name made of accepted characters is already lower case. */
  lemma {:induction false} LowerOfValid(name: string)
    requires ValidName(name)
    ensures ToLower(name) == name
  {
    assert forall k :: 0 <= k < |name| ==> Lower(name[k]) == name[k];
  }

  /** What the registry maintains: every key is a valid name and is its variable's own name. */
  ghost predicate Valid<V>(reg: Registry<V>) {
    forall n :: n in reg ==> ValidName(n) && reg[n].name == n
  }

  /** `Config::Lookup<T>(name)`: the variable, when the name is present with this type. */
  function Find<V>(reg: Registry<V>, name: string, typ: nat): (r: Option<Var<V>>)
    ensures r.Some? <==> name in reg && reg[name].typ == typ
    ensures r.Some? ==> r.value == reg[name]
  {
    if name in reg && reg[name].typ == typ then Some(reg[name]) else None
  }

  /** The registry after `Lookup(name, default)` and the variable it returns (`None`: it threw `invalid_argument`). */
  datatype Lookup<V> = Lookup(reg: Registry<V>, found: Option<Var<V>>)

  /**
    `Config::Lookup<T>(name, default_value, description)`: an existing
    variable of this type is returned as it is; otherwise a name with a
    character outside the accepted set throws, and a valid one gets a new
    variable holding the default, replacing an entry of another type.
   */
  function LookupOrCreate<V>(reg: Registry<V>, name: string, typ: nat, default: V, description: string): (r: Lookup<V>)
    ensures Find(reg, name, typ).Some? ==> r.reg == reg && r.found == Find(reg, name, typ)
    ensures Find(reg, name, typ).None? && !ValidName(name) ==> r.reg == reg && r.found.None?
    ensures Find(reg, name, typ).None? && ValidName(name) ==>
              && r.found == Some(Var(name, description, typ, default))
              && r.reg == reg[name := r.found.value]
    ensures Valid(reg) ==> Valid(r.reg)
  {
    var existing := Find(reg, name, typ);
    if existing.Some? then Lookup(reg, existing)
    else if !ValidName(name) then Lookup(reg, None)
    else
      LowerOfValid(name);
      var v := NewVar(name, default, description, typ);
      Lookup(reg[name := v], Some(v))
  }

  /** Looking a name up again returns the same variable, ignores the second default and changes nothing. */
  lemma LookupIdempotent<V>(reg: Registry<V>, name: string, typ: nat, d1: V, d2: V, desc1: string, desc2: string)
    requires LookupOrCreate(reg, name, typ, d1, desc1).found.Some?
    ensures var first := LookupOrCreate(reg, name, typ, d1, desc1);
            var second := LookupOrCreate(first.reg, name, typ, d2, desc2);
            second == first
  {
  }

  /** A name with an upper-case letter is never found in a valid registry and is rejected. */
  lemma UpperCaseRejected<V>(reg: Registry<V>, name: string, typ: nat, default: V, desc: string, k: nat)
    requires Valid(reg) && k < |name| && 'A' <= name[k] <= 'Z'
    ensures Find(reg, name, typ).None?
    ensures LookupOrCreate(reg, name, typ, default, desc) == Lookup(reg, None)
  {
    assert !NameChar(name[k]);
  }

  /** A lookup with another type replaces the variable: afterwards only the new type finds it. */
  lemma TypeChangeReplaces<V>(reg: Registry<V>, name: string, t1: nat, t2: nat, default: V, desc: string)
    requires name in reg && reg[name].typ == t1 && t1 != t2 && ValidName(name)
    ensures var r := LookupOrCreate(reg, name, t2, default, desc);
            && Find(r.reg, name, t1).None?
            && Find(r.reg, name, t2) == Some(Var(name, desc, t2, default))
  {
  }

  /** `ConfigVar::getValue`. */
  function GetValue<V>(v: Var<V>): (r: V)
    ensures r == v.val
  {
    v.val
  }

  /** `ConfigVar::setValue`: only the value changes. */
  function SetValue<V>(v: Var<V>, x: V): (r: Var<V>)
    ensures r.name == v.name && r.description == v.description && r.typ == v.typ
    ensures GetValue(r) == x
  {
    v.(val := x)
  }

  /**
    `ConfigVar::fromString`: a conversion that succeeds sets the value, one
    that throws leaves it; either way the result is `false`.
   */
  function FromString<V>(v: Var<V>, parsed: Option<V>): (r: (Var<V>, bool))
    ensures !r.1
    ensures parsed.Some? ==> r.0 == SetValue(v, parsed.value)
    ensures parsed.None? ==> r.0 == v
  {
    match parsed
    case Some(x) => (SetValue(v, x), false)
    case None => (v, false)
  }

  /** `ConfigVar::toString`: the converted text, or "" when the conversion throws. */
  function ToString<V>(v: Var<V>, shown: V -> Option<string>): (r: string)
    ensures shown(v.val).Some? ==> r == shown(v.val).value
    ensures shown(v.val).None? ==> r == ""
  {
    match shown(v.val)
    case Some(s) => s
    case None => ""
  }

  /**
    Variables are shared: setting the value of the one `Lookup` returned
    is seen by every later lookup of the name.
   */
  function SetInRegistry<V>(reg: Registry<V>, name: string, x: V): (r: Registry<V>)
    requires name in reg
    ensures r.Keys == reg.Keys
    ensures r[name] == SetValue(reg[name], x)
    ensures forall n :: n in reg && n != name ==> r[n] == reg[n]
    ensures Valid(reg) ==> Valid(r)
  {
    reg[name := SetValue(reg[name], x)]
  }

  /** `getValue` returns the last value set, and a second `Lookup` returns that value, not its new default. */
  lemma SetThenLookup<V>(reg: Registry<V>, name: string, typ: nat, d: V, x: V, desc: string)
    requires LookupOrCreate(reg, name, typ, d, desc).found.Some?
    ensures var first := LookupOrCreate(reg, name, typ, d, desc);
            var reg' := SetInRegistry(first.reg, name, x);
            var again := LookupOrCreate(reg', name, typ, d, desc);
            again.found.Some? && GetValue(again.found.value) == x && again.reg == reg'
  {
    var first := LookupOrCreate(reg, name, typ, d, desc);
    assert name in first.reg && first.reg[name].typ == typ;
  }

  /** A conversion that succeeds and then prints back the same text gives a round trip through the string form. */
  lemma FromStringToString<V>(v: Var<V>, text: string, parse: string -> Option<V>, shown: V -> Option<string>)
    requires parse(text).Some? && shown(parse(text).value) == Some(text)
    ensures ToString(FromString(v, parse(text)).0, shown) == text
    ensures !FromString(v, parse(text)).1
  {
  }
}

=== FILE: endian.dfy ===
/**
  Byte-order helpers of `endian.h`: `byteswap` on 2-, 4- and 8-byte
  integers and the host-order selectors built on it.

  An integer of `w` bytes is a natural number below 256^w; its bytes are
  read least significant first. The signed instantiations (`int16_t`,
  `int32_t`, `int64_t`) are modelled by their two's-complement bit pattern,
  that is, by a natural number below 256^w.
 */
module Endian {

  /** The only operand sizes `byteswap` is instantiated for (`enable_if` on sizeof). */
  datatype Width = W16 | W32 | W64 {
    function Bytes(): nat {
      match this
      case W16 => 2
      case W32 => 4
      case W64 => 8
    }
  }

  datatype ByteOrder = LittleEndian | BigEndian

  function Pow256(n: nat): (r: nat)
    ensures r > 0
  {
    if n == 0 then 1 else 256 * Pow256(n - 1)
  }

  predicate Fits(w: Width, x: nat) {
    x < Pow256(w.Bytes())
  }

  predicate IsByteSeq(bs: seq<nat>) {
    forall i :: 0 <= i < |bs| ==> bs[i] < 256
  }

  /** The `n` low-order bytes of `x`, least significant first. */
  function ToBytes(x: nat, n: nat): (bs: seq<nat>)
    ensures |bs| == n
    ensures IsByteSeq(bs)
  {
    if n == 0 then [] else [x % 256] + ToBytes(x / 256, n - 1)
  }

  /** The number whose bytes, least significant first, are `bs`. */
  function FromBytes(bs: seq<nat>): (x: nat)
    requires IsByteSeq(bs)
    ensures x < Pow256(|bs|)
  {
    if |bs| == 0 then 0 else bs[0] + 256 * FromBytes(bs[1..])
  }

  function Reverse<T>(s: seq<T>): (r: seq<T>)
    ensures |r| == |s|
    ensures forall i :: 0 <= i < |s| ==> r[i] == s[|s| - 1 - i]
  {
    if |s| == 0 then [] else Reverse(s[1..]) + [s[0]]
  }

  lemma {:induction false} ReverseReverse<T>(s: seq<T>)
    ensures Reverse(Reverse(s)) == s
  {
    var r := Reverse(Reverse(s));
    assert |r| == |s|;
    forall i | 0 <= i < |s|
      ensures r[i] == s[i]
    {
    }
  }

  lemma {:induction false} FromToBytes(x: nat, n: nat)
    requires x < Pow256(n)
    ensures FromBytes(ToBytes(x, n)) == x
  {
    if n > 0 {
      FromToBytes(x / 256, n - 1);
      assert ToBytes(x, n)[1..] == ToBytes(x / 256, n - 1);
    }
  }

  lemma {:induction false} ToFromBytes(bs: seq<nat>)
    requires IsByteSeq(bs)
    ensures ToBytes(FromBytes(bs), |bs|) == bs
  {
    if |bs| > 0 {
      ToFromBytes(bs[1..]);
      var x := FromBytes(bs);
      assert x % 256 == bs[0];
      assert x / 256 == FromBytes(bs[1..]);
    }
  }

  /** `bswap_16`, `bswap_32` and `bswap_64`: the value whose bytes are those of `x` in reverse order. */
  function Byteswap(w: Width, x: nat): (r: nat)
    requires Fits(w, x)
    ensures Fits(w, r)
    ensures ToBytes(r, w.Bytes()) == Reverse(ToBytes(x, w.Bytes()))
  {
    var rev := Reverse(ToBytes(x, w.Bytes()));
    ToFromBytes(rev);
    FromBytes(rev)
  }

  /** Swapping twice restores the value. */
  lemma {:induction false} ByteswapInvolutive(w: Width, x: nat)
    requires Fits(w, x)
    ensures Byteswap(w, Byteswap(w, x)) == x
  {
    var n := w.Bytes();
    var y := Byteswap(w, x);
    ReverseReverse(ToBytes(x, n));
    assert ToBytes(Byteswap(w, y), n) == ToBytes(x, n);
    FromToBytes(Byteswap(w, y), n);
    FromToBytes(x, n);
  }

  /** `byteswapOnLittleEndian`: swaps only on a little-endian host. */
  function ByteswapOnLittleEndian(host: ByteOrder, w: Width, x: nat): (r: nat)
    requires Fits(w, x)
    ensures host == LittleEndian ==> r == Byteswap(w, x)
    ensures host == BigEndian ==> r == x
  {
    match host
    case LittleEndian => Byteswap(w, x)
    case BigEndian => x
  }

  /** `byteswapOnBigEndian`: swaps only on a big-endian host. */
  function ByteswapOnBigEndian(host: ByteOrder, w: Width, x: nat): (r: nat)
    requires Fits(w, x)
    ensures host == BigEndian ==> r == Byteswap(w, x)
    ensures host == LittleEndian ==> r == x
  {
    match host
    case LittleEndian => x
    case BigEndian => Byteswap(w, x)
  }

  /** On any host exactly one of the two selectors swaps, so each undoes the other's swap. */
  lemma {:induction false} SelectorsComplement(host: ByteOrder, w: Width, x: nat)
    requires Fits(w, x)
    ensures ByteswapOnLittleEndian(host, w, ByteswapOnBigEndian(host, w, x)) == Byteswap(w, x)
    ensures ByteswapOnLittleEndian(host, w, ByteswapOnLittleEndian(host, w, x)) == x
    ensures ByteswapOnBigEndian(host, w, ByteswapOnBigEndian(host, w, x)) == x
  {
    ByteswapInvolutive(w, x);
  }

  /** A concrete check of the byte order: 0x1234 becomes 0x3412. */
  lemma Swap16Example()
    ensures Byteswap(W16, 0x1234) == 0x3412
  {
    assert ToBytes(0x1234, 2) == [0x34, 0x12];
    assert Reverse([0x34, 0x12]) == [0x12, 0x34];
    assert FromBytes([0x12, 0x34]) == 0x3412 by {
      assert [0x12, 0x34][1..] == [0x34];
      assert [0x34][1..] == [];
    }
  }
}

=== FILE: fiber.dfy ===
/**
  `Fiber` (fiber.h, fiber.cpp): the state field, the id and live-count
  bookkeeping, and the thread-local notion of "current fiber".

  Stack memory and `ucontext` switching are abstracted away: resuming a
  fiber only changes its state and the thread's current pointer. Fiber
  objects live in an arena keyed by a handle (their address); a thread
  context records `t_fiber`, `t_threadFiber` and the scheduler's
  `t_scheduler_fiber`.
 */
module Fibers {
  import opened Basics

  /** `Fiber::State`: exactly six states. */
  datatype State = Init | Hold | Exec | Term | Ready | Except

  type Handle = nat

  /** A callback is identified by an opaque token. */
  type Callback = nat

  /** The fields of `Fiber` the model keeps; `ownsStack` is `m_stack != nullptr`. */
  datatype Fiber = Fiber(
    id: nat,
    stackSize: nat,
    state: State,
    ownsStack: bool,
    cb: Option<Callback>,
    callerMain: bool   // entered through CallerMainFunc (returns with back()) rather than MainFunc
  )

  /** `s_fiber_id` (last id handed out) and `s_fiber_count` (live fibers). */
  datatype Counters = Counters(lastId: nat, live: nat)

  /** Per-thread pointers: `t_fiber`, `t_threadFiber`, and the scheduler's `t_scheduler_fiber`. */
  datatype Thread = Thread(
    fibers: map<Handle, Fiber>,
    current: Option<Handle>,
    threadFiber: Option<Handle>,
    schedulerFiber: Option<Handle>
  )

  /** The `fiber.stack_size` configuration default: 1 MiB. */
  const DEFAULT_STACK_SIZE: nat := 1024 * 1024

  /** A fiber whose state is one of these may be reset or destroyed. */
  predicate Finished(s: State) {
    s == Term || s == Init || s == Except
  }

  /** The thread's current fiber is always the one executing. */
  ghost predicate Valid(t: Thread) {
    && (t.current.Some? ==> t.current.value in t.fibers && t.fibers[t.current.value].state == Exec)
    && (t.threadFiber.Some? ==> t.threadFiber.value in t.fibers && !t.fibers[t.threadFiber.value].ownsStack)
    && (t.schedulerFiber.Some? ==> t.schedulerFiber.value in t.fibers)
  }

  /** The data-member defaults of `Fiber` before any constructor body runs. */
  function Blank(): (f: Fiber)
    ensures f.id == 0 && f.state == Init && !f.ownsStack && f.stackSize == 0 && f.cb.None?
  {
    Fiber(0, 0, Init, false, None, false)
  }

  /**
    `Fiber(cb, stacksize = 0, use_caller = false)`: takes the next id,
    counts itself live, and owns a stack of the requested size (0 means
    the configured default); `m_stacksize` is 32-bit.
   */
  function NewFiber(c: Counters, cb: Option<Callback>, stackSize: nat, configured: nat, useCaller: bool): (r: (Counters, Fiber))
    ensures r.1.id == c.lastId + 1 && r.0.lastId == r.1.id
    ensures r.0.live == c.live + 1
    ensures r.1.state == Init && r.1.ownsStack && r.1.cb == cb && r.1.callerMain == useCaller
    ensures stackSize == 0 && configured < TWO_32 ==> r.1.stackSize == configured
    ensures 0 < stackSize < TWO_32 ==> r.1.stackSize == stackSize
  {
    var size := (if stackSize == 0 then configured else stackSize) % TWO_32;
    (Counters(c.lastId + 1, c.live + 1), Fiber(c.lastId + 1, size, Init, true, cb, useCaller))
  }

  /** With the default arguments a fiber gets the 1 MiB configured stack and the ordinary trampoline. */
  lemma DefaultArguments(c: Counters, cb: Option<Callback>)
    ensures NewFiber(c, cb, 0, DEFAULT_STACK_SIZE, false).1.stackSize == DEFAULT_STACK_SIZE
    ensures !NewFiber(c, cb, 0, DEFAULT_STACK_SIZE, false).1.callerMain
  {
  }

  /** Ids handed out by successive constructions strictly increase and never collide with a main fiber's id 0. */
  lemma {:induction false} IdsIncrease(c: Counters, cb1: Option<Callback>, cb2: Option<Callback>, s1: nat, s2: nat, d: nat, u1: bool, u2: bool)
    ensures var (c1, f1) := NewFiber(c, cb1, s1, d, u1);
            var (c2, f2) := NewFiber(c1, cb2, s2, d, u2);
            0 < f1.id < f2.id
  {
  }

  /**
    `Fiber::GetThis`: returns the current fiber, creating the thread's
    main fiber (id 0, no stack, already executing) at handle `h` when
    there is none.
   */
  function GetThis(t: Thread, c: Counters, h: Handle): (r: (Thread, Counters, Handle))
    requires Valid(t)
    requires t.current.None? ==> h !in t.fibers
    ensures Valid(r.0)
    ensures r.0.current == Some(r.2)
    ensures t.current.Some? ==> r == (t, c, t.current.value)
    ensures t.current.None? ==> && r.2 == h && r.0.threadFiber == Some(h)
                                && r.0.fibers == t.fibers[h := Fiber(0, 0, Exec, false, None, false)]
                                && r.1 == c.(live := c.live + 1)
  {
    if t.current.Some? then (t, c, t.current.value)
    else
      var main := Fiber(0, 0, Exec, false, None, false);
      (t.(fibers := t.fibers[h := main], current := Some(h), threadFiber := Some(h)), c.(live := c.live + 1), h)
  }

  /**
    `swapIn` and `call`: a fiber that is not executing becomes the
    executing, current one. (They differ only in which context is saved.)
   */
  function Resume(t: Thread, h: Handle): (r: Thread)
    requires Valid(t)
    requires h in t.fibers && t.fibers[h].state != Exec
    ensures Valid(r)
    ensures r.current == Some(h) && r.fibers[h] == t.fibers[h].(state := Exec)
    ensures forall g :: g in t.fibers && g != h ==> g in r.fibers && r.fibers[g] == t.fibers[g]
    ensures r.fibers.Keys == t.fibers.Keys
  {
    t.(fibers := t.fibers[h := t.fibers[h].(state := Exec)], current := Some(h))
  }

  /**
    `YieldToReady` / `YieldToHold`: the running fiber marks itself and
    switches back to the scheduling fiber, which becomes current.
   */
  function Yield(t: Thread, ready: bool): (r: Thread)
    requires Valid(t)
    requires t.current.Some? && t.schedulerFiber.Some? && t.schedulerFiber != t.current
    requires t.fibers[t.schedulerFiber.value].state == Exec
    ensures Valid(r)
    ensures r.current == t.schedulerFiber
    ensures r.fibers == t.fibers[t.current.value := t.fibers[t.current.value].(state := if ready then Ready else Hold)]
  {
    var cur := t.current.value;
    var s := if ready then Ready else Hold;
    t.(fibers := t.fibers[cur := t.fibers[cur].(state := s)], current := t.schedulerFiber)
  }

  /**
    End of `MainFunc` / `CallerMainFunc`: a normal return clears the
    callback and ends in TERM; an exception ends in EXCEPT with the
    callback kept. Control goes back to the scheduling fiber, or to the
    thread's main fiber for a use_caller fiber.
   */
  function Finish(t: Thread, threw: bool): (r: Thread)
    requires Valid(t)
    requires t.current.Some? && t.fibers[t.current.value].ownsStack
    requires var back := if t.fibers[t.current.value].callerMain then t.threadFiber else t.schedulerFiber;
             back.Some? && back != t.current && t.fibers[back.value].state == Exec
    ensures Valid(r)
    ensures var f := t.fibers[t.current.value];
            && r.fibers == t.fibers[t.current.value := if threw then f.(state := Except) else f.(state := Term, cb := None)]
            && r.current == (if f.callerMain then t.threadFiber else t.schedulerFiber)
  {
    var cur := t.current.value;
    var f := t.fibers[cur];
    var f' := if threw then f.(state := Except) else f.(state := Term, cb := None);
    t.(fibers := t.fibers[cur := f'], current := if f.callerMain then t.threadFiber else t.schedulerFiber)
  }

  /** `Fiber::reset`: a finished fiber with its own stack takes a new callback and starts over in INIT. */
  function Reset(f: Fiber, cb: Option<Callback>): (r: Fiber)
    requires f.ownsStack && Finished(f.state)
    ensures r.state == Init && r.cb == cb
    ensures r.id == f.id && r.stackSize == f.stackSize && r.ownsStack
  {
    f.(cb := cb, state := Init, callerMain := false)
  }

  /** The precondition `~Fiber` asserts. */
  predicate MayDestroy(f: Fiber) {
    if f.ownsStack then Finished(f.state) else f.cb.None? && f.state == Exec
  }

  /**
    `~Fiber`: one fewer live fiber; destroying the thread's main fiber
    while it is current clears the current pointer.
   */
  function Destroy(t: Thread, c: Counters, h: Handle): (r: (Thread, Counters))
    requires Valid(t) && h in t.fibers && MayDestroy(t.fibers[h]) && c.live > 0
    requires t.threadFiber == Some(h) ==> !t.fibers[h].ownsStack
    ensures Valid(r.0)
    ensures r.1 == c.(live := c.live - 1)
    ensures r.0.fibers == t.fibers - {h}
    ensures r.0.current == if t.current == Some(h) then None else t.current
  {
    var f := t.fibers[h];
    var current := if t.current == Some(h) then None else t.current;
    var threadFiber := if t.threadFiber == Some(h) then None else t.threadFiber;
    var schedFiber := if t.schedulerFiber == Some(h) then None else t.schedulerFiber;
    (Thread(t.fibers - {h}, current, threadFiber, schedFiber), c.(live := c.live - 1))
  }

  /** A stack-owning fiber is never the current one when it may be destroyed: only the main fiber can be. */
  lemma DestroyedCurrentIsMain(t: Thread, h: Handle)
    requires Valid(t) && h in t.fibers && MayDestroy(t.fibers[h]) && t.current == Some(h)
    ensures !t.fibers[h].ownsStack
  {
  }

  /** `Fiber::GetFiberId`: the current fiber's id, or 0 without one. */
  function GetFiberId(t: Thread): (id: nat)
    requires Valid(t)
    ensures t.current.None? ==> id == 0
    ensures t.current.Some? ==> id == t.fibers[t.current.value].id
  {
    if t.current.Some? then t.fibers[t.current.value].id else 0
  }

  /** Creating a fiber and destroying it again leaves the live count unchanged. */
  lemma LiveCountBalances(t: Thread, c: Counters, cb: Option<Callback>, size: nat, d: nat, h: Handle)
    requires Valid(t) && h !in t.fibers && t.threadFiber != Some(h)
    ensures var (c1, f) := NewFiber(c, cb, size, d, false);
            Destroy(t.(fibers := t.fibers[h := f]), c1, h).1.live == c.live
  {
    var (c1, f) := NewFiber(c, cb, size, d, false);
    var t1 := t.(fibers := t.fibers[h := f]);
    assert t.current != Some(h);
    assert Valid(t1);
  }

  /** A full life cycle: a new fiber runs, yields, is resumed, returns, and can then be reset for reuse. */
  lemma {:induction false} LifeCycle(t: Thread, c: Counters, cb: Callback, h: Handle, sched: Handle)
    requires Valid(t) && h !in t.fibers && sched in t.fibers && h != sched
    requires t.current == Some(sched) && t.schedulerFiber == Some(sched)
    ensures var (c1, f) := NewFiber(c, Some(cb), 0, DEFAULT_STACK_SIZE, false);
            var t1 := t.(fibers := t.fibers[h := f]);
            var t2 := Resume(t1, h);
            var t3 := Yield(t2, false);
            var t4 := Resume(t3, h);
            var t5 := Finish(t4, false);
            && t3.fibers[h].state == Hold
            && t5.fibers[h].state == Term && t5.fibers[h].cb.None?
            && t5.current == Some(sched)
            && Reset(t5.fibers[h], Some(cb)).state == Init
  {
    var (c1, f) := NewFiber(c, Some(cb), 0, DEFAULT_STACK_SIZE, false);
    var t1 := t.(fibers := t.fibers[h := f]);
    assert Valid(t1);
  }
}

=== FILE: hook.dfy ===
/**
  The hook layer (hook.cpp): the user- versus system-nonblock bookkeeping
  in `fcntl` and `ioctl`, the millisecond conversions of the sleep family
  and of `setsockopt` timeouts, and the decision trees of `do_io` and
  `connect_with_timeout`.

  Every libc call is an oracle: its return value and `errno` arrive as a
  `Call`, and what happens while a fiber waits (whether `addEvent`
  succeeded, whether the timeout timer fired first) arrives as a `Wait`.
  The thread-local `t_hook_enable` is the parameter `enabled`. The fd
  manager's per-descriptor record is `FdCtx`; FdManager itself is not part
  of this model.
 */
module Hooks {
  import opened Basics
  import IOManager

  /** Linux `errno` values the hooks set or test. */
  const EINTR: int := 4
  const EBADF: int := 9
  const EAGAIN: int := 11
  const ETIMEDOUT: int := 110
  const EINPROGRESS: int := 115

  /** `tcp.connect.timeout`'s registered default, in ms. */
  const CONNECT_TIMEOUT_DEFAULT: int := 5000

  type u32 = x: nat | x < 0x1_0000_0000

  /**
    A C `int` that `fcntl` takes or returns, as its 32-bit two's-complement
    pattern; `ERROR` is -1.
   */
  type Flags = u32

  const ERROR: Flags := 0xFFFF_FFFF

  /** Linux `O_NONBLOCK`, bit 11. */
  const O_NONBLOCK: nat := 0x800

  /** The signed value a bit pattern denotes. */
  function Signed(b: Flags): (x: int)
    ensures -0x8000_0000 <= x < 0x8000_0000
    ensures (x - b) % TWO_32 == 0
  {
    if b < 0x8000_0000 then b else b - TWO_32
  }

  /** `flags & O_NONBLOCK != 0`. */
  predicate Nonblocking(flags: Flags) {
    (flags / O_NONBLOCK) % 2 == 1
  }

  /** `flags & ~O_NONBLOCK`: every other bit. */
  function Others(flags: Flags): (r: Flags)
    ensures !Nonblocking(r)
  {
    if Nonblocking(flags) then flags - O_NONBLOCK else flags
  }

  /** `flags | O_NONBLOCK` when `on`, `flags & ~O_NONBLOCK` otherwise. */
  function WithNonblock(flags: Flags, on: bool): (r: Flags)
    ensures Nonblocking(r) == on
    ensures Others(r) == Others(flags)
  {
    if on then Others(flags) + O_NONBLOCK else Others(flags)
  }

  /** A flag word is its O_NONBLOCK bit together with the other bits. */
  lemma FlagsDetermined(x: Flags, y: Flags)
    requires Others(x) == Others(y) && Nonblocking(x) == Nonblocking(y)
    ensures x == y
  {
  }

  /** The fd manager's record of one descriptor, as far as the hooks read and write it. */
  datatype FdCtx = FdCtx(
    closed: bool,
    socket: bool,
    userNonblock: bool,   // O_NONBLOCK as the application set it
    sysNonblock: bool,    // O_NONBLOCK as it really is on the descriptor
    recvTimeout: u64,     // SO_RCVTIMEO in ms, (uint64_t)-1 for none
    sendTimeout: u64      // SO_SNDTIMEO in ms
  )

  /** Which of the two per-descriptor timeouts an operation uses. */
  datatype Dir = RecvTimeout | SendTimeout

  function Timeout(c: FdCtx, d: Dir): u64 {
    if d == RecvTimeout then c.recvTimeout else c.sendTimeout
  }

  /** The descriptors whose flags the hooks rewrite: tracked, open sockets. */
  predicate Intercepted(ctx: Option<FdCtx>) {
    ctx.Some? && !ctx.value.closed && ctx.value.socket
  }

  // ---------------------------------------------------------------------
  // fcntl and ioctl
  // ---------------------------------------------------------------------

  /**
    `fcntl(fd, F_SETFL, arg)`: on an intercepted descriptor the user's
    O_NONBLOCK bit is recorded and the OS receives `arg` with O_NONBLOCK
    forced to the system flag; otherwise `arg` goes through untouched.
    Returns the updated record and the argument the OS receives.
   */
  function FcntlSetfl(ctx: Option<FdCtx>, arg: Flags): (r: (Option<FdCtx>, Flags))
    ensures !Intercepted(ctx) ==> r == (ctx, arg)
    ensures Intercepted(ctx) ==>
              && r.0 == Some(ctx.value.(userNonblock := Nonblocking(arg)))
              && Nonblocking(r.1) == ctx.value.sysNonblock
              && Others(r.1) == Others(arg)
  {
    if !Intercepted(ctx) then (ctx, arg)
    else
      var c := ctx.value.(userNonblock := Nonblocking(arg));
      (Some(c), WithNonblock(arg, c.sysNonblock))
  }

  /**
    `fcntl(fd, F_GETFL)` as written: the OS's answer `rt` with O_NONBLOCK
    replaced by the user's flag, even when `rt` is the error value -1.
   */
  function FcntlGetflAsWritten(ctx: Option<FdCtx>, rt: Flags): (r: Flags)
    ensures !Intercepted(ctx) ==> r == rt
    ensures Intercepted(ctx) ==> Nonblocking(r) == ctx.value.userNonblock && Others(r) == Others(rt)
  {
    if !Intercepted(ctx) then rt
    else WithNonblock(rt, ctx.value.userNonblock)
  }

  /** A failing F_GETFL on a socket the user left blocking is reported as the flag set -2049, not as -1. */
  lemma GetflErrorCounterexample(c: FdCtx)
    requires !c.closed && c.socket && !c.userNonblock
    ensures FcntlGetflAsWritten(Some(c), ERROR) != ERROR
    ensures Signed(FcntlGetflAsWritten(Some(c), ERROR)) == -2049
  {
    assert FcntlGetflAsWritten(Some(c), ERROR) == 0xFFFF_F7FF;
  }

  /**
    `fcntl(fd, F_GETFL)` with the error passed through: -1 stays -1;
    otherwise the OS's flags are reported with O_NONBLOCK as the user set it.
   */
  function FcntlGetfl(ctx: Option<FdCtx>, rt: Flags): (r: Flags)
    ensures rt == ERROR ==> r == ERROR
    ensures !Intercepted(ctx) ==> r == rt
    ensures rt != ERROR && Intercepted(ctx) ==>
              Nonblocking(r) == ctx.value.userNonblock && Others(r) == Others(rt)
  {
    if rt == ERROR then ERROR else FcntlGetflAsWritten(ctx, rt)
  }

  /** Apart from the error value the corrected F_GETFL is the original one. */
  lemma GetflAgreesOnSuccess(ctx: Option<FdCtx>, rt: Flags)
    requires rt != ERROR || !Intercepted(ctx) || ctx.value.userNonblock
    ensures FcntlGetfl(ctx, rt) == FcntlGetflAsWritten(ctx, rt)
  {
    if rt == ERROR && Intercepted(ctx) {
      FlagsDetermined(WithNonblock(rt, true), rt);
    }
  }

  /**
    The user's view round-trips: if the OS reports back the flags F_SETFL
    gave it (and they are not all ones, which would read as an error),
    F_GETFL returns exactly what the application set, whatever the system
    nonblock flag is.
   */
  lemma SetflThenGetfl(ctx: Option<FdCtx>, arg: Flags)
    requires Intercepted(ctx)
    requires WithNonblock(arg, true) != ERROR
    ensures var (c, os) := FcntlSetfl(ctx, arg); FcntlGetfl(c, os) == arg
  {
    var (c, os) := FcntlSetfl(ctx, arg);
    FlagsDetermined(FcntlGetfl(c, os), arg);
  }

  /**
    `ioctl(fd, request, arg)`: a FIONBIO request on an intercepted
    descriptor records `*arg != 0` as the user's nonblock flag. The request
    itself always goes to the OS unchanged.
   */
  function Ioctl(ctx: Option<FdCtx>, fionbio: bool, argValue: int): (r: Option<FdCtx>)
    ensures !(fionbio && Intercepted(ctx)) ==> r == ctx
    ensures fionbio && Intercepted(ctx) ==> r == Some(ctx.value.(userNonblock := argValue != 0))
  {
    if fionbio && Intercepted(ctx) then Some(ctx.value.(userNonblock := argValue != 0)) else ctx
  }

  /** Nonblocking mode set through FIONBIO is what F_GETFL reports afterwards. */
  lemma IoctlThenGetfl(ctx: Option<FdCtx>, v: int, rt: Flags)
    requires Intercepted(ctx) && rt != ERROR
    ensures Nonblocking(FcntlGetfl(Ioctl(ctx, true, v), rt)) <==> v != 0
  {
  }

  // ---------------------------------------------------------------------
  // Unit conversions
  // ---------------------------------------------------------------------

  /** `tv_sec * 1000 + tv_usec / 1000` in `long`, stored as the record's `uint64_t` timeout. */
  function TimevalMs(sec: int, usec: int): (ms: u64)
    ensures 0 <= sec && 0 <= usec && sec * 1000 + usec / 1000 < TWO_64 ==>
              ms * 1000 <= sec * 1_000_000 + usec < (ms + 1) * 1000
  {
    ToU64(sec * 1000 + CDiv(usec, 1000))
  }

  /** Which socket option a `setsockopt` call names. */
  datatype SockOpt = RcvTimeo | SndTimeo | OtherOpt

  /**
    `setsockopt`: with hooking on, a SOL_SOCKET receive or send timeout on
    a tracked descriptor (closed or not, socket or not) is captured in ms.
    The call always goes to the OS as well.
   */
  function Setsockopt(enabled: bool, ctx: Option<FdCtx>, solSocket: bool, opt: SockOpt, sec: int, usec: int): (r: Option<FdCtx>)
    ensures !(enabled && solSocket && ctx.Some?) || opt == OtherOpt ==> r == ctx
    ensures enabled && solSocket && ctx.Some? && opt == RcvTimeo ==>
              r == Some(ctx.value.(recvTimeout := TimevalMs(sec, usec)))
    ensures enabled && solSocket && ctx.Some? && opt == SndTimeo ==>
              r == Some(ctx.value.(sendTimeout := TimevalMs(sec, usec)))
  {
    if !enabled || !solSocket || ctx.None? then ctx
    else match opt
      case RcvTimeo => Some(ctx.value.(recvTimeout := TimevalMs(sec, usec)))
      case SndTimeo => Some(ctx.value.(sendTimeout := TimevalMs(sec, usec)))
      case OtherOpt => ctx
  }

  /**
    `sleep(seconds)` as written: with hooking off it goes to libc (`None`);
    otherwise it arms a timer of `seconds * 1000` ms computed in 32-bit
    `unsigned int`, so the product wraps.
   */
  function SleepAsWritten(enabled: bool, seconds: u32): (ms: Option<u64>)
    ensures ms.None? <==> !enabled
    ensures enabled && seconds * 1000 < TWO_32 ==> ms == Some(seconds * 1000)
  {
    if !enabled then None else Some((seconds * 1000) % TWO_32)
  }

  /** A sleep of 4294968 s, about 50 days, wakes after 704 ms. */
  lemma SleepWrapCounterexample()
    ensures SleepAsWritten(true, 4_294_968) == Some(704)
  {
  }

  /** `sleep` with the product widened to 64 bits: the timer lasts exactly the requested seconds. */
  function Sleep(enabled: bool, seconds: u32): (ms: Option<u64>)
    ensures ms.None? <==> !enabled
    ensures ms.Some? ==> ms.value % 1000 == 0 && ms.value / 1000 == seconds
  {
    if !enabled then None else Some(seconds * 1000)
  }

  /** The two agree for every sleep shorter than 2^32 ms. */
  lemma SleepAgreesBelowWrap(enabled: bool, seconds: u32)
    requires seconds <= 4_294_967
    ensures Sleep(enabled, seconds) == SleepAsWritten(enabled, seconds)
  {
  }

  /** `usleep(usec)`: a timer of `usec / 1000` ms, the whole milliseconds in the request. */
  function Usleep(enabled: bool, usec: u32): (ms: Option<u64>)
    ensures ms.None? <==> !enabled
    ensures ms.Some? ==> ms.value * 1000 <= usec < (ms.value + 1) * 1000
  {
    if !enabled then None else Some(usec / 1000)
  }

  /** For `n >= 0`, two C divisions by 1000 are one division by a million. */
  lemma DivDiv(n: int)
    requires n >= 0
    ensures CDiv(CDiv(n, 1000), 1000) == n / 1_000_000
  {
    var q := n / 1_000_000;
    var m := n % 1_000_000;
    assert n == q * 1_000_000 + m;
    assert n / 1000 == q * 1000 + m / 1000;
    assert (q * 1000 + m / 1000) / 1000 == q;
  }

  /**
    `nanosleep(req)` as written: `tv_sec * 1000 + tv_nsec / 1000 / 1000` is
    computed in `long`, narrowed to `int timeout_ms` (the narrowing keeps the
    low 32 bits as a two's-complement value) and then widened to `addTimer`'s
    `uint64_t`. Within `int` range the timer holds the whole milliseconds of
    the request; from 2^31 ms on, the `int` is negative.
   */
  function NanosleepAsWritten(enabled: bool, sec: int, nsec: int): (ms: Option<u64>)
    ensures ms.None? <==> !enabled
    ensures enabled && 0 <= sec && 0 <= nsec && sec * 1000 + nsec / 1_000_000 < 0x8000_0000 ==>
              ms.value * 1_000_000 <= sec * 1_000_000_000 + nsec < (ms.value + 1) * 1_000_000
    ensures enabled && 0 <= sec && 0 <= nsec ==>
              (ms.value - ToInt32(ToU64(sec * 1000 + nsec / 1_000_000))) % TWO_64 == 0
  {
    if !enabled then None
    else
      var q := CDiv(CDiv(nsec, 1000), 1000);
      assert 0 <= nsec ==> q == nsec / 1_000_000 by {
        if 0 <= nsec { DivDiv(nsec); }
      }
      var total := sec * 1000 + q;
      Some(ToU64(ToInt32(ToU64(total))))
  }

  /**
    A request of 2147483.648 s, 2^31 ms, narrows to `INT_MIN` and arms a timer
    of 2^64 - 2^31 ms; once the clock is past 2^31 ms its deadline `now + ms`
    wraps to 2^31 ms in the past, so the fiber is woken at the next harvest.
   */
  lemma NanosleepWrapCounterexample(now: u64)
    requires now >= 0x8000_0000
    ensures NanosleepAsWritten(true, 2_147_483, 648_000_000) == Some(TWO_64 - 0x8000_0000)
    ensures Add64(now, TWO_64 - 0x8000_0000) == now - 0x8000_0000
  {
    assert CDiv(CDiv(648_000_000, 1000), 1000) == 648;
  }

  /**
    `nanosleep` with `timeout_ms` kept as the `uint64_t` that `addTimer`
    takes: the timer holds the whole milliseconds of any request that fits.
   */
  function Nanosleep(enabled: bool, sec: int, nsec: int): (ms: Option<u64>)
    ensures ms.None? <==> !enabled
    ensures enabled && 0 <= sec && 0 <= nsec && sec * 1000 + nsec / 1_000_000 < TWO_64 ==>
              ms.value * 1_000_000 <= sec * 1_000_000_000 + nsec < (ms.value + 1) * 1_000_000
  {
    if !enabled then None
    else
      var q := CDiv(CDiv(nsec, 1000), 1000);
      assert 0 <= nsec ==> q == nsec / 1_000_000 by {
        if 0 <= nsec { DivDiv(nsec); }
      }
      Some(ToU64(sec * 1000 + q))
  }

  /** The two agree for every request shorter than 2^31 ms. */
  lemma NanosleepAgreesBelowWrap(enabled: bool, sec: int, nsec: int)
    requires 0 <= sec && 0 <= nsec && sec * 1000 + nsec / 1_000_000 < 0x8000_0000
    ensures Nanosleep(enabled, sec, nsec) == NanosleepAsWritten(enabled, sec, nsec)
  {
    DivDiv(nsec);
  }

  /**
    `s_connect_timeout`: the `int` configuration value widened to
    `uint64_t`; -1 becomes (uint64_t)-1, which arms no timer.
   */
  function ConnectTimeout(config: int): (t: u64)
    ensures 0 <= config < TWO_64 ==> t == config
    ensures config == -1 ==> t == MAX_U64
  {
    ToU64(config)
  }

  // ---------------------------------------------------------------------
  // do_io
  // ---------------------------------------------------------------------

  /** One underlying libc call: its return value and the `errno` it left. */
  datatype Call = Call(n: int, err: int)

  /** One wait for readiness: did `addEvent` succeed, and did the timeout timer fire before the event? */
  datatype Wait = Wait(added: bool, timerFired: bool)

  /** What a hooked call returns. */
  datatype Outcome =
    | Passed(call: Call)   // the underlying call's result and errno, as they are
    | Failed(err: int)     // -1 with errno set by the hook
    | Returned(n: int)     // n, errno not set by the hook
    | AddFailed            // -1 after addEvent failed
    | OutOfTrace           // the supplied oracle results ran out

  predicate Interrupted(c: Call) { c.n == -1 && c.err == EINTR }
  predicate WouldBlock(c: Call) { c.n == -1 && c.err == EAGAIN }

  /** How `do_io` treats a descriptor. */
  datatype Route = Direct | BadFd | Managed(timeout: u64)

  function RouteOf(enabled: bool, ctx: Option<FdCtx>, d: Dir): (p: Route)
    ensures p == BadFd <==> enabled && ctx.Some? && ctx.value.closed
    ensures p.Managed? <==> enabled && Intercepted(ctx) && !ctx.value.userNonblock
    ensures p.Managed? ==> p.timeout == Timeout(ctx.value, d)
  {
    if !enabled || ctx.None? then Direct
    else if ctx.value.closed then BadFd
    else if !ctx.value.socket || ctx.value.userNonblock then Direct
    else Managed(Timeout(ctx.value, d))
  }

  /**
    The retry loop of `do_io` from call `i` and wait `j` on: interrupted
    calls are repeated, a would-block call waits (a timer is armed unless
    the timeout is (uint64_t)-1), a timeout ends in ETIMEDOUT, a failed
    `addEvent` ends the call, and a wake-up retries.
   */
  function Retry(calls: seq<Call>, waits: seq<Wait>, timeout: u64, i: nat, j: nat): (r: Outcome)
    requires i <= |calls| && j <= |waits|
    ensures r.Passed? ==> !Interrupted(r.call) && !WouldBlock(r.call) && r.call in calls[i..]
    ensures r.Failed? ==> r.err == ETIMEDOUT && timeout != MAX_U64
    ensures r.AddFailed? ==> exists k :: j <= k < |waits| && !waits[k].added
    ensures !r.Returned?
    decreases |calls| - i
  {
    if i == |calls| then OutOfTrace
    else if Interrupted(calls[i]) then Retry(calls, waits, timeout, i + 1, j)
    else if !WouldBlock(calls[i]) then Passed(calls[i])
    else if j == |waits| then OutOfTrace
    else if !waits[j].added then AddFailed
    else if waits[j].timerFired && timeout != MAX_U64 then Failed(ETIMEDOUT)
    else Retry(calls, waits, timeout, i + 1, j + 1)
  }

  /** The loop as the source writes it: an EINTR inner loop inside a `goto retry` outer loop. */
  method RunRetry(calls: seq<Call>, waits: seq<Wait>, timeout: u64) returns (r: Outcome)
    ensures r == Retry(calls, waits, timeout, 0, 0)
  {
    var i, j := 0, 0;
    while true
      invariant i <= |calls| && j <= |waits|
      invariant Retry(calls, waits, timeout, i, j) == Retry(calls, waits, timeout, 0, 0)
      decreases |calls| - i
    {
      ghost var i0 := i;
      while i < |calls| && Interrupted(calls[i])
        invariant i0 <= i <= |calls|
        invariant Retry(calls, waits, timeout, i, j) == Retry(calls, waits, timeout, 0, 0)
        decreases |calls| - i
      {
        i := i + 1;
      }
      if i == |calls| {
        return OutOfTrace;
      }
      var c := calls[i];
      if !WouldBlock(c) {
        return Passed(c);
      }
      if j == |waits| {
        return OutOfTrace;
      }
      var w := waits[j];
      if !w.added {
        return AddFailed;
      }
      if w.timerFired && timeout != MAX_U64 {
        return Failed(ETIMEDOUT);
      }
      i, j := i + 1, j + 1;
    }
  }

  /** A run of interrupted calls is invisible to the caller. */
  lemma {:induction false} InterruptsAreTransparent(calls: seq<Call>, waits: seq<Wait>, timeout: u64, i: nat, j: nat, k: nat)
    requires i + k <= |calls| && j <= |waits|
    requires forall m :: i <= m < i + k ==> Interrupted(calls[m])
    ensures Retry(calls, waits, timeout, i, j) == Retry(calls, waits, timeout, i + k, j)
    decreases k
  {
    if k > 0 {
      InterruptsAreTransparent(calls, waits, timeout, i + 1, j, k - 1);
    }
  }

  /**
    `do_io`: hooking off, an untracked fd, a non-socket or a user-nonblock
    descriptor make exactly one direct call; a closed descriptor fails with
    EBADF; everything else runs the retry loop with the direction's timeout.
   */
  function DoIo(enabled: bool, ctx: Option<FdCtx>, d: Dir, calls: seq<Call>, waits: seq<Wait>): (r: Outcome)
    ensures RouteOf(enabled, ctx, d) == Direct && |calls| > 0 ==> r == Passed(calls[0])
    ensures enabled && ctx.Some? && ctx.value.closed ==> r == Failed(EBADF)
    ensures r == Failed(ETIMEDOUT) ==> enabled && Intercepted(ctx) && Timeout(ctx.value, d) != MAX_U64
    ensures r.Passed? && enabled && Intercepted(ctx) && !ctx.value.userNonblock ==>
              !Interrupted(r.call) && !WouldBlock(r.call)
  {
    match RouteOf(enabled, ctx, d)
    case Direct => if |calls| == 0 then OutOfTrace else Passed(calls[0])
    case BadFd => Failed(EBADF)
    case Managed(t) => Retry(calls, waits, t, 0, 0)
  }

  /** A timeout captured by `setsockopt` is the one a later blocking receive waits with. */
  lemma SetsockoptGovernsRecv(ctx: Option<FdCtx>, sec: int, usec: int)
    requires Intercepted(ctx) && !ctx.value.userNonblock
    ensures RouteOf(true, Setsockopt(true, ctx, true, RcvTimeo, sec, usec), RecvTimeout) == Managed(TimevalMs(sec, usec))
  {
  }

  /** The hooked I/O entry points. */
  datatype IoCall = Accept | Read | Readv | Recv | Recvfrom | Recvmsg
                  | Write | Writev | Send | Sendto | Sendmsg

  /** The event each entry point waits for and the timeout it uses. */
  function Binding(f: IoCall): (r: (IOManager.Kind, Dir))
    ensures r.0 == IOManager.Read <==> r.1 == RecvTimeout
    ensures r.0 == IOManager.Read <==> f in {Accept, Read, Readv, Recv, Recvfrom, Recvmsg}
  {
    match f
    case Accept | Read | Readv | Recv | Recvfrom | Recvmsg => (IOManager.Read, RecvTimeout)
    case Write | Writev | Send | Sendto | Sendmsg => (IOManager.Write, SendTimeout)
  }

  /** `socket`: the new descriptor is tracked only with hooking on and a descriptor returned. */
  function SocketTracks(enabled: bool, fd: int): (b: bool)
    ensures b ==> fd != -1
    ensures !enabled ==> !b
    ensures enabled && fd != -1 ==> b
  {
    enabled && fd != -1
  }

  /** `accept`: whatever route `do_io` took, a non-negative result is tracked. */
  function AcceptTracks(o: Outcome): (b: bool)
    ensures b ==> o.Passed? && o.call.n >= 0
    ensures o.Passed? && o.call.n >= 0 ==> b
  {
    o.Passed? && o.call.n >= 0
  }

  /** With hooking off, `accept` still tracks the descriptor it returns, while `socket` does not. */
  lemma AcceptTracksUnhooked(ctx: Option<FdCtx>, calls: seq<Call>, waits: seq<Wait>)
    requires |calls| > 0 && calls[0].n >= 0
    ensures AcceptTracks(DoIo(false, ctx, RecvTimeout, calls, waits))
    ensures !SocketTracks(false, calls[0].n)
  {
  }

  // ---------------------------------------------------------------------
  // connect
  // ---------------------------------------------------------------------

  /** `getsockopt(SO_ERROR)`: the call's own result and the pending socket error it read. */
  datatype SockError = SockError(call: Call, error: int)

  predicate InProgress(c: Call) { c.n == -1 && c.err == EINPROGRESS }

  /**
    `connect_with_timeout`: the first connect either settles the result or
    is in progress; then it waits for writability (a timer is armed unless
    the timeout is (uint64_t)-1) and reads the pending error. A failed
    `addEvent` does not end the call: the pending error still decides.
   */
  function Connect(enabled: bool, ctx: Option<FdCtx>, timeout: u64, first: Call, w: Wait, so: SockError): (r: Outcome)
    ensures !enabled ==> r == Passed(first)
    ensures enabled && (ctx.None? || ctx.value.closed) ==> r == Failed(EBADF)
    ensures enabled && ctx.Some? && !ctx.value.closed && (!ctx.value.socket || ctx.value.userNonblock) ==> r == Passed(first)
    ensures (&& enabled && Intercepted(ctx) && !ctx.value.userNonblock && InProgress(first)
             && w.added && w.timerFired && timeout != MAX_U64) ==> r == Failed(ETIMEDOUT)
    ensures timeout == MAX_U64 && r == Failed(ETIMEDOUT) ==> so.error == ETIMEDOUT
    ensures r == Returned(0) ==> so.call.n != -1 && so.error == 0 && InProgress(first)
    ensures r.Passed? && enabled && Intercepted(ctx) && !ctx.value.userNonblock ==>
              (r.call == first && !InProgress(first)) || (r.call == so.call && r.call.n == -1)
    ensures !r.AddFailed? && !r.OutOfTrace?
  {
    if !enabled then Passed(first)
    else if ctx.None? || ctx.value.closed then Failed(EBADF)
    else if !ctx.value.socket || ctx.value.userNonblock then Passed(first)
    else if first.n == 0 || !InProgress(first) then Passed(first)
    else if w.added && w.timerFired && timeout != MAX_U64 then Failed(ETIMEDOUT)
    else if so.call.n == -1 then Passed(so.call)
    else if so.error == 0 then Returned(0)
    else Failed(so.error)
  }

  /** Unlike `do_io`, `connect` refuses a descriptor the fd manager does not know. */
  lemma ConnectStricterThanDoIo(timeout: u64, first: Call, w: Wait, so: SockError, waits: seq<Wait>)
    ensures Connect(true, None, timeout, first, w, so) == Failed(EBADF)
    ensures DoIo(true, None, SendTimeout, [first], waits) == Passed(first)
  {
  }

  /** A connection refused while in progress is reported through errno, never as success. */
  lemma PendingErrorIsReported(ctx: Option<FdCtx>, timeout: u64, first: Call, w: Wait, so: SockError)
    requires Intercepted(ctx) && !ctx.value.userNonblock && InProgress(first)
    requires so.call.n != -1 && so.error != 0
    requires !(w.added && w.timerFired && timeout != MAX_U64)
    ensures Connect(true, ctx, timeout, first, w, so) == Failed(so.error)
  {
  }

  // ---------------------------------------------------------------------
  // close
  // ---------------------------------------------------------------------

  datatype Closed = Closed(iom: Option<IOManager.IO>, untracked: bool, handoffs: seq<IOManager.Handoff>)

  /**
    `close(fd)`: with hooking on and the descriptor tracked, every waiter
    on it is cancelled in the thread's IOManager (if any) and the record
    is dropped; the descriptor is then closed in any case.
   */
  function Close(enabled: bool, ctx: Option<FdCtx>, iom: Option<IOManager.IO>, fd: nat, ok: bool): (r: Closed)
    requires iom.Some? ==> IOManager.Valid(iom.value)
    ensures r.iom.Some? <==> iom.Some?
    ensures r.iom.Some? ==> IOManager.Valid(r.iom.value)
    ensures !(enabled && ctx.Some?) ==> r == Closed(iom, false, [])
    ensures enabled && ctx.Some? ==> r.untracked
    ensures enabled && ctx.Some? && iom.Some? && ok ==>
              !IOManager.HasSlot(r.iom.value, fd) || r.iom.value.contexts[fd].events == IOManager.NONE
  {
    if !enabled || ctx.None? then Closed(iom, false, [])
    else if iom.None? then Closed(None, true, [])
    else
      var (io, _, hs) := IOManager.CancelAll(iom.value, fd, ok);
      Closed(Some(io), true, hs)
  }
}

=== FILE: iomanager.dfy ===
/**
  `IOManager` (iomanager.h, iomanager.cpp): per-descriptor event
  registration over an edge-triggered epoll instance.

  The kernel's interest list is modelled as a map from descriptor to the
  mask registered for it; `epoll_ctl` fails as the kernel would on a
  missing or duplicate entry, and otherwise as an input says (`ok`). A
  triggered event is handed to the scheduler recorded in its context; the
  hand-offs are returned rather than applied.
 */
module IOManager {
  import opened Basics
  import opened Fibers
  import Scheduling

  /** `IOManager::Event`. */
  const NONE: bv32 := 0x0
  const READ: bv32 := 0x1
  const WRITE: bv32 := 0x4

  /** The epoll flags the code uses (Linux values). */
  const EPOLLIN: bv32 := 0x001
  const EPOLLOUT: bv32 := 0x004
  const EPOLLERR: bv32 := 0x008
  const EPOLLHUP: bv32 := 0x010
  const EPOLLET: bv32 := 0x8000_0000

  /** The context table's initial size (`contextResize(64)` in the constructor). */
  const INITIAL_CONTEXTS: nat := 64

  /** `MAX_TIMEOUT` in `idle`: never block in epoll_wait longer than 5 s. */
  const MAX_TIMEOUT: int := 5000

  /** The single events `addEvent`, `delEvent` and `cancelEvent` accept (`getContext` asserts on anything else). */
  datatype Kind = Read | Write {
    function Bit(): (b: bv32)
      ensures b == READ || b == WRITE
    {
      if this == Read then READ else WRITE
    }
  }

  /** `FdContext::EventContext`: who to resume, or what to call, when the event fires. */
  datatype EventContext = EventContext(scheduler: Option<nat>, fiber: Option<Handle>, cb: Option<Callback>)

  const EMPTY_CONTEXT: EventContext := EventContext(None, None, None)

  /**
    A registered event's context: exactly one of fiber and callback. The
    scheduler is whatever `Scheduler::GetThis()` was when the event was
    added, which is null on a thread that runs no scheduler.
   */
  predicate Armed(c: EventContext) {
    c.fiber.Some? != c.cb.Some?
  }

  /** `FdContext`: the descriptor, its registered events and one context per event. */
  datatype FdContext = FdContext(fd: nat, events: bv32, read: EventContext, write: EventContext) {
    /** `getContext`. */
    function Context(k: Kind): EventContext {
      if k == Read then read else write
    }

    function WithContext(k: Kind, c: EventContext): (r: FdContext)
      ensures r.Context(k) == c && r.fd == fd && r.events == events
      ensures k == Read ==> r.write == write
      ensures k == Write ==> r.read == read
    {
      if k == Read then this.(read := c) else this.(write := c)
    }
  }

  /** A fresh table slot: `new FdContext` with its `fd` set to the index. */
  function EmptySlot(i: nat): (c: FdContext)
    ensures c.fd == i && c.events == NONE
  {
    FdContext(i, NONE, EMPTY_CONTEXT, EMPTY_CONTEXT)
  }

  datatype Op = CtlAdd | CtlMod | CtlDel

  /** The manager: its context table, `m_pendingEventCount`, the kernel interest list, and the tickle pipe's read end. */
  datatype IO = IO(contexts: seq<FdContext>, pending: nat, kernel: map<int, bv32>, tickleFd: nat)

  /**
    A triggered event: the work is handed to scheduler `scheduler` with
    `schedule`. `None` is a null `ctx.scheduler`: the `schedule` call
    through it dereferences a null pointer.
   */
  datatype Handoff = Handoff(scheduler: Option<nat>, work: Scheduling.Work)

  /** The number of events registered in a mask (only READ and WRITE can be). */
  function Bits(events: bv32): nat {
    (if events & READ != 0 then 1 else 0) + (if events & WRITE != 0 then 1 else 0)
  }

  /** The number of events registered over the whole table. */
  function Count(cs: seq<FdContext>): nat {
    if |cs| == 0 then 0 else Count(cs[..|cs| - 1]) + Bits(cs[|cs| - 1].events)
  }

  /** A context's mask holds only READ and WRITE, and each set bit has an armed context, each clear bit an empty one. */
  predicate SlotValid(c: FdContext) {
    && c.events & !(READ | WRITE) == 0
    && (if c.events & READ != 0 then Armed(c.read) else c.read == EMPTY_CONTEXT)
    && (if c.events & WRITE != 0 then Armed(c.write) else c.write == EMPTY_CONTEXT)
  }

  /**
    The manager's invariant: slot `i` describes descriptor `i`; the
    kernel holds `EPOLLET | events` for exactly the descriptors with
    registered events, plus the tickle pipe; the pending count is the
    number of registered events.
   */
  ghost predicate Valid(io: IO) {
    && |io.contexts| >= INITIAL_CONTEXTS
    && (forall i :: 0 <= i < |io.contexts| ==> io.contexts[i].fd == i && SlotValid(io.contexts[i]))
    && (io.tickleFd < |io.contexts| ==> io.contexts[io.tickleFd].events == NONE)
    && io.tickleFd in io.kernel && io.kernel[io.tickleFd] == EPOLLIN | EPOLLET
    && (forall fd :: fd in io.kernel ==> 0 <= fd && (fd == io.tickleFd || fd < |io.contexts|))
    && (forall i :: 0 <= i < |io.contexts| && i != io.tickleFd ==>
          (i in io.kernel <==> io.contexts[i].events != NONE)
          && (i in io.kernel ==> io.kernel[i] == EPOLLET | io.contexts[i].events))
    && io.pending == Count(io.contexts)
  }

  lemma {:induction false} CountUpdate(cs: seq<FdContext>, j: nat, c: FdContext)
    requires j < |cs|
    ensures Count(cs[j := c]) == Count(cs) - Bits(cs[j].events) + Bits(c.events)
    ensures Count(cs) >= Bits(cs[j].events)
    decreases |cs|
  {
    var n := |cs| - 1;
    assert cs[j := c][..n] == if j == n then cs[..n] else cs[..n][j := c];
    if j < n {
      CountUpdate(cs[..n], j, c);
      assert cs[..n][j] == cs[j];
    }
  }

  /** `count` empty slots numbered from `from`. */
  function Slots(from: nat, count: nat): (r: seq<FdContext>)
    ensures |r| == count
    ensures forall k :: 0 <= k < count ==> r[k] == EmptySlot(from + k)
    decreases count
  {
    if count == 0 then [] else Slots(from, count - 1) + [EmptySlot(from + count - 1)]
  }

  lemma {:induction false} CountEmptyTail(cs: seq<FdContext>, from: nat, count: nat)
    ensures Count(cs + Slots(from, count)) == Count(cs)
    decreases count
  {
    if count == 0 {
      assert cs + Slots(from, count) == cs;
    } else {
      CountEmptyTail(cs, from, count - 1);
      var all := cs + Slots(from, count);
      assert all[..|all| - 1] == cs + Slots(from, count - 1);
      assert all[|all| - 1] == EmptySlot(from + count - 1);
    }
  }

  /**
    The invariant survives replacing slot `fd` (not the pipe's) by a valid
    slot, when the kernel is updated to match and the pending count moves
    by the difference in registered events.
   */
  lemma ReplaceSlot(io: IO, fd: nat, c: FdContext, kernel: map<int, bv32>)
    requires Valid(io) && fd < |io.contexts| && fd != io.tickleFd
    requires c.fd == fd && SlotValid(c)
    requires kernel == if c.events != NONE then io.kernel[fd := EPOLLET | c.events] else io.kernel - {fd}
    ensures Count(io.contexts) >= Bits(io.contexts[fd].events)
    ensures Valid(IO(io.contexts[fd := c], io.pending - Bits(io.contexts[fd].events) + Bits(c.events), kernel, io.tickleFd))
  {
    CountUpdate(io.contexts, fd, c);
  }

  /**
    `epoll_ctl`: ADD fails on a descriptor already present, MOD and DEL on
    one that is absent; otherwise the call succeeds when `ok` says so.
   */
  function EpollCtl(kernel: map<int, bv32>, op: Op, fd: int, mask: bv32, ok: bool): (r: (bool, map<int, bv32>))
    ensures !r.0 ==> r.1 == kernel
    ensures r.0 ==> ok
    ensures r.0 && op == CtlDel ==> r.1 == kernel - {fd}
    ensures r.0 && op != CtlDel ==> r.1 == kernel[fd := mask]
    ensures ok ==> (r.0 <==> (op == CtlAdd <==> fd !in kernel))
  {
    match op
    case CtlAdd => if fd in kernel || !ok then (false, kernel) else (true, kernel[fd := mask])
    case CtlMod => if fd !in kernel || !ok then (false, kernel) else (true, kernel[fd := mask])
    case CtlDel => if fd !in kernel || !ok then (false, kernel) else (true, kernel - {fd})
  }

  /** The constructor's bookkeeping: 64 empty slots, nothing pending, the tickle pipe registered for edge-triggered reads. */
  function NewIO(tickleFd: nat): (io: IO)
    ensures Valid(io)
    ensures |io.contexts| == INITIAL_CONTEXTS && io.pending == 0
    ensures io.kernel == map[tickleFd := EPOLLIN | EPOLLET]
  {
    var cs := Slots(0, INITIAL_CONTEXTS);
    CountEmptyTail([], 0, INITIAL_CONTEXTS);
    assert [] + cs == cs;
    IO(cs, 0, map[tickleFd := EPOLLIN | EPOLLET], tickleFd)
  }

  /** `contextResize(size)` when growing: existing slots are kept, new ones are empty and numbered. */
  function ContextResize(cs: seq<FdContext>, size: nat): (r: seq<FdContext>)
    requires size >= |cs|
    ensures |r| == size && r[..|cs|] == cs
    ensures forall i :: |cs| <= i < size ==> r[i] == EmptySlot(i)
    ensures Count(r) == Count(cs)
  {
    CountEmptyTail(cs, |cs|, size - |cs|);
    cs + Slots(|cs|, size - |cs|)
  }

  /** The table size `addEvent` grows to for descriptor `fd`: `fd * 1.5` truncated. */
  function GrowTo(fd: nat): (size: nat)
    ensures size == (3 * fd) / 2
  {
    fd + fd / 2
  }

  /** The table `addEvent` works on: unchanged if `fd` has a slot, grown otherwise. */
  function Slotted(io: IO, fd: nat): (r: IO)
    requires Valid(io)
    ensures Valid(r) && fd < |r.contexts|
    ensures r.pending == io.pending && r.kernel == io.kernel && r.tickleFd == io.tickleFd
    ensures |r.contexts| == if fd < |io.contexts| then |io.contexts| else GrowTo(fd)
    ensures forall i :: 0 <= i < |r.contexts| ==> r.contexts[i] == if i < |io.contexts| then io.contexts[i] else EmptySlot(i)
  {
    if fd < |io.contexts| then io
    else
      var cs := ContextResize(io.contexts, GrowTo(fd));
      var r := io.(contexts := cs);
      assert forall i :: 0 <= i < |io.contexts| ==> cs[i] == io.contexts[i] by {
        forall i | 0 <= i < |io.contexts| ensures cs[i] == io.contexts[i] {
          assert cs[..|io.contexts|][i] == cs[i];
        }
      }
      r
  }

  /** The result of `addEvent`: 0 on success, -1 when `epoll_ctl` fails. */
  datatype Added = Added(io: IO, rc: int)

  /** A slot with event `k` added and its context set to `ctx`. */
  function Registered(c: FdContext, k: Kind, ctx: EventContext): (r: FdContext)
    ensures r.fd == c.fd && r.Context(k) == ctx
  {
    c.(events := c.events | k.Bit()).WithContext(k, ctx)
  }

  /** Setting a clear event bit together with an armed context keeps the slot valid and counts one more event. */
  lemma AddBit(c: FdContext, k: Kind, ctx: EventContext)
    requires SlotValid(c) && c.events & k.Bit() == 0 && Armed(ctx)
    ensures var c' := Registered(c, k, ctx);
            SlotValid(c') && c'.events != NONE && Bits(c'.events) == Bits(c.events) + 1
            && c'.events == c.events | k.Bit()
  {
  }

  /** The registration part of `addEvent`, once `fd` has a slot. */
  function Register(io: IO, fd: nat, k: Kind, ctx: EventContext, ok: bool): (r: Added)
    requires Valid(io) && fd < |io.contexts| && io.contexts[fd].events & k.Bit() == 0 && Armed(ctx)
    ensures Valid(r.io) && |r.io.contexts| == |io.contexts|
    ensures r.rc == 0 || r.rc == -1
    ensures forall i :: 0 <= i < |io.contexts| && i != fd ==> r.io.contexts[i] == io.contexts[i]
    ensures r.rc == -1 ==> r.io == io
    ensures r.rc == 0 ==> && r.io.pending == io.pending + 1
                          && r.io.contexts == io.contexts[fd := Registered(io.contexts[fd], k, ctx)]
    ensures (ok && fd != io.tickleFd) ==> r.rc == 0
  {
    var c := io.contexts[fd];
    var op := if c.events != NONE then CtlMod else CtlAdd;
    var (done, kernel) := EpollCtl(io.kernel, op, fd, EPOLLET | c.events | k.Bit(), ok);
    if !done then Added(io, -1)
    else
      var c' := Registered(c, k, ctx);
      AddBit(c, k, ctx);
      assert fd != io.tickleFd;
      assert EPOLLET | c.events | k.Bit() == EPOLLET | c'.events;
      ReplaceSlot(io, fd, c', kernel);
      Added(IO(io.contexts[fd := c'], io.pending + 1, kernel, io.tickleFd), 0)
  }

  /**
    `addEvent(fd, event, cb)`: registers one more event for `fd` (the
    event must not be registered yet) with ADD when none was and MOD
    otherwise. On success the context records the calling thread's
    scheduler (`Scheduler::GetThis()`, `None` on a thread without one) and
    the callback, or the calling fiber `current` when there is no
    callback. A failed `epoll_ctl` changes nothing but the table's
    growth.
   */
  function AddEvent(io: IO, fd: nat, k: Kind, cb: Option<Callback>, scheduler: Option<nat>, current: Handle, ok: bool): (r: Added)
    requires Valid(io)
    requires fd < |io.contexts| ==> io.contexts[fd].events & k.Bit() == 0
    ensures Valid(r.io) && fd < |r.io.contexts|
    ensures r.rc == 0 || r.rc == -1
    ensures r.rc == -1 ==> r.io == Slotted(io, fd)
    ensures r.rc == 0 ==> && r.io.pending == io.pending + 1
                          && var slots := Slotted(io, fd).contexts;
                             r.io.contexts == slots[fd := Registered(slots[fd], k, EventContext(scheduler, if cb.Some? then None else Some(current), cb))]
    ensures (ok && fd != io.tickleFd) ==> r.rc == 0
  {
    var io1 := Slotted(io, fd);
    var ctx := EventContext(scheduler, if cb.Some? then None else Some(current), cb);
    assert io1.contexts[fd].events & k.Bit() == 0 by {
      if fd >= |io.contexts| { assert io1.contexts[fd] == EmptySlot(fd); }
    }
    Register(io1, fd, k, ctx, ok)
  }

  /** Whether a descriptor has a slot: the early `return false` of the three removal operations. */
  predicate HasSlot(io: IO, fd: nat) {
    fd < |io.contexts|
  }

  /** The mask left after removing event `k`, and the operation that installs it. */
  function Remaining(c: FdContext, k: Kind): (r: (bv32, Op))
    ensures r.0 == c.events & !k.Bit()
    ensures r.1 == if r.0 != NONE then CtlMod else CtlDel
  {
    var left := c.events & !k.Bit();
    (left, if left != NONE then CtlMod else CtlDel)
  }

  /**
    `delEvent(fd, event)`: removes a registered event without running it;
    false when the descriptor has no slot, the event is not registered,
    or `epoll_ctl` fails.
   */
  function DelEvent(io: IO, fd: nat, k: Kind, ok: bool): (r: (IO, bool))
    requires Valid(io)
    ensures Valid(r.0)
    ensures !r.1 ==> r.0 == io
    ensures r.1 <==> HasSlot(io, fd) && io.contexts[fd].events & k.Bit() != 0 && ok
    ensures r.1 ==> && r.0.pending == io.pending - 1
                    && |r.0.contexts| == |io.contexts|
                    && r.0.contexts == io.contexts[fd := io.contexts[fd].(events := io.contexts[fd].events & !k.Bit())
                                                                          .WithContext(k, EMPTY_CONTEXT)]
  {
    if !HasSlot(io, fd) || io.contexts[fd].events & k.Bit() == 0 then (io, false)
    else
      var c := io.contexts[fd];
      var (left, op) := Remaining(c, k);
      var (done, kernel) := EpollCtl(io.kernel, op, fd, EPOLLET | left, ok);
      if !done then (io, false)
      else
        var c' := c.(events := left).WithContext(k, EMPTY_CONTEXT);
        ReplaceSlot(io, fd, c', kernel);
        (IO(io.contexts[fd := c'], io.pending - 1, kernel, io.tickleFd), true)
  }

  /**
    `FdContext::triggerEvent`: clears the event's bit and hands its
    callback (or, without one, its fiber) to the recorded scheduler,
    moving it out so that the context is left empty.
   */
  function TriggerEvent(c: FdContext, k: Kind): (r: (FdContext, Handoff))
    requires SlotValid(c) && c.events & k.Bit() != 0
    ensures SlotValid(r.0)
    ensures r.0 == c.(events := c.events & !k.Bit()).WithContext(k, EMPTY_CONTEXT)
    ensures r.1.scheduler == c.Context(k).scheduler
    ensures r.1.work == if c.Context(k).cb.Some? then Scheduling.CallbackWork(c.Context(k).cb)
                        else Scheduling.FiberWork(c.Context(k).fiber)
    ensures !Scheduling.IsEmpty(r.1.work)
  {
    var ctx := c.Context(k);
    var work := if ctx.cb.Some? then Scheduling.CallbackWork(ctx.cb) else Scheduling.FiberWork(ctx.fiber);
    (c.(events := c.events & !k.Bit()).WithContext(k, EMPTY_CONTEXT), Handoff(ctx.scheduler, work))
  }

  /**
    A trigger hands the work to the scheduler `addEvent` recorded, so an
    event added on a thread without a scheduler is handed to a null one.
   */
  lemma AddThenTrigger(io: IO, fd: nat, k: Kind, cb: Option<Callback>, scheduler: Option<nat>,
                       current: Handle, ok: bool)
    requires Valid(io)
    requires fd < |io.contexts| ==> io.contexts[fd].events & k.Bit() == 0
    ensures var r := AddEvent(io, fd, k, cb, scheduler, current, ok);
            r.rc == 0 ==> && r.io.contexts[fd].events & k.Bit() != 0
                          && TriggerEvent(r.io.contexts[fd], k).1
                             == Handoff(scheduler, if cb.Some? then Scheduling.CallbackWork(cb)
                                                   else Scheduling.FiberWork(Some(current)))
  {
    var r := AddEvent(io, fd, k, cb, scheduler, current, ok);
    if r.rc == 0 {
      var slots := Slotted(io, fd).contexts;
      assert r.io.contexts[fd] == Registered(slots[fd], k, EventContext(scheduler, if cb.Some? then None else Some(current), cb));
    }
  }

  /**
    `cancelEvent(fd, event)`: like `delEvent`, but the event's fiber or
    callback is triggered instead of dropped.
   */
  function CancelEvent(io: IO, fd: nat, k: Kind, ok: bool): (r: (IO, Option<Handoff>))
    requires Valid(io)
    ensures Valid(r.0)
    ensures r.1.None? ==> r.0 == io
    ensures r.1.Some? <==> HasSlot(io, fd) && io.contexts[fd].events & k.Bit() != 0 && ok
    ensures r.1.Some? ==> && r.0.pending == io.pending - 1
                          && r.0.contexts == DelEvent(io, fd, k, ok).0.contexts
                          && r.1 == Some(TriggerEvent(io.contexts[fd], k).1)
  {
    if !HasSlot(io, fd) || io.contexts[fd].events & k.Bit() == 0 then (io, None)
    else
      var c := io.contexts[fd];
      var (left, op) := Remaining(c, k);
      var (done, kernel) := EpollCtl(io.kernel, op, fd, EPOLLET | left, ok);
      if !done then (io, None)
      else
        var (c', h) := TriggerEvent(c, k);
        ReplaceSlot(io, fd, c', kernel);
        (IO(io.contexts[fd := c'], io.pending - 1, kernel, io.tickleFd), Some(h))
  }

  /**
    What a successful removal leaves in the kernel: the descriptor stays
    registered, edge-triggered, for the events that remain, or is deleted
    from epoll when none remain; no other registration changes.
   */
  lemma DelEventKernel(io: IO, fd: nat, k: Kind, ok: bool)
    requires Valid(io)
    ensures var (io1, done) := DelEvent(io, fd, k, ok);
            done ==> && fd != io.tickleFd
                     && (fd in io1.kernel <==> io.contexts[fd].events & !k.Bit() != NONE)
                     && (fd in io1.kernel ==> io1.kernel[fd] == EPOLLET | (io.contexts[fd].events & !k.Bit()))
                     && io1.kernel - {fd} == io.kernel - {fd}
  {
  }

  /** `delEvent` and `cancelEvent` leave the same registrations behind; only the fate of the context differs. */
  lemma DelAndCancelAgree(io: IO, fd: nat, k: Kind, ok: bool)
    requires Valid(io)
    ensures DelEvent(io, fd, k, ok).1 <==> CancelEvent(io, fd, k, ok).1.Some?
    ensures DelEvent(io, fd, k, ok).0 == CancelEvent(io, fd, k, ok).0
  {
  }

  /**
    Triggers the registered events among `fired`, READ first: the bits are
    cleared, the contexts emptied, one hand-off per event.
   */
  function Fire(c: FdContext, fired: bv32): (r: (FdContext, seq<Handoff>))
    requires SlotValid(c)
    ensures SlotValid(r.0) && r.0.fd == c.fd
    ensures r.0.events == c.events & !(fired & (READ | WRITE))
    ensures |r.1| == Bits(c.events & fired)
    ensures c.events & fired & READ != 0 ==> r.1[0] == TriggerEvent(c, Read).1
  {
    var (c1, h1) := if c.events & fired & READ != 0 then var (x, h) := TriggerEvent(c, Read); (x, [h]) else (c, []);
    var (c2, h2) := if c1.events & fired & WRITE != 0 then var (x, h) := TriggerEvent(c1, Write); (x, [h]) else (c1, []);
    (c2, h1 + h2)
  }

  /**
    `cancelAll(fd)`: removes the descriptor from epoll and triggers its
    READ then its WRITE event; false when it has no slot, no events, or
    `epoll_ctl` fails.
   */
  function CancelAll(io: IO, fd: nat, ok: bool): (r: (IO, bool, seq<Handoff>))
    requires Valid(io)
    ensures Valid(r.0)
    ensures !r.1 ==> r.0 == io && r.2 == []
    ensures r.1 <==> HasSlot(io, fd) && io.contexts[fd].events != NONE && ok
    ensures r.1 ==> && r.0.contexts == io.contexts[fd := EmptySlot(fd)]
                    && r.0.pending == io.pending - Bits(io.contexts[fd].events)
                    && fd !in r.0.kernel
                    && |r.2| == Bits(io.contexts[fd].events)
                    && (io.contexts[fd].events & READ != 0 ==> r.2[0] == TriggerEvent(io.contexts[fd], Read).1)
  {
    if !HasSlot(io, fd) || io.contexts[fd].events == NONE then (io, false, [])
    else
      var c := io.contexts[fd];
      var (done, kernel) := EpollCtl(io.kernel, CtlDel, fd, 0, ok);
      if !done then (io, false, [])
      else
        var (c2, hs) := Fire(c, READ | WRITE);
        assert c2 == EmptySlot(fd);
        ReplaceSlot(io, fd, c2, kernel);
        (IO(io.contexts[fd := c2], io.pending - Bits(c.events), kernel, io.tickleFd), true, hs)
  }

  /** `IOManager::tickle`: writes to the pipe only when no thread is idle. */
  function Tickle(s: Scheduling.Sched): (writes: bool)
    ensures writes <==> !Scheduling.HasIdleThreads(s)
  {
    !Scheduling.HasIdleThreads(s)
  }

  /**
    The scheduler never touches its idle count when it queues work, so
    the pipe is written for a batch exactly when the queue was empty and
    no thread sits in `idle`: a thread blocked in `epoll_wait` is woken
    only when no other thread is there to pick the work up first.
   */
  lemma TickleAfterSchedule(s: Scheduling.Sched, w: Scheduling.Work, thread: int, ws: seq<Scheduling.Work>)
    ensures var (s1, wanted) := Scheduling.Schedule(s, w, thread);
            && Tickle(s1) == Tickle(s)
            && (wanted && Tickle(s1) <==> |s.queue| == 0 && s.idle == 0)
    ensures var (s1, wanted, _) := Scheduling.ScheduleBatch(s, ws);
            && Tickle(s1) == Tickle(s)
            && (wanted && Tickle(s1) <==> |ws| > 0 && |s.queue| == 0 && s.idle == 0)
  {
  }

  /**
    `IOManager::stopping(timeout)`: no timer armed (the next timeout is
    the all-ones value), no event pending, and the scheduler stopping.
   */
  predicate Stopping(io: IO, s: Scheduling.Sched, nextTimeout: u64) {
    nextTimeout == MAX_U64 && io.pending == 0 && Scheduling.Stopping(s)
  }

  /** A manager with a registered event is never stopping. */
  lemma PendingBlocksStopping(io: IO, s: Scheduling.Sched, nextTimeout: u64, fd: nat)
    requires Valid(io) && fd < |io.contexts| && io.contexts[fd].events != NONE
    ensures !Stopping(io, s, nextTimeout)
  {
    CountUpdate(io.contexts, fd, io.contexts[fd]);
  }

  /**
    `Scheduler::stop` on an IOManager reaches the override of `stopping()`:
    with an event still registered (or a timer armed) it never takes the
    early return, and on the right thread it wakes everybody and runs the
    caller's root fiber whenever there is one.
   */
  lemma ArmedBlocksEarlyStop(io: IO, s: Scheduling.Sched, nextTimeout: u64, fd: nat,
                             rootState: State, onThisScheduler: bool)
    requires Valid(io)
    requires nextTimeout != MAX_U64 || (fd < |io.contexts| && io.contexts[fd].events != NONE)
    ensures var r := Scheduling.Stop(s, rootState, onThisScheduler, nextTimeout == MAX_U64 && io.pending == 0);
            && !r.Stopped?
            && (r.Proceed? ==> (r.callRoot <==> s.hasRoot) && !Stopping(io, r.sched, nextTimeout))
  {
    if nextTimeout == MAX_U64 {
      var drained := s.(queue := [], active := 0, stopping := true, autoStop := true);
      PendingBlocksStopping(io, drained, nextTimeout, fd);
      assert Scheduling.Stopping(drained);
    }
  }

  /**
    The `epoll_wait` timeout of `idle`, as written: the clamp compares the
    64-bit timeout after a cast to `int`, and the call casts it again.
   */
  function WaitTimeoutAsWritten(nextTimeout: u64): (ms: int)
    ensures nextTimeout == MAX_U64 ==> ms == MAX_TIMEOUT
    ensures nextTimeout <= MAX_TIMEOUT ==> ms == nextTimeout
    ensures -0x8000_0000 <= ms < 0x8000_0000
  {
    var clamped: u64 := if nextTimeout != MAX_U64 then (if ToInt32(nextTimeout) > MAX_TIMEOUT then MAX_TIMEOUT else nextTimeout)
                        else MAX_TIMEOUT;
    ToInt32(clamped)
  }

  /** A timer 2^31 ms away makes the as-written wait negative, which epoll_wait takes as "block indefinitely". */
  lemma WaitTimeoutCastCounterexample()
    ensures WaitTimeoutAsWritten(0x8000_0000) == -0x8000_0000
    ensures WaitTimeoutAsWritten(0x1_0000_0000) == 0
  {
  }

  /** The evidently intended wait: the time to the next timer, but at most 5 s. */
  function WaitTimeout(nextTimeout: u64): (ms: int)
    ensures 0 <= ms <= MAX_TIMEOUT
    ensures nextTimeout < MAX_U64 && nextTimeout <= MAX_TIMEOUT ==> ms == nextTimeout
    ensures nextTimeout > MAX_TIMEOUT ==> ms == MAX_TIMEOUT
  {
    if nextTimeout > MAX_TIMEOUT then MAX_TIMEOUT else nextTimeout
  }

  /** The two agree exactly on the timeouts the cast does not mangle. */
  lemma WaitTimeoutAgreesBelowTwo31(nextTimeout: u64)
    requires nextTimeout < 0x8000_0000 || nextTimeout == MAX_U64
    ensures WaitTimeoutAsWritten(nextTimeout) == WaitTimeout(nextTimeout)
  {
  }

  /** One entry of the epoll_wait result: the descriptor and the reported bits. */
  datatype Ready = Ready(fd: nat, events: bv32)

  /** The kernel only reports bits of the registered mask, plus EPOLLERR and EPOLLHUP. */
  predicate Reportable(io: IO, ev: Ready) {
    ev.fd in io.kernel && ev.events & !(io.kernel[ev.fd] | EPOLLERR | EPOLLHUP) == 0
  }

  /** The events of `idle`'s loop body: an error or hang-up counts as every registered direction. */
  function RealEvents(reported: bv32, registered: bv32): (fired: bv32)
    ensures fired & !(READ | WRITE) == 0
    ensures reported & (EPOLLERR | EPOLLHUP) != 0 ==> fired & registered == registered & (READ | WRITE)
  {
    var ev := if reported & (EPOLLERR | EPOLLHUP) != 0 then reported | ((EPOLLIN | EPOLLOUT) & registered) else reported;
    (if ev & EPOLLIN != 0 then READ else NONE) | (if ev & EPOLLOUT != 0 then WRITE else NONE)
  }

  /**
    Each direction separately: READ fires exactly when the kernel
    reported EPOLLIN, or an error or hang-up on a descriptor registered
    for READ; WRITE likewise with EPOLLOUT.
   */
  lemma RealEventsDirections(reported: bv32, registered: bv32)
    ensures var fired := RealEvents(reported, registered);
            && (fired & READ != 0 <==>
                  reported & EPOLLIN != 0 || (reported & (EPOLLERR | EPOLLHUP) != 0 && registered & READ != 0))
            && (fired & WRITE != 0 <==>
                  reported & EPOLLOUT != 0 || (reported & (EPOLLERR | EPOLLHUP) != 0 && registered & WRITE != 0))
  {
  }

  /**
    The body of `idle`'s loop for one ready descriptor: the tickle pipe
    is just drained; otherwise the fired events are removed from epoll
    (MOD to what is left, or DEL) and triggered, READ first. Nothing
    happens if no fired event is registered or `epoll_ctl` fails.
   */
  function HandleReady(io: IO, ev: Ready, ok: bool): (r: (IO, seq<Handoff>))
    requires Valid(io) && Reportable(io, ev)
    ensures Valid(r.0)
    ensures r.0.pending + |r.1| == io.pending
    ensures |r.0.contexts| == |io.contexts| && r.0.tickleFd == io.tickleFd
    ensures forall i :: 0 <= i < |io.contexts| && i != ev.fd ==> r.0.contexts[i] == io.contexts[i]
    ensures forall fd :: fd != ev.fd ==> (fd in r.0.kernel <==> fd in io.kernel) && (fd in io.kernel ==> r.0.kernel[fd] == io.kernel[fd])
    ensures ev.fd == io.tickleFd ==> r == (io, [])
    ensures ev.fd != io.tickleFd && ok ==>
              var fired := RealEvents(ev.events, io.contexts[ev.fd].events);
              && |r.1| == Bits(io.contexts[ev.fd].events & fired)
              && r.0.contexts[ev.fd].events == io.contexts[ev.fd].events & !fired
  {
    if ev.fd == io.tickleFd then (io, [])
    else
      var c := io.contexts[ev.fd];
      var fired := RealEvents(ev.events, c.events);
      if c.events & fired == NONE then (io, [])
      else FireRegistered(io, ev.fd, fired, ok)
  }

  /**
    The part of `idle`'s loop body after the fired events are known: the
    events that remain are installed (MOD, or DEL when none remain) and,
    if `epoll_ctl` succeeds, the fired ones are triggered.
   */
  function FireRegistered(io: IO, fd: nat, fired: bv32, ok: bool): (r: (IO, seq<Handoff>))
    requires Valid(io) && fd < |io.contexts| && fd != io.tickleFd && fired & !(READ | WRITE) == 0
    ensures Valid(r.0)
    ensures r.0.pending + |r.1| == io.pending
    ensures |r.0.contexts| == |io.contexts| && r.0.tickleFd == io.tickleFd
    ensures forall i :: 0 <= i < |io.contexts| && i != fd ==> r.0.contexts[i] == io.contexts[i]
    ensures forall g :: g != fd ==> (g in r.0.kernel <==> g in io.kernel) && (g in io.kernel ==> r.0.kernel[g] == io.kernel[g])
    ensures ok ==> |r.1| == Bits(io.contexts[fd].events & fired) && r.0.contexts[fd].events == io.contexts[fd].events & !fired
  {
    var c := io.contexts[fd];
    var left := c.events & !fired;
    var op := if left != NONE then CtlMod else CtlDel;
    var (done, kernel) := EpollCtl(io.kernel, op, fd, EPOLLET | left, ok);
    if !done then (io, [])
    else
      var (c2, hs) := Fire(c, fired);
      assert c2.events == left;
      ReplaceSlot(io, fd, c2, kernel);
      (IO(io.contexts[fd := c2], io.pending - |hs|, kernel, io.tickleFd), hs)
  }

  /** Whether the epoll_wait result has an entry for descriptor `fd` at or after position `from`. */
  predicate Mentions(evs: seq<Ready>, from: nat, fd: nat) {
    exists j :: from <= j < |evs| && evs[j].fd == fd
  }

  /** epoll_wait reports each descriptor at most once. */
  predicate DistinctFds(evs: seq<Ready>) {
    forall i, j :: 0 <= i < j < |evs| ==> evs[i].fd != evs[j].fd
  }

  /** Handling one descriptor leaves what the kernel may report for any other descriptor unchanged. */
  lemma StillReportable(io: IO, ev0: Ready, ok: bool, ev: Ready)
    requires Valid(io) && Reportable(io, ev0) && Reportable(io, ev) && ev.fd != ev0.fd
    ensures Reportable(HandleReady(io, ev0, ok).0, ev)
  {
  }

  /** Handling entry `from` keeps every later entry reportable. */
  lemma RestStillReportable(io: IO, evs: seq<Ready>, oks: seq<bool>, from: nat)
    requires Valid(io) && |oks| == |evs| && DistinctFds(evs) && from < |evs|
    requires forall i :: from <= i < |evs| ==> Reportable(io, evs[i])
    ensures forall i :: from + 1 <= i < |evs| ==> Reportable(HandleReady(io, evs[from], oks[from]).0, evs[i])
  {
    forall i | from + 1 <= i < |evs| ensures Reportable(HandleReady(io, evs[from], oks[from]).0, evs[i]) {
      StillReportable(io, evs[from], oks[from], evs[i]);
    }
  }

  /**
    The `for` loop over the epoll_wait result, from entry `from` on: each
    entry handled in order; every hand-off is one event fewer pending.
   */
  function ProcessReady(io: IO, evs: seq<Ready>, oks: seq<bool>, from: nat): (r: (IO, seq<Handoff>))
    requires Valid(io) && |oks| == |evs| && DistinctFds(evs) && from <= |evs|
    requires forall i :: from <= i < |evs| ==> Reportable(io, evs[i])
    ensures Valid(r.0)
    ensures r.0.pending + |r.1| == io.pending
    ensures |r.0.contexts| == |io.contexts|
    ensures forall i :: 0 <= i < |io.contexts| && !Mentions(evs, from, i) ==> r.0.contexts[i] == io.contexts[i]
    decreases |evs| - from
  {
    if from == |evs| then (io, [])
    else
      var (io1, h1) := HandleReady(io, evs[from], oks[from]);
      RestStillReportable(io, evs, oks, from);
      var (io2, h2) := ProcessReady(io1, evs, oks, from + 1);
      (io2, h1 + h2)
  }

  /** What one pass of `idle`'s loop produces. */
  datatype Round =
    | Exit
    | Waited(waitMs: int, sched: Scheduling.Sched, tickle: bool, io: IO, handoffs: seq<Handoff>)

  /**
    One pass of `IOManager::idle`: leave when stopping; otherwise wait
    (at most 5 s), queue the expired timers' callbacks `expired` on this
    scheduler as one batch, and dispatch the ready descriptors. The wait
    is the corrected `WaitTimeout`; it is the source's own wait whenever
    the next timer is under 2^31 ms away or there is none.
   */
  function IdleRound(io: IO, s: Scheduling.Sched, nextTimeout: u64, expired: seq<Callback>,
                     evs: seq<Ready>, oks: seq<bool>): (r: Round)
    requires Valid(io) && |oks| == |evs| && DistinctFds(evs)
    requires forall i :: 0 <= i < |evs| ==> Reportable(io, evs[i])
    ensures r.Exit? <==> Stopping(io, s, nextTimeout)
    ensures r.Waited? ==> && 0 <= r.waitMs <= MAX_TIMEOUT
                          && Valid(r.io) && r.io.pending + |r.handoffs| == io.pending
                          && r.sched.queue == s.queue + Scheduling.BatchTasks(seq(|expired|, i requires 0 <= i < |expired| => Scheduling.CallbackWork(Some(expired[i]))))
                          && (r.tickle <==> |expired| > 0 && |s.queue| == 0)
  {
    if Stopping(io, s, nextTimeout) then Exit
    else
      var works := seq(|expired|, i requires 0 <= i < |expired| => Scheduling.CallbackWork(Some(expired[i])));
      var (s1, tickle, _) := Scheduling.ScheduleBatch(s, works);
      var (io1, hs) := ProcessReady(io, evs, oks, 0);
      Waited(WaitTimeout(nextTimeout), s1, tickle, io1, hs)
  }

  /** The round's wait is the source's own `epoll_wait` timeout whenever the casts leave it intact. */
  lemma IdleRoundWaitsAsWritten(io: IO, s: Scheduling.Sched, nextTimeout: u64, expired: seq<Callback>,
                                evs: seq<Ready>, oks: seq<bool>)
    requires Valid(io) && |oks| == |evs| && DistinctFds(evs)
    requires forall i :: 0 <= i < |evs| ==> Reportable(io, evs[i])
    requires nextTimeout < 0x8000_0000 || nextTimeout == MAX_U64
    ensures var r := IdleRound(io, s, nextTimeout, expired, evs, oks);
            r.Waited? ==> r.waitMs == WaitTimeoutAsWritten(nextTimeout)
  {
    WaitTimeoutAgreesBelowTwo31(nextTimeout);
  }
}

=== FILE: log.dfy ===
/**
  `Logger` and `LogAppender` (log.h, log.cpp): the list of appenders, the
  two level filters a log call passes (the logger's and each appender's),
  and the formatter an appender inherits from its logger.

  Appenders are shared objects: the code hands `LogAppender::ptr` values
  around, so one appender can sit in several loggers, and a change made
  through any pointer (`setLevel`, `setFormatter`, the formatter
  `addAppender` installs) is seen by all of them. The model keeps every
  appender once, in a map from its id, and a logger holds ids. What
  appenders write is returned as a sequence of records instead of going
  to a stream or a file.
 */
module Logging {
  import opened Basics
  import opened LogFormat

  /** The pattern every `Logger` builds its own formatter from. */
  const DEFAULT_PATTERN: string := "%d{%Y-%m-%d %H:%M:%S}%T%t%T%F%T[%p]%T[%c]%T%f:%l%T%m%n"

  /** `LogAppender`: its level and, once it has one, its formatter's items. */
  datatype Appender = Appender(level: int, formatter: Option<seq<Item>>)

  /** Every appender object, kept once under its id. */
  type Appenders = map<nat, Appender>

  /** `Logger`: name, level, the ids of its appenders in insertion order, and its own formatter. */
  datatype Logger = Logger(name: string, level: int, appenders: seq<nat>, formatter: seq<Item>)

  /** One formatted record written by the appender `appender`. */
  datatype Record = Record(appender: nat, text: string)

  /** The appenders `ids` names all exist and can format. */
  predicate CanFormat(store: Appenders, ids: seq<nat>) {
    forall k :: 0 <= k < |ids| ==> ids[k] in store && store[ids[k]].formatter.Some?
  }

  /** Every appender a logger holds exists and can format (it got a formatter when it was added). */
  predicate Valid(store: Appenders, l: Logger) {
    CanFormat(store, l.appenders)
  }

  /** A new `StdoutLogAppender` or `FileLogAppender`: level DEBUG, no formatter yet. */
  function NewAppender(): (a: Appender)
    ensures a.level == DEBUG && a.formatter.None?
  {
    Appender(DEBUG, None)
  }

  /** `Logger(name = "root")`: level DEBUG, no appenders, the default pattern. */
  function NewLogger(name: string): (l: Logger)
    ensures l.name == name && l.level == DEBUG && l.appenders == []
    ensures l.formatter == Init(DEFAULT_PATTERN)
    ensures forall store :: Valid(store, l)
  {
    Logger(name, DEBUG, [], Init(DEFAULT_PATTERN))
  }

  /** The constructor's default name. */
  function RootLogger(): (l: Logger)
    ensures l.name == "root" && l.level == DEBUG && l.appenders == []
  {
    NewLogger("root")
  }

  /** `Logger::setLevel`: only the level changes. */
  function SetLevel(l: Logger, level: int): (r: Logger)
    ensures r.level == level
    ensures r.name == l.name && r.appenders == l.appenders && r.formatter == l.formatter
  {
    l.(level := level)
  }

  /** `LogAppender::setLevel` through any pointer to appender `id`: only that appender's level changes. */
  function SetAppenderLevel(store: Appenders, id: nat, level: int): (r: Appenders)
    requires id in store
    ensures r.Keys == store.Keys
    ensures r[id].level == level && r[id].formatter == store[id].formatter
    ensures forall j :: j in store && j != id ==> r[j] == store[j]
  {
    store[id := store[id].(level := level)]
  }

  /** `LogAppender::setFormatter` through any pointer to appender `id`: only that appender's formatter changes. */
  function SetFormatter(store: Appenders, id: nat, items: seq<Item>): (r: Appenders)
    requires id in store
    ensures r.Keys == store.Keys
    ensures r[id].formatter == Some(items) && r[id].level == store[id].level
    ensures forall j :: j in store && j != id ==> r[j] == store[j]
  {
    store[id := store[id].(formatter := Some(items))]
  }

  /**
    `Logger::addAppender`: an appender without a formatter is given the
    logger's own, on the shared object; the appender goes to the end of
    the list.
   */
  function AddAppender(store: Appenders, l: Logger, id: nat): (r: (Appenders, Logger))
    requires Valid(store, l) && id in store
    ensures Valid(r.0, r.1)
    ensures r.1 == l.(appenders := l.appenders + [id])
    ensures r.0.Keys == store.Keys
    ensures r.0[id].level == store[id].level
    ensures r.0[id].formatter == if store[id].formatter.Some? then store[id].formatter else Some(l.formatter)
    ensures forall j :: j in store && j != id ==> r.0[j] == store[j]
  {
    var store' := if store[id].formatter.None? then store[id := store[id].(formatter := Some(l.formatter))] else store;
    (store', l.(appenders := l.appenders + [id]))
  }

  /** Installing a formatter never takes one away, so every other logger stays valid. */
  lemma AddKeepsValid(store: Appenders, l: Logger, id: nat, other: Logger)
    requires Valid(store, l) && id in store && Valid(store, other)
    ensures Valid(AddAppender(store, l, id).0, other)
  {
  }

  /** Position of the first entry `id`, or the length when there is none. */
  function FirstIndex(ids: seq<nat>, id: nat): (k: nat)
    ensures k <= |ids|
    ensures forall j :: 0 <= j < k ==> ids[j] != id
    ensures k < |ids| ==> ids[k] == id
  {
    if |ids| == 0 || ids[0] == id then 0 else 1 + FirstIndex(ids[1..], id)
  }

  /** The appender list with its first entry `id` erased, one entry at a time. */
  function RemoveFirst(ids: seq<nat>, id: nat): (r: seq<nat>)
    ensures |r| <= |ids|
  {
    if |ids| == 0 then []
    else if ids[0] == id then ids[1..]
    else [ids[0]] + RemoveFirst(ids[1..], id)
  }

  /** Erasing one entry at a time is cutting the list at the first entry `id`. */
  lemma {:induction false} RemoveFirstSpec(ids: seq<nat>, id: nat)
    ensures var k := FirstIndex(ids, id);
            RemoveFirst(ids, id) == if k == |ids| then ids else ids[..k] + ids[k + 1..]
    decreases |ids|
  {
    if |ids| > 0 && ids[0] != id {
      RemoveFirstSpec(ids[1..], id);
      var k := FirstIndex(ids[1..], id);
      assert FirstIndex(ids, id) == k + 1;
      if k < |ids[1..]| {
        assert [ids[0]] + (ids[1..][..k] + ids[1..][k + 1..]) == ids[..k + 1] + ids[k + 2..];
      } else {
        assert [ids[0]] + ids[1..] == ids;
      }
    }
  }

  /**
    `Logger::delAppender`: the first entry that is the given appender
    leaves the list; nothing else changes, and the appender itself is
    untouched.
   */
  method DelAppender(l: Logger, id: nat) returns (r: Logger)
    ensures r.name == l.name && r.level == l.level && r.formatter == l.formatter
    ensures r.appenders == RemoveFirst(l.appenders, id)
    ensures forall k :: 0 <= k < |r.appenders| ==> r.appenders[k] in l.appenders
  {
    var i := 0;
    while i < |l.appenders|
      invariant 0 <= i <= |l.appenders|
      invariant forall j :: 0 <= j < i ==> l.appenders[j] != id
    {
      if l.appenders[i] == id {
        RemoveFirstSpec(l.appenders, id);
        r := l.(appenders := l.appenders[..i] + l.appenders[i + 1..]);
        assert forall k :: 0 <= k < |r.appenders| ==> r.appenders[k] in l.appenders;
        return;
      }
      i := i + 1;
    }
    RemoveFirstSpec(l.appenders, id);
    r := l;
  }

  /** Removing an entry never invents one. */
  lemma {:induction false} RemoveFirstSubset(ids: seq<nat>, id: nat)
    ensures forall a :: a in RemoveFirst(ids, id) ==> a in ids
    ensures |ids| - 1 <= |RemoveFirst(ids, id)| <= |ids|
    decreases |ids|
  {
    if |ids| > 0 && ids[0] != id {
      RemoveFirstSubset(ids[1..], id);
    }
  }

  /** Adding an appender the logger does not hold and deleting it again restores the appender list. */
  lemma AddThenDel(store: Appenders, l: Logger, id: nat)
    requires Valid(store, l) && id in store && id !in l.appenders
    ensures RemoveFirst(AddAppender(store, l, id).1.appenders, id) == l.appenders
  {
    var ids := AddAppender(store, l, id).1.appenders;
    var n := |l.appenders|;
    RemoveFirstSpec(ids, id);
    assert forall j :: 0 <= j < n ==> ids[j] == l.appenders[j] && l.appenders[j] in l.appenders;
    assert ids[n] == id;
    assert FirstIndex(ids, id) == n;
    assert ids[..n] + ids[n + 1..] == l.appenders;
  }

  /**
    `StdoutLogAppender::log` / `FileLogAppender::log`: the record is
    written only when its level reaches the appender's level.
   */
  function AppenderLog(a: Appender, logger: string, level: int, e: Event, clock: (string, nat) -> string): (r: Option<string>)
    requires a.formatter.Some?
    ensures r.Some? <==> level >= a.level
    ensures r.Some? ==> r.value == Format(a.formatter.value, logger, level, e, clock)
  {
    if level >= a.level then Some(Format(a.formatter.value, logger, level, e, clock)) else None
  }

  /** The appenders, in order, whose level lets a record of `level` through. */
  function Listening(store: Appenders, ids: seq<nat>, level: int): (r: seq<nat>)
    requires forall k :: 0 <= k < |ids| ==> ids[k] in store
    ensures forall k :: 0 <= k < |r| ==> r[k] in store
    ensures forall i :: i in r <==> i in ids && store[i].level <= level
    ensures |r| <= |ids|
  {
    if |ids| == 0 then []
    else
      var rest := Listening(store, ids[1..], level);
      assert forall i :: i in ids <==> i == ids[0] || i in ids[1..];
      if store[ids[0]].level <= level then [ids[0]] + rest else rest
  }

  /** The appenders' outputs in list order. */
  function Emit(store: Appenders, ids: seq<nat>, logger: string, level: int, e: Event, clock: (string, nat) -> string): (r: seq<Record>)
    requires CanFormat(store, ids)
    ensures var ls := Listening(store, ids, level);
            && |r| == |ls|
            && forall k :: 0 <= k < |r| ==>
                 (&& store[ls[k]].formatter.Some?
                  && r[k] == Record(ls[k], Format(store[ls[k]].formatter.value, logger, level, e, clock)))
  {
    if |ids| == 0 then []
    else
      var rest := Emit(store, ids[1..], logger, level, e, clock);
      var out := AppenderLog(store[ids[0]], logger, level, e, clock);
      if out.Some? then
        assert Listening(store, ids, level) == [ids[0]] + Listening(store, ids[1..], level);
        [Record(ids[0], out.value)] + rest
      else
        assert Listening(store, ids, level) == Listening(store, ids[1..], level);
        rest
  }

  /** `Logger::log`: below the logger's level nothing is written; otherwise every appender is asked in order. */
  function Log(store: Appenders, l: Logger, level: int, e: Event, clock: (string, nat) -> string): (r: seq<Record>)
    requires Valid(store, l)
    ensures level < l.level ==> r == []
    ensures level >= l.level ==>
              var ls := Listening(store, l.appenders, level);
              && |r| == |ls|
              && forall k :: 0 <= k < |r| ==>
                   (&& store[ls[k]].formatter.Some?
                    && r[k] == Record(ls[k], Format(store[ls[k]].formatter.value, l.name, level, e, clock)))
  {
    if level >= l.level then Emit(store, l.appenders, l.name, level, e, clock) else []
  }

  /** The test the `CPPSERVER_LOG_*` macros make before building an event. */
  predicate MacroEnabled(l: Logger, level: int) {
    l.level <= level
  }

  /** The macros' test only skips events that `Logger::log` would drop anyway. */
  lemma MacroFilterRedundant(store: Appenders, l: Logger, level: int, e: Event, clock: (string, nat) -> string)
    requires Valid(store, l)
    ensures !MacroEnabled(l, level) ==> Log(store, l, level, e, clock) == []
    ensures Log(store, l, level, e, clock) != [] <==>
              MacroEnabled(l, level) && exists j :: 0 <= j < |l.appenders| && store[l.appenders[j]].level <= level
  {
    var ls := Listening(store, l.appenders, level);
    if MacroEnabled(l, level) && exists j :: 0 <= j < |l.appenders| && store[l.appenders[j]].level <= level {
      var j :| 0 <= j < |l.appenders| && store[l.appenders[j]].level <= level;
      assert l.appenders[j] in ls;
    }
    if Log(store, l, level, e, clock) != [] {
      assert ls[0] in ls;
    }
  }

  /** An appender added at the end listens after all the others. */
  lemma {:induction false} ListeningAppend(store: Appenders, ids: seq<nat>, id: nat, level: int)
    requires forall k :: 0 <= k < |ids| ==> ids[k] in store
    requires id in store
    ensures Listening(store, ids + [id], level) == Listening(store, ids, level) + (if store[id].level <= level then [id] else [])
    decreases |ids|
  {
    if |ids| == 0 {
      assert ids + [id] == [id];
      assert [id][1..] == [];
    } else {
      assert (ids + [id])[0] == ids[0];
      assert (ids + [id])[1..] == ids[1..] + [id];
      ListeningAppend(store, ids[1..], id, level);
    }
  }

  /** Adding an appender adds its output, if any, after all the others. */
  lemma EmitAppend(store: Appenders, ids: seq<nat>, id: nat, logger: string, level: int, e: Event, clock: (string, nat) -> string)
    requires CanFormat(store, ids)
    requires id in store && store[id].formatter.Some?
    ensures Emit(store, ids + [id], logger, level, e, clock) ==
              Emit(store, ids, logger, level, e, clock) +
              (if store[id].level <= level then [Record(id, Format(store[id].formatter.value, logger, level, e, clock))] else [])
  {
    ListeningAppend(store, ids, id, level);
  }

  /** What a logger writes depends only on the appenders it holds. */
  lemma {:induction false} EmitFrame(store: Appenders, store': Appenders, ids: seq<nat>, logger: string, level: int, e: Event,
                                     clock: (string, nat) -> string)
    requires CanFormat(store, ids)
    requires forall k :: 0 <= k < |ids| ==> ids[k] in store' && store'[ids[k]] == store[ids[k]]
    ensures CanFormat(store', ids)
    ensures Emit(store', ids, logger, level, e, clock) == Emit(store, ids, logger, level, e, clock)
    decreases |ids|
  {
    if |ids| > 0 {
      EmitFrame(store, store', ids[1..], logger, level, e, clock);
    }
  }

  /** `addAppender` then `log`: the new appender writes last, with the formatter the shared object ended up with. */
  lemma AddThenLog(store: Appenders, l: Logger, id: nat, level: int, e: Event, clock: (string, nat) -> string)
    requires Valid(store, l) && id in store
    ensures var (store', l') := AddAppender(store, l, id);
            var items := if store[id].formatter.Some? then store[id].formatter.value else l.formatter;
            Log(store', l', level, e, clock) ==
              Log(store, l, level, e, clock) +
              (if l.level <= level && store[id].level <= level then [Record(id, Format(items, l.name, level, e, clock))] else [])
  {
    var (store', l') := AddAppender(store, l, id);
    EmitFrame(store, store', l.appenders, l.name, level, e, clock);
    EmitAppend(store', l.appenders, id, l.name, level, e, clock);
  }

  /**
    One appender without a formatter, added to two loggers: the first
    `addAppender` installs the first logger's formatter on the shared
    object, so the second logger's records from it are laid out with the
    first logger's formatter, not its own.
   */
  lemma SharedAppenderKeepsFirstFormatter(store: Appenders, l1: Logger, l2: Logger, id: nat,
                                          level: int, e: Event, clock: (string, nat) -> string)
    requires Valid(store, l1) && Valid(store, l2) && id in store && store[id].formatter.None?
    ensures var (s1, l1') := AddAppender(store, l1, id);
            && Valid(s1, l2)
            && var (s2, l2') := AddAppender(s1, l2, id);
               && s2[id].formatter == Some(l1.formatter)
               && Valid(s2, l1')
               && Log(s2, l2', level, e, clock) ==
                    Log(store, l2, level, e, clock) +
                    (if l2.level <= level && store[id].level <= level
                     then [Record(id, Format(l1.formatter, l2.name, level, e, clock))] else [])
  {
    var (s1, l1') := AddAppender(store, l1, id);
    AddKeepsValid(store, l1, id, l2);
    EmitFrame(store, s1, l2.appenders, l2.name, level, e, clock);
    AddThenLog(s1, l2, id, level, e, clock);
  }

  /** Raising a shared appender's level above a record's level silences that appender in every logger holding it. */
  lemma SharedLevelSilencesEverywhere(store: Appenders, id: nat, hi: int, l: Logger, level: int, e: Event,
                                      clock: (string, nat) -> string)
    requires Valid(store, l) && id in store && level < hi
    ensures var store' := SetAppenderLevel(store, id, hi);
            && Valid(store', l)
            && forall k :: 0 <= k < |Log(store', l, level, e, clock)| ==> Log(store', l, level, e, clock)[k].appender != id
  {
    var store' := SetAppenderLevel(store, id, hi);
    assert Valid(store', l);
    var out := Log(store', l, level, e, clock);
    forall k | 0 <= k < |out| ensures out[k].appender != id {
      var ls := Listening(store', l.appenders, level);
      assert ls[k] in ls;
    }
  }

  /** A fresh logger with one fresh appender writes every record once, in the default layout. */
  lemma FreshLoggerWritesEverything(name: string, id: nat, level: int, e: Event, clock: (string, nat) -> string)
    requires KnownLevel(level)
    ensures var (store, l) := AddAppender(map[id := NewAppender()], NewLogger(name), id);
            Log(store, l, level, e, clock) == [Record(id, Format(Init(DEFAULT_PATTERN), name, level, e, clock))]
  {
    AddThenLog(map[id := NewAppender()], NewLogger(name), id, level, e, clock);
  }

  /** Raising the logger's level can only silence it: the output is either unchanged or empty. */
  lemma RaisingLevelSilences(store: Appenders, l: Logger, hi: int, level: int, e: Event, clock: (string, nat) -> string)
    requires Valid(store, l) && l.level <= hi
    ensures var out := Log(store, SetLevel(l, hi), level, e, clock);
            out == [] || out == Log(store, l, level, e, clock)
  {
  }
}

=== FILE: log_format.dfy ===
/**
  Log levels and `LogFormatter` (log.h, log.cpp): level names, the
  hand-written tokenizer of `LogFormatter::init` that turns a pattern such
  as `%d{%H:%M}%T%m%n` into literal and specifier tokens, the resolution of
  specifier names to format items, and `LogFormatter::format`.

  The tokenizer is modelled on the remaining suffix of the pattern with the
  pending literal text as an accumulator; the scan of one specifier
  (the inner `while` loop) is a method that follows the source's loop and
  is proved equal to a closed-form description.
 */
module LogFormat {
  import opened Basics

  // ---------------------------------------------------------------------
  // Levels
  // ---------------------------------------------------------------------

  /** `LogLevel::Level`; the enum may hold other values too, so levels are integers. */
  const DEBUG: int := 1
  const INFO: int := 2
  const WARN: int := 3
  const ERROR: int := 4
  const FATAL: int := 5

  predicate KnownLevel(level: int) {
    DEBUG <= level <= FATAL
  }

  /** `LogLevel::ToString`: the five level names, "UNKNOWN" for anything else. */
  function LevelName(level: int): (s: string)
    ensures KnownLevel(level) <==> s != "UNKNOWN"
    ensures level == DEBUG ==> s == "DEBUG"
    ensures level == INFO ==> s == "INFO"
    ensures level == WARN ==> s == "WARN"
    ensures level == ERROR ==> s == "ERROR"
    ensures level == FATAL ==> s == "FATAL"
  {
    if level == DEBUG then "DEBUG"
    else if level == INFO then "INFO"
    else if level == WARN then "WARN"
    else if level == ERROR then "ERROR"
    else if level == FATAL then "FATAL"
    else "UNKNOWN"
  }

  /** Distinct levels have distinct names, so a formatted level identifies its level. */
  lemma LevelNamesDistinct(a: int, b: int)
    requires KnownLevel(a) && KnownLevel(b) && a != b
    ensures LevelName(a) != LevelName(b)
  {
  }

  // ---------------------------------------------------------------------
  // Format items and LogFormatter::format
  // ---------------------------------------------------------------------

  /** What a log call hands to the formatter (the `LogEvent` getters). */
  datatype Event = Event(
    content: string,
    file: string,
    line: nat,
    elapse: nat,
    threadId: nat,
    fiberId: nat,
    time: nat
  )

  /** The `FormatItem` subclasses; `Text` is `StringFormatItem`. */
  datatype Item =
    | Message | LevelItem | Elapse | LoggerName | ThreadId | NewLine
    | DateTime(fmt: string) | Filename | Line | FiberId | Tab
    | Text(s: string)

  /** `DateTimeFormatItem`'s format when the pattern gives none. */
  const DEFAULT_DATE_FORMAT: string := "%Y-%m-%d %H:%M:%S"

  /** Decimal rendering of an unsigned number, as `operator<<` prints it. */
  function Decimal(n: nat): (s: string)
    ensures |s| > 0 && forall k :: 0 <= k < |s| ==> '0' <= s[k] <= '9'
  {
    var d := ['0' + (n % 10) as char];
    if n < 10 then d else Decimal(n / 10) + d
  }

  /**
    One item's output. `strftime` of the event time under a format is the
    parameter `clock`.
   */
  function Render(it: Item, logger: string, level: int, e: Event, clock: (string, nat) -> string): string {
    match it
    case Message => e.content
    case LevelItem => LevelName(level)
    case Elapse => Decimal(e.elapse)
    case LoggerName => logger
    case ThreadId => Decimal(e.threadId)
    case NewLine => "\n"
    case DateTime(f) => clock(f, e.time)
    case Filename => e.file
    case Line => Decimal(e.line)
    case FiberId => Decimal(e.fiberId)
    case Tab => "\t"
    case Text(s) => s
  }

  /** `LogFormatter::format`: the items' outputs concatenated in order. */
  function Format(items: seq<Item>, logger: string, level: int, e: Event, clock: (string, nat) -> string): string {
    if |items| == 0 then "" else Render(items[0], logger, level, e, clock) + Format(items[1..], logger, level, e, clock)
  }

  /** Formatting a concatenation of item lists concatenates their outputs. */
  lemma {:induction false} FormatConcat(a: seq<Item>, b: seq<Item>, logger: string, level: int, e: Event, clock: (string, nat) -> string)
    ensures Format(a + b, logger, level, e, clock) == Format(a, logger, level, e, clock) + Format(b, logger, level, e, clock)
    decreases |a|
  {
    if |a| > 0 {
      assert (a + b)[1..] == a[1..] + b;
      FormatConcat(a[1..], b, logger, level, e, clock);
    } else {
      assert a + b == b;
    }
  }

  /** A pattern made of literal text only formats to that text, whatever the event. */
  lemma TextOnly(s: string, logger: string, level: int, e: Event, clock: (string, nat) -> string)
    ensures Format([Text(s)], logger, level, e, clock) == s
  {
  }

  // ---------------------------------------------------------------------
  // Tokens and the scan of one specifier
  // ---------------------------------------------------------------------

  /** An entry of `init`'s intermediate vector: type 0 (literal) or type 1 (specifier with argument). */
  datatype Token = Literal(text: string) | Spec(name: string, fmt: string)

  /** The literal pushed for a `{` that is never closed. */
  const PATTERN_ERROR: string := "<<pattern_error>>"

  /** Characters that extend a specifier name: letters and, as the source is written, `}`. */
  predicate NameChar(c: char) {
    ('a' <= c <= 'z') || ('A' <= c <= 'Z') || c == '}'
  }

  predicate AllNameChars(s: string) {
    forall k :: 0 <= k < |s| ==> NameChar(s[k])
  }

  /** Length of the longest prefix of name characters. */
  function NameLen(q: string): (n: nat)
    ensures n <= |q|
  {
    if |q| == 0 || !NameChar(q[0]) then 0 else 1 + NameLen(q[1..])
  }

  /** The run is made of name characters and stops at the first other character. */
  lemma {:induction false} NameLenSpec(q: string)
    ensures AllNameChars(q[..NameLen(q)])
    ensures NameLen(q) < |q| ==> !NameChar(q[NameLen(q)])
  {
    if |q| > 0 && NameChar(q[0]) {
      NameLenSpec(q[1..]);
      var n := NameLen(q);
      assert forall k :: 1 <= k < n ==> q[..n][k] == q[1..][..n - 1][k - 1];
    }
  }

  /** Index of the first `}` in `q`, if any. */
  function CloseBrace(q: string): (r: Option<nat>)
    ensures r.Some? ==> r.value < |q|
  {
    if |q| == 0 then None
    else if q[0] == '}' then Some(0)
    else match CloseBrace(q[1..])
      case None => None
      case Some(k) => Some(k + 1)
  }

  /** `CloseBrace` finds the first `}`, and reports none only when there is none. */
  lemma {:induction false} CloseBraceSpec(q: string)
    ensures CloseBrace(q).Some? ==> var k := CloseBrace(q).value;
              q[k] == '}' && forall i :: 0 <= i < k ==> q[i] != '}'
    ensures CloseBrace(q).None? ==> forall i :: 0 <= i < |q| ==> q[i] != '}'
  {
    if |q| > 0 && q[0] != '}' {
      CloseBraceSpec(q[1..]);
      assert forall i :: 1 <= i < |q| ==> q[i] == q[1..][i - 1];
    }
  }

  /** The outcome of scanning the text after a `%`. */
  datatype Scanned = Closed(name: string, fmt: string, rest: string) | Unclosed

  /**
    The inner scan, described in closed form: the name is the run of name
    characters; a following `{` opens an argument that runs to the first
    `}`; without that `}` the specifier is unclosed.
   */
  function ScanSpec(q: string): (r: Scanned)
    ensures r.Closed? ==> |r.rest| <= |q|
  {
    var j := NameLen(q);
    if j == |q| then Closed(q, "", [])
    else if q[j] != '{' then Closed(q[..j], "", q[j..])
    else Argument(q[..j], q[j + 1..])
  }

  /** The scan after `{`: the argument runs to the first `}`; without one the specifier is unclosed. */
  function Argument(name: string, after: string): (r: Scanned)
    ensures r.Closed? ==> |r.rest| < |after| + 1 && r.name == name
  {
    match CloseBrace(after)
    case None => Unclosed
    case Some(k) => Closed(name, after[..k], after[k + 1..])
  }

  /** A closed scan yields a name of name characters, an argument without `}`, and leaves a suffix of its input. */
  lemma ScanSpecShape(q: string)
    ensures var r := ScanSpec(q);
            r.Closed? ==> && r.rest == q[|q| - |r.rest|..]
                          && AllNameChars(r.name) && '}' !in r.fmt
  {
    var j := NameLen(q);
    NameLenSpec(q);
    if j == |q| {
      TakeAll(q);
    } else if q[j] == '{' {
      var after := q[j + 1..];
      CloseBraceSpec(after);
      match CloseBrace(after)
      case None =>
      case Some(k) =>
        NoCloseBefore(after, k);
        DropDrop(q, j + 1, k + 1);
    }
  }

  lemma TakeAll(q: string)
    ensures q[..|q|] == q
  {
  }

  lemma DropDrop(q: string, a: nat, b: nat)
    requires a + b <= |q|
    ensures q[a..][b..] == q[a + b..]
  {
  }

  lemma NoCloseBefore(x: string, k: nat)
    requires k <= |x| && forall i :: 0 <= i < k ==> x[i] != '}'
    ensures '}' !in x[..k]
  {
    assert forall i :: 0 <= i < k ==> x[..k][i] == x[i];
  }

  /**
    The `while (n < m_pattern.size())` loop of `init` for the `%` at `i`,
    with the outcome stated in closed form: `status` is `fmt_status`,
    `str` the name, `fmt` the argument, and the scan resumes at `n`.
   */
  method ScanLoop(p: string, i: nat) returns (status: int, str: string, fmt: string, n: nat)
    requires i < |p| && p[i] == '%'
    ensures status == 0 || status == 1
    ensures status == 1 <==> ScanSpec(p[i + 1..]).Unclosed?
    ensures status == 0 ==> i < n <= |p| && ScanSpec(p[i + 1..]) == Closed(str, fmt, p[n..])
  {
    ghost var how: int, b: nat;
    status, str, fmt, n, how, b := ScanRun(p, i);
    if how == 0 {
      NameStopsAt(p, i, n);
    } else if how == 1 {
      BraceClosesAt(p, i, b, n - 1);
    } else if status == 1 {
      BraceNeverCloses(p, i, b);
    } else {
      NameRunToEnd(p, i);
    }
  }

  /**
    The loop itself, statement by statement. The ghost `how` says how it
    ended: at a character that ends the name (0), at the `}` closing the
    argument opened at `b` (1), or at the end of the pattern (2).
   */
  method ScanRun(p: string, i: nat) returns (status: int, str: string, fmt: string, n: nat, ghost how: int, ghost b: nat)
    requires i < |p| && p[i] == '%'
    ensures status == 0 || status == 1
    ensures 0 <= how <= 2
    ensures how == 0 ==> && status == 0 && i < n < |p| && AllNameChars(p[i + 1..n])
                         && !NameChar(p[n]) && p[n] != '{' && str == p[i + 1..n] && fmt == ""
    ensures how == 1 ==> && status == 0 && i < b < n - 1 < |p| && p[b] == '{' && p[n - 1] == '}'
                         && AllNameChars(p[i + 1..b]) && '}' !in p[b + 1..n - 1]
                         && str == p[i + 1..b] && fmt == p[b + 1..n - 1]
    ensures how == 2 && status == 0 ==> n == |p| && AllNameChars(p[i + 1..]) && str == p[i + 1..] && fmt == ""
    ensures how == 2 && status == 1 ==> i < b < |p| && p[b] == '{' && AllNameChars(p[i + 1..b]) && '}' !in p[b + 1..]
  {
    n := i + 1;
    status := 0;
    var fmtBegin: nat := 0;
    str := "";
    fmt := "";
    while n < |p|
      invariant i + 1 <= n <= |p|
      invariant status == 0 || status == 1
      invariant status == 0 ==> AllNameChars(p[i + 1..n]) && fmt == ""
      invariant status == 0 && n < |p| ==> str == ""
      invariant status == 0 && n == |p| ==> str == p[i + 1..]
      invariant status == 1 ==> && i + 1 <= fmtBegin < n && p[fmtBegin] == '{'
                                && AllNameChars(p[i + 1..fmtBegin]) && '}' !in p[fmtBegin + 1..n]
      invariant status == 1 && n < |p| ==> str == p[i + 1..fmtBegin]
      decreases |p| - n
    {
      if status == 0 && !NameChar(p[n]) && p[n] != '{' {
        str := p[i + 1..n];
        how, b := 0, 0;
        return;
      }
      if status == 0 && p[n] == '{' {
        str := p[i + 1..n];
        status := 1;
        fmtBegin := n;
        n := n + 1;
        continue;
      }
      if status == 1 && p[n] == '}' {
        fmt := p[fmtBegin + 1..n];
        status := 0;
        n := n + 1;
        how, b := 1, fmtBegin;
        return;
      }
      if status == 0 {
        ExtendNameRun(p, i + 1, n);
      } else {
        ExtendArgument(p, fmtBegin + 1, n);
      }
      n := n + 1;
      if n == |p| {
        if str == "" {
          str := p[i + 1..];
        }
      }
    }
    assert p[i + 1..n] == p[i + 1..];
    how, b := 2, fmtBegin;
  }

  /** A name run that reaches the end of the pattern closes with an empty argument and nothing left. */
  lemma NameRunToEnd(p: string, i: nat)
    requires i < |p| && AllNameChars(p[i + 1..])
    ensures ScanSpec(p[i + 1..]) == Closed(p[i + 1..], "", p[|p|..])
  {
    var q := p[i + 1..];
    TakeAll(q);
    NameLenStops(q, |q|);
    assert p[|p|..] == [];
  }

  lemma ExtendNameRun(p: string, a: nat, n: nat)
    requires a <= n < |p| && AllNameChars(p[a..n]) && NameChar(p[n])
    ensures AllNameChars(p[a..n + 1])
  {
    var w, v := p[a..n + 1], p[a..n];
    forall k | 0 <= k < |w|
      ensures NameChar(w[k])
    {
      if k < |v| {
        assert w[k] == v[k];
      } else {
        assert w[k] == p[n];
      }
    }
  }

  lemma ExtendArgument(p: string, a: nat, n: nat)
    requires a <= n < |p| && '}' !in p[a..n] && p[n] != '}'
    ensures '}' !in p[a..n + 1]
  {
    assert p[a..n + 1] == p[a..n] + [p[n]];
  }

  /** The name run ends at a character that is neither a name character nor `{`. */
  lemma NameStopsAt(p: string, i: nat, n: nat)
    requires i < n < |p| && AllNameChars(p[i + 1..n]) && !NameChar(p[n]) && p[n] != '{'
    ensures ScanSpec(p[i + 1..]) == Closed(p[i + 1..n], "", p[n..])
  {
    var q := p[i + 1..];
    assert q[..n - i - 1] == p[i + 1..n];
    NameLenStops(q, n - i - 1);
  }

  /** A `{` at `b` followed by a first `}` at `c` closes the argument. */
  lemma BraceClosesAt(p: string, i: nat, b: nat, c: nat)
    requires i < b < c < |p| && p[b] == '{' && p[c] == '}'
    requires AllNameChars(p[i + 1..b]) && '}' !in p[b + 1..c]
    ensures ScanSpec(p[i + 1..]) == Closed(p[i + 1..b], p[b + 1..c], p[c + 1..])
  {
    SplitAtBraces(p, i + 1, b, c);
    ScanBraced(p[i + 1..b], p[b + 1..c], p[c + 1..]);
  }

  lemma SplitAtBraces(p: string, a: nat, b: nat, c: nat)
    requires a <= b < c < |p| && p[b] == '{' && p[c] == '}'
    ensures p[a..] == p[a..b] + ("{" + (p[b + 1..c] + "}" + p[c + 1..]))
  {
    assert p[c..] == "}" + p[c + 1..];
    assert p[b + 1..] == p[b + 1..c] + p[c..];
    assert p[b..] == "{" + p[b + 1..];
    assert p[a..] == p[a..b] + p[b..];
  }

  /** How `ScanSpec` reads a closed `{...}` argument. */
  lemma ScanSpecBrace(q: string, j: nat)
    requires NameLen(q) == j < |q| && q[j] == '{'
    ensures ScanSpec(q) == Argument(q[..j], q[j + 1..])
  {
  }

  /** A `{` at `b` with no `}` after it leaves the specifier unclosed. */
  lemma BraceNeverCloses(p: string, i: nat, b: nat)
    requires i < b < |p| && p[b] == '{'
    requires AllNameChars(p[i + 1..b]) && '}' !in p[b + 1..]
    ensures ScanSpec(p[i + 1..]).Unclosed?
  {
    var q := p[i + 1..];
    var j := b - i - 1;
    assert q[..j] == p[i + 1..b];
    NameLenStops(q, j);
    assert q[j + 1..] == p[b + 1..];
    CloseBraceSpec(q[j + 1..]);
  }

  /** If `q[..m]` are name characters and `q[m]` is not, the name run has length `m`. */
  lemma NameLenStops(q: string, m: nat)
    requires m <= |q| && AllNameChars(q[..m]) && (m < |q| ==> !NameChar(q[m]))
    ensures NameLen(q) == m
    decreases m
  {
    if m > 0 {
      assert q[..m][0] == q[0];
      assert q[1..][..m - 1] == q[..m][1..];
      NameLenStops(q[1..], m - 1);
    }
  }

  /** A `}` at `k` with none before it is the one `CloseBrace` finds. */
  lemma {:induction false} CloseBraceIsFirst(q: string, k: nat)
    requires k < |q| && q[k] == '}' && forall i :: 0 <= i < k ==> q[i] != '}'
    ensures CloseBrace(q) == Some(k)
  {
    if k > 0 {
      assert forall i :: 0 <= i < k - 1 ==> q[1..][i] == q[i + 1];
      CloseBraceIsFirst(q[1..], k - 1);
    }
  }

  // ---------------------------------------------------------------------
  // The tokenizer
  // ---------------------------------------------------------------------

  /** The pending literal, pushed only if non-empty. */
  function Flush(acc: string): (r: seq<Token>)
    ensures |acc| == 0 <==> r == []
  {
    if acc == "" then [] else [Literal(acc)]
  }

  /** The shape every token of the tokenizer has: literals non-empty, names of name characters, arguments without `}`. */
  predicate TokenShape(t: Token) {
    match t
    case Literal(s) => |s| > 0
    case Spec(name, fmt) => AllNameChars(name) && '}' !in fmt
  }

  predicate Shaped(ts: seq<Token>) {
    forall k :: 0 <= k < |ts| ==> TokenShape(ts[k])
  }

  /** One pass of `init`'s outer loop: the tokens it pushes, the text still to read, and the pending literal. */
  datatype Pass = Pass(out: seq<Token>, rest: string, acc: string)

  /**
    One pass of `LogFormatter::init`'s outer loop as written, at the rest
    `p` of the pattern with pending literal `acc`: `%%` appends one `%`
    but leaves the second `%` to start a specifier; an unclosed `{` pushes
    the error literal ahead of the pending text and resumes right after
    the `%`.
   */
  function PassAsWritten(p: string, acc: string): (r: Pass)
    requires |p| > 0
    ensures |r.rest| < |p|
  {
    if p[0] != '%' then Pass([], p[1..], acc + [p[0]])
    else if |p| > 1 && p[1] == '%' then Pass([], p[1..], acc + "%")
    else match ScanSpec(p[1..])
      case Unclosed => Pass([Literal(PATTERN_ERROR)], p[1..], acc)
      case Closed(name, fmt, rest) => Pass(Flush(acc) + [Spec(name, fmt)], rest, "")
  }

  /** `LogFormatter::init`'s outer loop as written, pass after pass; the pending literal is flushed at the end. */
  function LexAsWritten(p: string, acc: string): seq<Token>
    decreases |p|
  {
    if |p| == 0 then Flush(acc)
    else
      var r := PassAsWritten(p, acc);
      r.out + LexAsWritten(r.rest, r.acc)
  }

  /** `100%%` leaves a specifier with an empty name behind the literal `%`. */
  lemma PercentEscapeCounterexample()
    ensures LexAsWritten("100%%", "") == [Literal("100%"), Spec("", "")]
    ensures LexAsWritten("%%d", "") == [Literal("%"), Spec("d", "")]
  {
    TrailingEscape("100");
    assert "100" + "%%" == "100%%" && "100" + "%" == "100%";
    DoublePercentName('d');
    assert "%%" + ['d'] == "%%d" && ['d'] == "d";
  }

  /** As written, text ending in the escape `%%` ends in a specifier with an empty name. */
  lemma TrailingEscape(s: string)
    requires |s| > 0 && '%' !in s
    ensures LexAsWritten(s + "%%", "") == [Literal(s + "%"), Spec("", "")]
  {
    LexAsWrittenPlain(s, "%%", "");
    assert "" + s == s;
    LexAsWrittenDouble("", s);
    assert "%%" + "" == "%%" && "%" + "" == "%";
    LexAsWrittenEnd("%", s + "%");
  }

  /** As written, `%%` before a letter yields the literal `%` and a specifier named by the letter. */
  lemma DoublePercentName(c: char)
    requires 'a' <= c <= 'z'
    ensures LexAsWritten("%%" + [c], "") == [Literal("%"), Spec([c], "")]
  {
    LexAsWrittenDouble([c], "");
    assert "" + "%" == "%";
    LexAsWrittenName("%" + [c], "%");
    assert ("%" + [c])[1..] == [c];
  }

  /** Text without `%` joins the pending literal (code as written). */
  lemma {:induction false} LexAsWrittenPlain(s: string, rest: string, acc: string)
    requires '%' !in s
    ensures LexAsWritten(s + rest, acc) == LexAsWritten(rest, acc + s)
    decreases |s|
  {
    if |s| == 0 {
      assert s + rest == rest && acc + s == acc;
    } else {
      assert s[0] in s;
      assert '%' !in s[1..] by {
        assert forall x :: x in s[1..] ==> x in s;
      }
      LexAsWrittenChar(s[0], s[1..] + rest, acc);
      assert s + rest == [s[0]] + (s[1..] + rest);
      LexAsWrittenPlain(s[1..], rest, acc + [s[0]]);
      assert acc + [s[0]] + s[1..] == acc + s;
    }
  }

  /** A `%` followed by one letter that ends the pattern (code as written). */
  lemma LexAsWrittenName(p: string, acc: string)
    requires |p| == 2 && p[0] == '%' && 'a' <= p[1] <= 'z' && |acc| > 0
    ensures LexAsWritten(p, acc) == [Literal(acc), Spec(p[1..], "")]
  {
    assert p[1..] == [p[1]];
    ScanOneLetter(p[1]);
    LexAsWrittenSpec(p, acc);
    var rest := ScanSpec(p[1..]).rest;
    assert |rest| == 0;
    assert LexAsWritten(rest, "") == [];
  }

  /** A specifier that closes is emitted after the pending literal (code as written). */
  lemma LexAsWrittenSpec(p: string, acc: string)
    requires |p| > 1 && p[0] == '%' && p[1] != '%' && ScanSpec(p[1..]).Closed?
    ensures var s := ScanSpec(p[1..]);
            LexAsWritten(p, acc) == Flush(acc) + [Spec(s.name, s.fmt)] + LexAsWritten(s.rest, "")
  {
  }

  lemma ScanOneLetter(c: char)
    requires 'a' <= c <= 'z'
    ensures ScanSpec([c]) == Closed([c], "", [])
  {
    assert [c][..1] == [c];
    NameLenStops([c], 1);
  }

  /** One ordinary character joins the pending literal (code as written). */
  lemma LexAsWrittenChar(c: char, tail: string, acc: string)
    requires c != '%'
    ensures LexAsWritten([c] + tail, acc) == LexAsWritten(tail, acc + [c])
  {
    assert ([c] + tail)[1..] == tail;
  }

  /** `%%` joins one `%` but consumes only the first of the two (code as written). */
  lemma LexAsWrittenDouble(tail: string, acc: string)
    ensures LexAsWritten("%%" + tail, acc) == LexAsWritten("%" + tail, acc + "%")
  {
    var p := "%%" + tail;
    assert p[0] == '%' && p[1] == '%' && p[1..] == "%" + tail;
  }

  /** A lone `%` at the end of the pattern becomes a specifier with an empty name. */
  lemma LexAsWrittenEnd(p: string, acc: string)
    requires |p| == 1 && p[0] == '%' && |acc| > 0
    ensures LexAsWritten(p, acc) == [Literal(acc), Spec("", "")]
  {
    var q := p[1..];
    assert |q| == 0;
    assert NameLen(q) == 0;
    assert ScanSpec(q) == Closed([], [], []);
    assert LexAsWritten(q, "") == [];
  }

  /** One pass with `%%` consumed whole, as its comment intends: it stands for one literal `%`. */
  function LexPass(p: string, acc: string): (r: Pass)
    requires |p| > 0
    ensures |r.rest| < |p|
  {
    if p[0] != '%' then Pass([], p[1..], acc + [p[0]])
    else if |p| > 1 && p[1] == '%' then Pass([], p[2..], acc + "%")
    else match ScanSpec(p[1..])
      case Unclosed => Pass([Literal(PATTERN_ERROR)], p[1..], acc)
      case Closed(name, fmt, rest) => Pass(Flush(acc) + [Spec(name, fmt)], rest, "")
  }

  /** The corrected tokenizer. */
  function Lex(p: string, acc: string): seq<Token>
    decreases |p|
  {
    if |p| == 0 then Flush(acc)
    else
      var r := LexPass(p, acc);
      r.out + Lex(r.rest, r.acc)
  }

  /** Every token the corrected tokenizer produces has the expected shape. */
  lemma {:induction false} LexShaped(p: string, acc: string)
    ensures Shaped(Lex(p, acc))
    decreases |p|
  {
    if |p| > 0 {
      var r := LexPass(p, acc);
      LexPassShaped(p, acc);
      LexShaped(r.rest, r.acc);
      ShapedAppend(r.out, Lex(r.rest, r.acc));
    }
  }

  lemma LexPassShaped(p: string, acc: string)
    requires |p| > 0
    ensures Shaped(LexPass(p, acc).out)
  {
    if p[0] == '%' && !(|p| > 1 && p[1] == '%') {
      ScanSpecShape(p[1..]);
    }
  }

  lemma ShapedAppend(a: seq<Token>, b: seq<Token>)
    requires Shaped(a) && Shaped(b)
    ensures Shaped(a + b)
  {
    assert forall k :: |a| <= k < |a| + |b| ==> (a + b)[k] == b[k - |a|];
  }

  /** No `%` is immediately followed by another. */
  predicate NoDoublePercent(p: string) {
    forall k :: 0 <= k < |p| - 1 ==> p[k] == '%' ==> p[k + 1] != '%'
  }

  /** On patterns without `%%` the corrected tokenizer is the original one. */
  lemma {:induction false} LexAgreesWithoutEscapes(p: string, acc: string)
    requires NoDoublePercent(p)
    ensures Lex(p, acc) == LexAsWritten(p, acc)
    decreases |p|
  {
    if |p| > 0 {
      PassesAgree(p, acc);
      LexAgreesWithoutEscapes(LexPass(p, acc).rest, LexPass(p, acc).acc);
    }
  }

  /** Without `%%` one pass is the same either way, and what it leaves has no `%%` either. */
  lemma PassesAgree(p: string, acc: string)
    requires |p| > 0 && NoDoublePercent(p)
    ensures LexPass(p, acc) == PassAsWritten(p, acc)
    ensures NoDoublePercent(LexPass(p, acc).rest)
  {
    if p[0] != '%' {
      NoDoublePercentSuffix(p, 1);
    } else {
      assert |p| > 1 ==> p[1] != '%';
      match ScanSpec(p[1..])
      case Unclosed =>
        NoDoublePercentSuffix(p, 1);
      case Closed(name, fmt, rest) =>
        ScanSpecShape(p[1..]);
        DropDrop(p, 1, |p| - 1 - |rest|);
        NoDoublePercentSuffix(p, |p| - |rest|);
    }
  }

  lemma NoDoublePercentSuffix(p: string, m: nat)
    requires NoDoublePercent(p) && m <= |p|
    ensures NoDoublePercent(p[m..])
  {
    assert forall k :: 0 <= k < |p| - m ==> p[m..][k] == p[m + k];
  }

  // ---------------------------------------------------------------------
  // Round trip: tokens written back as a pattern lex to themselves
  // ---------------------------------------------------------------------

  /** A literal written in pattern syntax: every `%` doubled. */
  function Escape(s: string): (r: string)
    ensures |s| > 0 ==> |r| > 0 && r[0] == s[0]
  {
    if |s| == 0 then ""
    else (if s[0] == '%' then "%%" else [s[0]]) + Escape(s[1..])
  }

  /** A specifier written in pattern syntax; the braces appear only around a non-empty argument. */
  function SpecText(name: string, fmt: string): (r: string)
    ensures |r| > 0 && r[0] == '%' && r[1..] == name + (if fmt == "" then "" else "{" + fmt + "}")
  {
    "%" + name + (if fmt == "" then "" else "{" + fmt + "}")
  }

  /** One token in pattern syntax. */
  function TokenText(t: Token): string {
    match t
    case Literal(s) => Escape(s)
    case Spec(name, fmt) => SpecText(name, fmt)
  }

  /** A token list written back as a pattern. */
  function Unparse(ts: seq<Token>): string {
    if |ts| == 0 then "" else TokenText(ts[0]) + Unparse(ts[1..])
  }

  /**
    Token lists a pattern can express unambiguously: non-empty literals
    that never touch each other, non-empty names, and no name character
    or `{` right after a specifier without argument.
   */
  predicate WellFormed(ts: seq<Token>) {
    && (forall k :: 0 <= k < |ts| ==> TokenShape(ts[k]) && (ts[k].Spec? ==> |ts[k].name| > 0))
    && (forall k :: 0 <= k < |ts| - 1 ==> Follows(ts[k], ts[k + 1]))
  }

  predicate Follows(a: Token, b: Token) {
    && !(a.Literal? && b.Literal?)
    && (a.Spec? && a.fmt == "" && b.Literal? && |b.text| > 0 ==> !NameChar(b.text[0]) && b.text[0] != '{')
  }

  /** One ordinary character joins the pending literal. */
  lemma LexChar(p: string, acc: string)
    requires |p| > 0 && p[0] != '%'
    ensures Lex(p, acc) == Lex(p[1..], acc + [p[0]])
  {
  }

  /** `%%` joins one `%` to the pending literal. */
  lemma LexPercent(p: string, acc: string)
    requires |p| > 1 && p[0] == '%' && p[1] == '%'
    ensures Lex(p, acc) == Lex(p[2..], acc + "%")
  {
  }

  /** Escaped literal text is absorbed into the pending literal. */
  lemma {:induction false} LexEscaped(s: string, rest: string, acc: string)
    ensures Lex(Escape(s) + rest, acc) == Lex(rest, acc + s)
    decreases |s|
  {
    if |s| == 0 {
      assert Escape(s) + rest == rest && acc + s == acc;
    } else {
      var p := Escape(s) + rest;
      EscapeFront(s, rest);
      LexEscaped(s[1..], rest, acc + [s[0]]);
      AppendFirst(acc, s);
      if s[0] == '%' {
        LexPercent(p, acc);
      } else {
        LexChar(p, acc);
      }
    }
  }

  lemma AppendFirst(acc: string, s: string)
    requires |s| > 0
    ensures acc + [s[0]] + s[1..] == acc + s
  {
  }

  /** How escaped text begins: a doubled `%` or the character itself, then the rest escaped. */
  lemma EscapeFront(s: string, rest: string)
    requires |s| > 0
    ensures var p := Escape(s) + rest;
            if s[0] == '%' then |p| > 1 && p[0] == '%' && p[1] == '%' && p[2..] == Escape(s[1..]) + rest
            else p[0] == s[0] && p[1..] == Escape(s[1..]) + rest
  {
    var h := if s[0] == '%' then "%%" else [s[0]];
    assert Escape(s) + rest == h + (Escape(s[1..]) + rest);
  }

  /** The name run of a specifier stops where the written name ends. */
  lemma NameLenOfName(name: string, t: string)
    requires AllNameChars(name) && (|t| > 0 ==> !NameChar(t[0]))
    ensures NameLen(name + t) == |name|
  {
    var q := name + t;
    assert q[..|name|] == name;
    NameLenStops(q, |name|);
  }

  /** A written specifier scans back to its name and argument, leaving what follows. */
  lemma ScanSpecText(name: string, fmt: string, tail: string)
    requires AllNameChars(name) && '}' !in fmt
    requires fmt == "" && |tail| > 0 ==> !NameChar(tail[0]) && tail[0] != '{'
    ensures ScanSpec(SpecText(name, fmt)[1..] + tail) == Closed(name, fmt, tail)
  {
    if fmt == "" {
      assert SpecText(name, fmt)[1..] + tail == name + tail;
      ScanBare(name, tail);
    } else {
      assert SpecText(name, fmt)[1..] + tail == name + ("{" + (fmt + "}" + tail));
      ScanBraced(name, fmt, tail);
    }
  }

  lemma ScanBare(name: string, tail: string)
    requires AllNameChars(name)
    requires |tail| > 0 ==> !NameChar(tail[0]) && tail[0] != '{'
    ensures ScanSpec(name + tail) == Closed(name, "", tail)
  {
    var q := name + tail;
    NameLenOfName(name, tail);
    assert q[..|name|] == name && q[|name|..] == tail;
  }

  lemma ScanBraced(name: string, fmt: string, tail: string)
    requires AllNameChars(name) && '}' !in fmt
    ensures ScanSpec(name + ("{" + (fmt + "}" + tail))) == Closed(name, fmt, tail)
  {
    var after := fmt + "}" + tail;
    var q := name + ("{" + after);
    var j, k := |name|, |fmt|;
    NameLenOfName(name, "{" + after);
    assert q[j] == '{';
    assert q[j + 1..] == after;
    assert after[k] == '}';
    forall i | 0 <= i < k
      ensures after[i] != '}'
    {
      assert after[i] == fmt[i];
      assert fmt[i] in fmt;
    }
    CloseBraceIsFirst(after, k);
    ScanSpecBrace(q, j);
    assert q[..j] == name;
    assert after[..k] == fmt;
    assert after[k + 1..] == tail;
  }

  /** Text that starts with a written specifier lexes to the pending literal, the specifier, then the tail. */
  lemma LexSpecText(name: string, fmt: string, tail: string, acc: string)
    requires AllNameChars(name) && |name| > 0 && '}' !in fmt
    requires fmt == "" && |tail| > 0 ==> !NameChar(tail[0]) && tail[0] != '{'
    ensures Lex(SpecText(name, fmt) + tail, acc) == Flush(acc) + [Spec(name, fmt)] + Lex(tail, "")
  {
    var x := SpecText(name, fmt);
    ScanSpecText(name, fmt, tail);
    DropFirst(x, tail);
    assert x[1..][0] == name[0];
    assert NameChar(name[0]);
    LexAtSpec(x + tail, acc, name, fmt, tail);
  }

  lemma DropFirst(x: string, tail: string)
    requires |x| > 0
    ensures (x + tail)[0] == x[0] && (x + tail)[1..] == x[1..] + tail
  {
  }

  /** A `%` whose scan closes emits the pending literal and the specifier, then lexes what follows. */
  lemma LexAtSpec(p: string, acc: string, name: string, fmt: string, rest: string)
    requires |p| > 1 && p[0] == '%' && p[1] != '%' && ScanSpec(p[1..]) == Closed(name, fmt, rest)
    ensures Lex(p, acc) == Flush(acc) + [Spec(name, fmt)] + Lex(rest, "")
  {
  }

  /** The first character `Unparse` writes for a well-formed non-empty list. */
  lemma UnparseStart(ts: seq<Token>)
    requires WellFormed(ts) && |ts| > 0
    ensures |Unparse(ts)| > 0
    ensures ts[0].Spec? ==> Unparse(ts)[0] == '%'
    ensures ts[0].Literal? ==> Unparse(ts)[0] == ts[0].text[0]
  {
  }

  /** Well-formed token lists survive being written as a pattern and tokenized again. */
  lemma {:induction false} LexUnparse(ts: seq<Token>)
    requires WellFormed(ts)
    ensures Lex(Unparse(ts), "") == ts
    decreases |ts|
  {
    if |ts| > 0 {
      WellFormedTail(ts);
      if ts[0].Spec? {
        LexUnparse(ts[1..]);
        UnparseSpecStep(ts);
      } else if |ts| == 1 {
        UnparseLiteralStep(ts);
      } else {
        WellFormedTail(ts[1..]);
        assert ts[1..][1..] == ts[2..];
        LexUnparse(ts[2..]);
        UnparseLiteralStep(ts);
      }
    }
  }

  /** A specifier at the front: it is read back, then the rest is. */
  lemma UnparseSpecStep(ts: seq<Token>)
    requires WellFormed(ts) && |ts| > 0 && ts[0].Spec?
    requires Lex(Unparse(ts[1..]), "") == ts[1..]
    ensures Lex(Unparse(ts), "") == ts
  {
    var u := Unparse(ts[1..]);
    var name, fmt := ts[0].name, ts[0].fmt;
    assert TokenShape(ts[0]);
    if fmt == "" && |u| > 0 {
      WellFormedTail(ts);
      UnparseStart(ts[1..]);
      assert Follows(ts[0], ts[1]);
    }
    LexSpecText(name, fmt, u, "");
    Split(ts);
  }

  /** A literal at the front: it is followed by a specifier, which ends the literal. */
  lemma UnparseLiteralStep(ts: seq<Token>)
    requires WellFormed(ts) && |ts| > 0 && ts[0].Literal?
    requires |ts| > 1 ==> Lex(Unparse(ts[2..]), "") == ts[2..]
    ensures Lex(Unparse(ts), "") == ts
  {
    var s := ts[0].text;
    var u := Unparse(ts[1..]);
    if |ts| == 1 {
      EscapedPrefix(s, u);
      assert u == "";
    } else {
      LiteralSpecShape(ts);
      var name, fmt := ts[1].name, ts[1].fmt;
      assert u == SpecText(name, fmt) + Unparse(ts[2..]);
      LiteralThenSpec(s, name, fmt, Unparse(ts[2..]), ts[2..]);
      Split2(ts);
    }
  }

  /** What a well-formed list promises after a literal and its specifier. */
  lemma LiteralSpecShape(ts: seq<Token>)
    requires WellFormed(ts) && |ts| > 1 && ts[0].Literal?
    ensures |ts[0].text| > 0 && ts[1].Spec? && AllNameChars(ts[1].name) && |ts[1].name| > 0 && '}' !in ts[1].fmt
    ensures var u2 := Unparse(ts[2..]);
            ts[1].fmt == "" && |u2| > 0 ==> !NameChar(u2[0]) && u2[0] != '{'
  {
    assert Follows(ts[0], ts[1]) && TokenShape(ts[0]) && TokenShape(ts[1]);
    var u2 := Unparse(ts[2..]);
    if ts[1].fmt == "" && |u2| > 0 {
      WellFormedTail(ts);
      WellFormedTail(ts[1..]);
      assert ts[1..][1..] == ts[2..];
      UnparseStart(ts[2..]);
      assert Follows(ts[1], ts[2]);
    }
  }

  lemma WellFormedTail(ts: seq<Token>)
    requires WellFormed(ts) && |ts| > 0
    ensures WellFormed(ts[1..])
  {
    assert forall k :: 0 <= k < |ts| - 1 ==> ts[1..][k] == ts[k + 1];
  }

  lemma Split(ts: seq<Token>)
    requires |ts| > 0
    ensures ts == [] + [ts[0]] + ts[1..]
  {
  }

  lemma Split2(ts: seq<Token>)
    requires |ts| > 1
    ensures ts == [ts[0], ts[1]] + ts[2..]
  {
  }

  /** A literal, then a specifier, then text that lexes to `rest2`. */
  lemma LiteralThenSpec(s: string, name: string, fmt: string, u2: string, rest2: seq<Token>)
    requires |s| > 0 && AllNameChars(name) && |name| > 0 && '}' !in fmt
    requires fmt == "" && |u2| > 0 ==> !NameChar(u2[0]) && u2[0] != '{'
    requires Lex(u2, "") == rest2
    ensures Lex(Escape(s) + (SpecText(name, fmt) + u2), "") == [Literal(s), Spec(name, fmt)] + rest2
  {
    var x := SpecText(name, fmt) + u2;
    EscapedPrefix(s, x);
    LexSpecText(name, fmt, u2, s);
  }

  /** Escaped text at the very start becomes the pending literal. */
  lemma EscapedPrefix(s: string, x: string)
    ensures Lex(Escape(s) + x, "") == Lex(x, s)
  {
    LexEscaped(s, x, "");
    assert "" + s == s;
  }

  // ---------------------------------------------------------------------
  // Resolving names
  // ---------------------------------------------------------------------

  /** The names of `s_format_items`. */
  const KNOWN_NAMES: set<string> := {"m", "p", "r", "c", "t", "n", "d", "f", "l", "F", "T"}

  /** `s_format_items`: the item a known name builds from its argument. */
  function Lookup(name: string, fmt: string): (r: Option<Item>)
    ensures r.Some? <==> name in KNOWN_NAMES
    ensures r == Some(Message) <==> name == "m"
    ensures r.Some? ==> !r.value.Text?
    ensures name == "d" ==> r == Some(DateTime(if fmt == "" then DEFAULT_DATE_FORMAT else fmt))
  {
    if name == "m" then Some(Message)
    else if name == "p" then Some(LevelItem)
    else if name == "r" then Some(Elapse)
    else if name == "c" then Some(LoggerName)
    else if name == "t" then Some(ThreadId)
    else if name == "n" then Some(NewLine)
    else if name == "d" then Some(DateTime(if fmt == "" then DEFAULT_DATE_FORMAT else fmt))
    else if name == "f" then Some(Filename)
    else if name == "l" then Some(Line)
    else if name == "F" then Some(FiberId)
    else if name == "T" then Some(Tab)
    else None
  }

  predicate AllKnown(ts: seq<Token>) {
    forall k :: 0 <= k < |ts| ==> ts[k].Spec? ==> ts[k].name in KNOWN_NAMES
  }

  /**
    The second loop of `init` as written: an unknown name pushes the error
    literal and then dereferences `end()`, which is undefined behaviour;
    that outcome is `None`.
   */
  function ResolveAsWritten(ts: seq<Token>): (r: Option<seq<Item>>)
    ensures r.Some? ==> |r.value| == |ts|
  {
    if |ts| == 0 then Some([])
    else
      var rest := ResolveAsWritten(ts[1..]);
      match ts[0]
      case Literal(s) => if rest.None? then None else Some([Text(s)] + rest.value)
      case Spec(name, fmt) =>
        var it := Lookup(name, fmt);
        if it.None? || rest.None? then None else Some([it.value] + rest.value)
  }

  /** The error literal for an unknown name. */
  function UnknownName(name: string): string {
    "<<error_format %" + name + ">>"
  }

  /** Resolution with an unknown name reported by its error literal alone. */
  function Resolve(ts: seq<Token>): (r: seq<Item>)
    ensures |r| == |ts|
    ensures forall k :: 0 <= k < |ts| && ts[k].Literal? ==> r[k] == Text(ts[k].text)
    ensures forall k :: 0 <= k < |ts| && ts[k].Spec? && ts[k].name !in KNOWN_NAMES ==>
              r[k] == Text(UnknownName(ts[k].name))
    ensures Shaped(ts) ==> forall k :: 0 <= k < |r| ==> r[k].Text? ==> |r[k].s| > 0
  {
    if |ts| == 0 then []
    else
      var head := match ts[0]
        case Literal(s) => Text(s)
        case Spec(name, fmt) =>
          var it := Lookup(name, fmt);
          if it.Some? then it.value else Text(UnknownName(name));
      [head] + Resolve(ts[1..])
  }

  /** The original resolution succeeds exactly when every name is known, and then agrees with the corrected one. */
  lemma {:induction false} ResolveAgrees(ts: seq<Token>)
    ensures ResolveAsWritten(ts).Some? <==> AllKnown(ts)
    ensures AllKnown(ts) ==> ResolveAsWritten(ts) == Some(Resolve(ts))
    decreases |ts|
  {
    if |ts| > 0 {
      ResolveAgrees(ts[1..]);
      assert AllKnown(ts) <==> (ts[0].Spec? ==> ts[0].name in KNOWN_NAMES) && AllKnown(ts[1..]) by {
        assert forall k :: 1 <= k < |ts| ==> ts[1..][k - 1] == ts[k];
      }
    }
  }

  /** An unknown specifier has no defined outcome as written; corrected, it formats as its error literal. */
  lemma UnknownSpecifierCounterexample()
    ensures ResolveAsWritten([Spec("x", "")]).None?
    ensures Resolve([Spec("x", "")]) == [Text("<<error_format %x>>")]
  {
    assert "x" !in KNOWN_NAMES;
    assert UnknownName("x") == "<<error_format %x>>";
  }

  /** `LogFormatter(pattern)` as written; `None` when `init` runs into undefined behaviour. */
  function InitAsWritten(pattern: string): (r: Option<seq<Item>>)
    ensures r.Some? <==> AllKnown(LexAsWritten(pattern, ""))
  {
    ResolveAgrees(LexAsWritten(pattern, ""));
    ResolveAsWritten(LexAsWritten(pattern, ""))
  }

  /** `LogFormatter(pattern)` with both corrections; it never produces an empty text item. */
  function Init(pattern: string): (r: seq<Item>)
    ensures forall k :: 0 <= k < |r| ==> r[k].Text? ==> |r[k].s| > 0
  {
    LexShaped(pattern, "");
    Resolve(Lex(pattern, ""))
  }

  /** On patterns without `%%` and with known names only, the corrected constructor builds what the original does. */
  lemma InitAgrees(pattern: string)
    requires NoDoublePercent(pattern) && AllKnown(Lex(pattern, ""))
    ensures InitAsWritten(pattern) == Some(Init(pattern))
  {
    LexAgreesWithoutEscapes(pattern, "");
    ResolveAgrees(Lex(pattern, ""));
  }

  /** Text without `%` is one literal item, printed back verbatim. */
  lemma PlainPattern(s: string, logger: string, level: int, e: Event, clock: (string, nat) -> string)
    requires |s| > 0 && '%' !in s
    ensures Init(s) == [Text(s)]
    ensures Format(Init(s), logger, level, e, clock) == s
  {
    LexPlain(s);
    assert Resolve([Literal(s)]) == [Text(s)];
    TextOnly(s, logger, level, e, clock);
  }

  /** Text without `%` is one literal. */
  lemma LexPlain(s: string)
    requires |s| > 0 && '%' !in s
    ensures Lex(s, "") == [Literal(s)]
  {
    EscapePlain(s);
    EscapedPrefix(s, "");
    AppendEmpty(s);
  }

  lemma AppendEmpty(s: string)
    ensures s + "" == s
  {
  }

  lemma {:induction false} EscapePlain(s: string)
    requires '%' !in s
    ensures Escape(s) == s
    decreases |s|
  {
    if |s| > 0 {
      assert '%' !in s[1..] by {
        assert forall x :: x in s[1..] ==> x in s;
      }
      EscapePlain(s[1..]);
      assert s == [s[0]] + s[1..];
    }
  }
}

=== FILE: scheduler.dfy ===
/**
  `Scheduler` (scheduler.h, scheduler.cpp): the FIFO task queue, the
  thread-affinity rules of the dispatch loop, the active/idle counters,
  and the start/stop bookkeeping.

  One iteration of `Scheduler::run` on a worker thread is modelled as
  `Take` (the locked scan of the queue) followed by `Dispatch` (resuming
  what was taken). What a resumed fiber does before control comes back is
  an input: the state it is in at that moment.
 */
module Scheduling {
  import opened Basics
  import opened Fibers

  /** The affinity value meaning "any thread". */
  const ANY_THREAD: int := -1

  /** `FiberAndThread`: a fiber or a callback, and the thread it must run on. */
  datatype Task = Task(fiber: Option<Handle>, cb: Option<Callback>, thread: int)

  /** What a caller hands to `schedule`: a fiber pointer or a callback, possibly empty. */
  datatype Work = FiberWork(fiber: Option<Handle>) | CallbackWork(cb: Option<Callback>)

  predicate NonEmpty(t: Task) {
    t.fiber.Some? || t.cb.Some?
  }

  /** A task built by one of the constructors holds at most one of the two. */
  predicate WellFormed(t: Task) {
    !(t.fiber.Some? && t.cb.Some?)
  }

  /** The by-value constructors `FiberAndThread(Fiber::ptr, int)` and `FiberAndThread(std::function, int)`. */
  function MakeTask(w: Work, thread: int): (t: Task)
    ensures WellFormed(t) && t.thread == thread
    ensures w.FiberWork? ==> t.fiber == w.fiber && t.cb.None?
    ensures w.CallbackWork? ==> t.cb == w.cb && t.fiber.None?
  {
    match w
    case FiberWork(f) => Task(f, None, thread)
    case CallbackWork(cb) => Task(None, cb, thread)
  }

  /** Whether a work item is empty (a null pointer or an empty function). */
  predicate IsEmpty(w: Work) {
    match w
    case FiberWork(f) => f.None?
    case CallbackWork(cb) => cb.None?
  }

  /**
    The pointer constructors: they swap the caller's slot into the task,
    so the task gets what a by-value copy would and the slot is left empty.
   */
  function TakeTask(w: Work, thread: int): (r: (Task, Work))
    ensures r.0 == MakeTask(w, thread)
    ensures IsEmpty(r.1) && r.1.FiberWork? == w.FiberWork?
  {
    match w
    case FiberWork(f) => (Task(f, None, thread), FiberWork(None))
    case CallbackWork(cb) => (Task(None, cb, thread), CallbackWork(None))
  }

  /** `FiberAndThread()` and `FiberAndThread::reset`: nothing, runnable anywhere. */
  function EmptyTask(): (t: Task)
    ensures !NonEmpty(t) && t.thread == ANY_THREAD
  {
    Task(None, None, ANY_THREAD)
  }

  /** The scheduler's own fields. `hasRoot` is `m_rootFiber != nullptr`, `threads` is `m_threads.size()`. */
  datatype Sched = Sched(
    queue: seq<Task>,
    threadCount: nat,
    rootThread: int,
    hasRoot: bool,
    threads: nat,
    threadIds: seq<int>,
    active: nat,
    idle: nat,
    stopping: bool,
    autoStop: bool
  )

  /** Every queued task is non-empty and well formed: only `scheduleNoLock` adds tasks. */
  ghost predicate QueueValid(q: seq<Task>) {
    forall i :: 0 <= i < |q| ==> NonEmpty(q[i]) && WellFormed(q[i])
  }

  /**
    `Scheduler(threads, use_caller, name)`: with use_caller the calling
    thread (id `caller`) is one of the workers, so one fewer thread is
    spawned and a root fiber will run the loop there. A new scheduler is
    stopped until `start`.
   */
  function NewScheduler(threads: nat, useCaller: bool, caller: int): (s: Sched)
    requires threads > 0
    ensures s.queue == [] && s.active == 0 && s.idle == 0 && s.threads == 0
    ensures s.stopping && s.autoStop
    ensures s.hasRoot == useCaller
    ensures useCaller ==> s.threadCount == threads - 1 && s.rootThread == caller && s.threadIds == [caller]
    ensures !useCaller ==> s.threadCount == threads && s.rootThread == ANY_THREAD && s.threadIds == []
  {
    if useCaller then Sched([], threads - 1, caller, true, 0, [caller], 0, 0, true, true)
    else Sched([], threads, -1, false, 0, [], 0, 0, true, true)
  }

  /**
    `Scheduler::start`: a running scheduler is left alone; a stopped one
    spawns `threadCount` threads (whose ids are `ids`) and records them.
   */
  function Start(s: Sched, ids: seq<int>): (r: Sched)
    requires |ids| == s.threadCount
    requires s.stopping ==> s.threads == 0
    ensures !r.stopping
    ensures !s.stopping ==> r == s
    ensures s.stopping ==> r == s.(stopping := false, threads := s.threadCount, threadIds := s.threadIds + ids)
  {
    if !s.stopping then s
    else s.(stopping := false, threads := s.threadCount, threadIds := s.threadIds + ids)
  }

  /** Starting twice is the same as starting once. */
  lemma StartIdempotent(s: Sched, ids: seq<int>, ids2: seq<int>)
    requires |ids| == s.threadCount && |ids2| == s.threadCount
    requires s.stopping ==> s.threads == 0
    ensures Start(Start(s, ids), ids2) == Start(s, ids)
  {
  }

  /** `Scheduler::stopping`: asked to stop, nothing queued, nothing running. */
  predicate Stopping(s: Sched) {
    s.autoStop && s.stopping && |s.queue| == 0 && s.active == 0
  }

  /** `hasIdleThreads`. */
  predicate HasIdleThreads(s: Sched) {
    s.idle > 0
  }

  /** What `Scheduler::stop` does before it runs the root fiber and joins the threads. */
  datatype StopResult =
    | Stopped(sched: Sched)                                  // the early return: nothing was ever running
    | Proceed(sched: Sched, tickles: nat, callRoot: bool)    // wake everybody, then drain
    | WrongThread                                            // the affinity assertion fails

  /**
    `Scheduler::stop` up to the point where it hands over to the root
    fiber: `rootState` is the root fiber's state, `onThisScheduler` says
    whether the calling thread's scheduler is this one. The three calls of
    `stopping()` are virtual: `quiet` is the extra condition the running
    subclass adds to the base test (`true` for a plain scheduler; no timer
    and no pending event for an IOManager), so `stopping()` is
    `Stopping(s) && quiet`.
   */
  function Stop(s: Sched, rootState: State, onThisScheduler: bool, quiet: bool): (r: StopResult)
    ensures r.Stopped? ==> && s.hasRoot && s.threadCount == 0 && (rootState == Term || rootState == Init)
                           && quiet && Stopping(r.sched) && r.sched == s.(autoStop := true, stopping := true)
    ensures (&& s.hasRoot && s.threadCount == 0 && (rootState == Term || rootState == Init)
             && quiet && Stopping(s.(autoStop := true, stopping := true))) ==> r.Stopped?
    ensures r.WrongThread? <==> !r.Stopped? && (s.rootThread != ANY_THREAD) != onThisScheduler
    ensures r.Proceed? ==> && r.sched == s.(autoStop := true, stopping := true)
                           && r.tickles == s.threadCount + (if s.hasRoot then 1 else 0)
                           && (r.callRoot <==> s.hasRoot && !(Stopping(r.sched) && quiet))
  {
    var s1 := s.(autoStop := true);
    var early := s1.hasRoot && s1.threadCount == 0 && (rootState == Term || rootState == Init);
    var s2 := if early then s1.(stopping := true) else s1;
    if early && Stopping(s2) && quiet then Stopped(s2)
    else if (s2.rootThread != ANY_THREAD) != onThisScheduler then WrongThread
    else
      var s3 := s2.(stopping := true);
      Proceed(s3, s3.threadCount + (if s3.hasRoot then 1 else 0), s3.hasRoot && !(Stopping(s3) && quiet))
  }

  /**
    Once `stop` has gone through and the queue is drained with no thread
    active, the scheduler counts as stopping and no worker takes anything,
    so every run loop falls through to its idle fiber.
   */
  lemma StopThenDrainedTakesNothing(s: Sched, rootState: State, onThisScheduler: bool, quiet: bool,
                                    fibers: map<Handle, Fiber>, thr: int)
    requires QueueValid(s.queue)
    ensures var r := Stop(s, rootState, onThisScheduler, quiet);
            !r.WrongThread? && |s.queue| == 0 && s.active == 0 ==>
              && Stopping(r.sched) && Take(r.sched, fibers, thr) == Taken(r.sched, None, false)
  {
    var r := Stop(s, rootState, onThisScheduler, quiet);
    if !r.WrongThread? && |s.queue| == 0 && s.active == 0 {
      StoppingTakesNothing(r.sched, fibers, thr);
    }
  }

  /**
    `scheduleNoLock`: a tickle is wanted exactly when the queue was empty
    beforehand, even if the task turns out empty and is dropped.
   */
  function ScheduleNoLock(q: seq<Task>, t: Task): (r: (seq<Task>, bool))
    ensures r.1 <==> |q| == 0
    ensures NonEmpty(t) ==> r.0 == q + [t]
    ensures !NonEmpty(t) ==> r.0 == q
    ensures QueueValid(q) && WellFormed(t) ==> QueueValid(r.0)
  {
    (if NonEmpty(t) then q + [t] else q, |q| == 0)
  }

  /** `schedule(fc, thread)`: returns the new scheduler and whether `tickle` is called. */
  function Schedule(s: Sched, w: Work, thread: int): (r: (Sched, bool))
    ensures r.0 == s.(queue := r.0.queue)
    ensures r.1 <==> |s.queue| == 0
    ensures r.0.queue == if IsEmpty(w) then s.queue else s.queue + [MakeTask(w, thread)]
    ensures QueueValid(s.queue) ==> QueueValid(r.0.queue)
  {
    var (q, tickle) := ScheduleNoLock(s.queue, MakeTask(w, thread));
    (s.(queue := q), tickle)
  }

  /** The tasks a batch contributes: the non-empty items, in order, runnable anywhere. */
  function BatchTasks(ws: seq<Work>): (ts: seq<Task>)
    ensures |ts| <= |ws|
    ensures QueueValid(ts)
    ensures forall i :: 0 <= i < |ts| ==> ts[i].thread == ANY_THREAD
  {
    if |ws| == 0 then []
    else if IsEmpty(ws[0]) then BatchTasks(ws[1..])
    else [MakeTask(ws[0], ANY_THREAD)] + BatchTasks(ws[1..])
  }

  /**
    `schedule(begin, end)`: every item is moved out of the caller's
    container (left empty) and queued with no affinity; one tickle at the
    end if any single step wanted one.
   */
  function ScheduleBatch(s: Sched, ws: seq<Work>): (r: (Sched, bool, seq<Work>))
    ensures r.0 == s.(queue := s.queue + BatchTasks(ws))
    ensures r.1 <==> |ws| > 0 && |s.queue| == 0
    ensures |r.2| == |ws| && forall i :: 0 <= i < |ws| ==> IsEmpty(r.2[i]) && r.2[i].FiberWork? == ws[i].FiberWork?
    decreases |ws|
  {
    if |ws| == 0 then (s, false, [])
    else
      var (t, slot) := TakeTask(ws[0], ANY_THREAD);
      var (q, need) := ScheduleNoLock(s.queue, t);
      var (s', rest, slots) := ScheduleBatch(s.(queue := q), ws[1..]);
      assert s.queue + BatchTasks(ws) == q + BatchTasks(ws[1..]);
      (s', need || rest, [slot] + slots)
  }

  /** Scheduling a batch queues the same tasks as scheduling its items one by one with no affinity. */
  lemma {:induction false} BatchIsItemByItem(s: Sched, ws: seq<Work>)
    ensures ScheduleBatch(s, ws).0 == Fold(s, ws)
    decreases |ws|
  {
    if |ws| > 0 {
      var s1 := Schedule(s, ws[0], ANY_THREAD).0;
      BatchIsItemByItem(s1, ws[1..]);
      assert BatchTasks(ws) == (if IsEmpty(ws[0]) then [] else [MakeTask(ws[0], ANY_THREAD)]) + BatchTasks(ws[1..]);
    }
  }

  /** Repeated single `schedule(item, -1)` calls. */
  function Fold(s: Sched, ws: seq<Work>): Sched
    decreases |ws|
  {
    if |ws| == 0 then s else Fold(Schedule(s, ws[0], ANY_THREAD).0, ws[1..])
  }

  /** The task is pinned to another thread. */
  predicate Foreign(t: Task, thr: int) {
    t.thread != ANY_THREAD && t.thread != thr
  }

  /** The task's fiber is executing somewhere right now. */
  predicate Running(fibers: map<Handle, Fiber>, t: Task) {
    t.fiber.Some? && t.fiber.value in fibers && fibers[t.fiber.value].state == Exec
  }

  /** Thread `thr` may take the task. */
  predicate Eligible(fibers: map<Handle, Fiber>, t: Task, thr: int) {
    !Foreign(t, thr) && !Running(fibers, t)
  }

  /** The result of the scan: the position taken (if any), and whether another thread must be woken. */
  datatype Claim = Claim(index: Option<nat>, tickleMe: bool)

  /** Where the scan stopped. */
  function ScanEnd(c: Claim, n: nat): nat {
    if c.index.Some? then c.index.value else n
  }

  /**
    The scan in `run` from position `i`: takes the first task thread `thr`
    may run; a task pinned to some other thread is skipped and asks for a
    tickle, a task whose fiber is executing elsewhere is skipped silently.
   */
  function Scan(q: seq<Task>, fibers: map<Handle, Fiber>, thr: int, i: nat): (c: Claim)
    requires i <= |q|
    ensures c.index.Some? ==> && i <= c.index.value < |q| && Eligible(fibers, q[c.index.value], thr)
                              && forall j :: i <= j < c.index.value ==> !Eligible(fibers, q[j], thr)
    ensures c.index.None? ==> forall j :: i <= j < |q| ==> !Eligible(fibers, q[j], thr)
    ensures c.tickleMe <==> exists j :: i <= j < ScanEnd(c, |q|) && Foreign(q[j], thr)
    decreases |q| - i
  {
    if i == |q| then Claim(None, false)
    else if Foreign(q[i], thr) then
      var c := Scan(q, fibers, thr, i + 1);
      Claim(c.index, true)
    else if Running(fibers, q[i]) then Scan(q, fibers, thr, i + 1)
    else Claim(Some(i), false)
  }

  function RemoveAt<T>(s: seq<T>, i: nat): (r: seq<T>)
    requires i < |s|
    ensures |r| == |s| - 1
    ensures forall j :: 0 <= j < i ==> r[j] == s[j]
    ensures forall j :: i <= j < |r| ==> r[j] == s[j + 1]
  {
    s[..i] + s[i + 1..]
  }

  /** The locked part of one loop iteration: the claimed task (if any) and whether to tickle. */
  datatype Taken = Taken(sched: Sched, task: Option<Task>, tickleMe: bool)

  /** Takes the first eligible task out of the queue; a taken task makes the thread active. */
  function Take(s: Sched, fibers: map<Handle, Fiber>, thr: int): (r: Taken)
    requires QueueValid(s.queue)
    ensures QueueValid(r.sched.queue)
    ensures r.task.None? ==> r.sched == s && forall j :: 0 <= j < |s.queue| ==> !Eligible(fibers, s.queue[j], thr)
    ensures r.task.Some? ==> exists i :: 0 <= i < |s.queue| && r.task.value == s.queue[i]
                                         && Eligible(fibers, s.queue[i], thr)
                                         && (forall j :: 0 <= j < i ==> !Eligible(fibers, s.queue[j], thr))
                                         && (r.tickleMe <==> exists j :: 0 <= j < i && Foreign(s.queue[j], thr))
                                         && r.sched == s.(queue := RemoveAt(s.queue, i), active := s.active + 1)
    ensures r.task.None? ==> (r.tickleMe <==> exists j :: 0 <= j < |s.queue| && Foreign(s.queue[j], thr))
  {
    var c := Scan(s.queue, fibers, thr, 0);
    if c.index.Some? then
      var i := c.index.value;
      var rest := RemoveAt(s.queue, i);
      assert QueueValid(rest) by {
        forall j | 0 <= j < |rest| ensures NonEmpty(rest[j]) && WellFormed(rest[j]) {
          if j >= i { assert rest[j] == s.queue[j + 1]; }
        }
      }
      Taken(s.(queue := rest, active := s.active + 1), Some(s.queue[i]), c.tickleMe)
    else Taken(s, None, c.tickleMe)
  }

  /** A thread never takes a task pinned to another thread, nor a fiber that is executing. */
  lemma TakeRespectsAffinity(s: Sched, fibers: map<Handle, Fiber>, thr: int)
    requires QueueValid(s.queue)
    ensures var r := Take(s, fibers, thr);
            r.task.Some? ==> && (r.task.value.thread == ANY_THREAD || r.task.value.thread == thr)
                             && !Running(fibers, r.task.value)
  {
  }

  /** When the scheduler is stopping there is nothing to take. */
  lemma StoppingTakesNothing(s: Sched, fibers: map<Handle, Fiber>, thr: int)
    requires QueueValid(s.queue) && Stopping(s)
    ensures Take(s, fibers, thr) == Taken(s, None, false)
  {
  }

  /** A worker thread's loop-local fibers: the idle fiber and the reusable callback fiber. */
  datatype Worker = Worker(thread: int, idleFiber: Handle, cbFiber: Option<Handle>)

  /** Everything a loop iteration touches; `stackSize` is the configured default stack size. */
  datatype Env = Env(sched: Sched, fibers: map<Handle, Fiber>, counters: Counters, stackSize: nat)

  predicate IdleStateOk(s: State) {
    s == Init || s == Hold || s == Term || s == Except
  }

  /**
    Between iterations: queued fibers exist and are neither of the
    worker's own fibers; the idle fiber is never left executing; a kept
    callback fiber has been reset and waits in INIT.
   */
  ghost predicate EnvValid(e: Env, w: Worker) {
    && QueueValid(e.sched.queue)
    && (forall i :: 0 <= i < |e.sched.queue| && e.sched.queue[i].fiber.Some? ==>
          var h := e.sched.queue[i].fiber.value;
          h in e.fibers && h != w.idleFiber && Some(h) != w.cbFiber)
    && w.idleFiber in e.fibers && e.fibers[w.idleFiber].ownsStack && IdleStateOk(e.fibers[w.idleFiber].state)
    && (w.cbFiber.Some? ==> && w.cbFiber.value in e.fibers && w.cbFiber.value != w.idleFiber
                            && e.fibers[w.cbFiber.value].ownsStack && e.fibers[w.cbFiber.value].state == Init)
  }

  /**
    The resumed fiber runs until control comes back to the loop in state
    `after`; a normal return (TERM) has cleared its callback.
   */
  function RunUntilBack(fibers: map<Handle, Fiber>, h: Handle, after: State): (r: map<Handle, Fiber>)
    requires h in fibers
    ensures r.Keys == fibers.Keys
    ensures r[h].state == after && r[h].ownsStack == fibers[h].ownsStack && r[h].id == fibers[h].id
    ensures forall g :: g in fibers && g != h ==> r[g] == fibers[g]
  {
    var f := fibers[h];
    fibers[h := f.(state := after, cb := if after == Term then None else f.cb)]
  }

  /**
    The outcome of one iteration; `exit` is the loop's `break` when the
    idle fiber has terminated, and `aborted` is the process abort when an
    idle fiber that ended by an exception is swapped in again.
   */
  datatype Outcome = Outcome(env: Env, worker: Worker, tickles: nat, exit: bool, aborted: bool)

  predicate Finishing(s: State) {
    s == Term || s == Except
  }

  /**
    The fiber branch of `run`: swap the fiber in; if it yielded READY it
    is queued again (any thread), otherwise unless it finished it is put
    on HOLD.
   */
  function RunFiberTask(e: Env, w: Worker, h: Handle, after: State): (r: Outcome)
    requires EnvValid(e, w) && e.sched.active > 0
    requires h in e.fibers && h != w.idleFiber && Some(h) != w.cbFiber
    requires e.fibers[h].state != Exec && !Finishing(e.fibers[h].state)
    ensures EnvValid(r.env, r.worker) && r.worker == w && !r.exit && !r.aborted
    ensures r.env.sched.active == e.sched.active - 1 && r.env.sched.idle == e.sched.idle
    ensures r.env.sched == e.sched.(queue := r.env.sched.queue, active := r.env.sched.active)
    ensures r.env.fibers.Keys == e.fibers.Keys
    ensures forall g :: g in e.fibers && g != h ==> r.env.fibers[g] == e.fibers[g]
    ensures r.env.fibers[h].state == (if after == Ready || Finishing(after) then after else Hold)
    ensures r.env.sched.queue == e.sched.queue + (if after == Ready then [Task(Some(h), None, ANY_THREAD)] else [])
    ensures r.tickles == (if after == Ready && |e.sched.queue| == 0 then 1 else 0)
  {
    var f1 := RunUntilBack(e.fibers, h, after);
    var s1 := e.sched.(active := e.sched.active - 1);
    if after == Ready then
      var (s2, tickle) := Schedule(s1, FiberWork(Some(h)), ANY_THREAD);
      Outcome(e.(sched := s2, fibers := f1), w, if tickle then 1 else 0, false, false)
    else if !Finishing(after) then
      Outcome(e.(sched := s1, fibers := f1[h := f1[h].(state := Hold)]), w, 0, false, false)
    else
      Outcome(e.(sched := s1, fibers := f1), w, 0, false, false)
  }

  /**
    The callback branch of `run`: the callback runs on the kept callback
    fiber (reset with it) or on a new fiber at `spare`. A fiber that
    yielded READY is queued and forgotten; one that finished is reset
    empty and kept for the next callback; otherwise it is put on HOLD and
    forgotten.
   */
  function RunCallbackTask(e: Env, w: Worker, cb: Callback, spare: Handle, after: State): (r: Outcome)
    requires EnvValid(e, w) && e.sched.active > 0 && spare !in e.fibers
    ensures EnvValid(r.env, r.worker) && !r.exit && !r.aborted
    ensures r.worker.thread == w.thread && r.worker.idleFiber == w.idleFiber
    ensures r.env.sched.active == e.sched.active - 1 && r.env.sched.idle == e.sched.idle
    ensures r.env.sched == e.sched.(queue := r.env.sched.queue, active := r.env.sched.active)
    ensures var h := if w.cbFiber.Some? then w.cbFiber.value else spare;
            && h in r.env.fibers
            && (w.cbFiber.None? ==> r.env.counters.lastId == e.counters.lastId + 1 && r.env.fibers[h].id == r.env.counters.lastId)
            && (w.cbFiber.Some? ==> r.env.counters == e.counters)
            && (r.worker.cbFiber.Some? <==> Finishing(after))
            && (Finishing(after) ==> r.worker.cbFiber == Some(h) && r.env.fibers[h].cb.None?)
            && r.env.sched.queue == e.sched.queue + (if after == Ready then [Task(Some(h), None, ANY_THREAD)] else [])
            && (after != Ready && !Finishing(after) ==> r.env.fibers[h].state == Hold)
  {
    var s1 := e.sched.(active := e.sched.active - 1);
    var (h, fibers, counters) :=
      if w.cbFiber.Some? then
        var c := w.cbFiber.value;
        (c, e.fibers[c := Reset(e.fibers[c], Some(cb))], e.counters)
      else
        var (c1, f) := NewFiber(e.counters, Some(cb), 0, e.stackSize, false);
        (spare, e.fibers[spare := f], c1);
    assert fibers[h].state == Init;
    var f1 := RunUntilBack(fibers, h, after);
    if after == Ready then
      var (s2, tickle) := Schedule(s1, FiberWork(Some(h)), ANY_THREAD);
      Outcome(Env(s2, f1, counters, e.stackSize), w.(cbFiber := None), if tickle then 1 else 0, false, false)
    else if Finishing(after) then
      var f2 := f1[h := Reset(f1[h], None)];
      Outcome(Env(s1, f2, counters, e.stackSize), w.(cbFiber := Some(h)), 0, false, false)
    else
      var f2 := f1[h := f1[h].(state := Hold)];
      Outcome(Env(s1, f2, counters, e.stackSize), w.(cbFiber := None), 0, false, false)
  }

  /**
    The idle branch of `run`: leave the loop once the idle fiber has
    terminated; otherwise count this thread idle while the idle fiber
    runs, and put it on HOLD afterwards unless it finished. An idle
    fiber that ended by an exception is not TERM, so it is swapped in
    again: its context resumes after the final switch-out of the fiber
    entry function, whose never-reached assertion aborts the process.
   */
  function RunIdle(e: Env, w: Worker, after: State): (r: Outcome)
    requires EnvValid(e, w)
    ensures EnvValid(r.env, r.worker) && r.worker == w
    ensures r.exit <==> e.fibers[w.idleFiber].state == Term
    ensures r.aborted <==> e.fibers[w.idleFiber].state == Except
    ensures r.exit || r.aborted ==> r.env == e
    ensures r.env.sched == e.sched && r.tickles == 0
    ensures forall g :: g in e.fibers && g != w.idleFiber ==> g in r.env.fibers && r.env.fibers[g] == e.fibers[g]
  {
    if e.fibers[w.idleFiber].state == Term then Outcome(e, w, 0, true, false)
    else if e.fibers[w.idleFiber].state == Except then Outcome(e, w, 0, false, true)
    else
      var f1 := RunUntilBack(e.fibers, w.idleFiber, after);
      var f2 := if Finishing(after) then f1 else f1[w.idleFiber := f1[w.idleFiber].(state := Hold)];
      Outcome(e.(fibers := f2), w, 0, false, false)
  }

  /** After the scan: runs the taken task, or drops a finished fiber, or idles. */
  function Dispatch(e: Env, w: Worker, task: Option<Task>, spare: Handle, after: State): (r: Outcome)
    requires EnvValid(e, w) && spare !in e.fibers
    requires task.Some? ==> && e.sched.active > 0 && NonEmpty(task.value) && WellFormed(task.value)
                            && !Running(e.fibers, task.value)
                            && (task.value.fiber.Some? ==> var h := task.value.fiber.value;
                                                           h in e.fibers && h != w.idleFiber && Some(h) != w.cbFiber)
    ensures EnvValid(r.env, r.worker)
    ensures r.env.sched.idle == e.sched.idle
    ensures r.env.sched.active == if task.Some? then e.sched.active - 1 else e.sched.active
    ensures r.exit || r.aborted ==> task.None? && r.env == e
    ensures r.aborted <==> task.None? && e.fibers[w.idleFiber].state == Except
    ensures r.worker.thread == w.thread && r.worker.idleFiber == w.idleFiber
    ensures r.env.sched == e.sched.(queue := r.env.sched.queue, active := r.env.sched.active)
    ensures task.Some? && task.value.fiber.Some? && Finishing(e.fibers[task.value.fiber.value].state) ==>
              r.env == e.(sched := e.sched.(active := e.sched.active - 1)) && r.worker == w
  {
    if task.Some? && task.value.fiber.Some? && !Finishing(e.fibers[task.value.fiber.value].state) then
      RunFiberTask(e, w, task.value.fiber.value, after)
    else if task.Some? && task.value.cb.Some? then
      RunCallbackTask(e, w, task.value.cb.value, spare, after)
    else if task.Some? then
      Outcome(e.(sched := e.sched.(active := e.sched.active - 1)), w, 0, false, false)
    else RunIdle(e, w, after)
  }

  /** What `Dispatch` needs after `Take`: the environment stays valid and the taken task is runnable here. */
  lemma TakeKeepsEnvValid(e: Env, w: Worker)
    requires EnvValid(e, w)
    ensures var t := Take(e.sched, e.fibers, w.thread);
            && EnvValid(e.(sched := t.sched), w)
            && (t.task.Some? ==> && t.sched.active > 0 && NonEmpty(t.task.value) && WellFormed(t.task.value)
                                 && !Running(e.fibers, t.task.value)
                                 && (t.task.value.fiber.Some? ==> var h := t.task.value.fiber.value;
                                                                h in e.fibers && h != w.idleFiber && Some(h) != w.cbFiber))
  {
    var t := Take(e.sched, e.fibers, w.thread);
    if t.task.Some? {
      var i :| 0 <= i < |e.sched.queue| && t.task.value == e.sched.queue[i] && Eligible(e.fibers, e.sched.queue[i], w.thread)
               && t.sched == e.sched.(queue := RemoveAt(e.sched.queue, i), active := e.sched.active + 1);
      forall j | 0 <= j < |t.sched.queue| && t.sched.queue[j].fiber.Some?
        ensures var h := t.sched.queue[j].fiber.value; h in e.fibers && h != w.idleFiber && Some(h) != w.cbFiber
      {
        if j >= i { assert t.sched.queue[j] == e.sched.queue[j + 1]; }
      }
    }
  }

  /**
    One full iteration of `Scheduler::run` on thread `w.thread`. The
    active and idle counters are back where they started: each increment
    in the loop has its decrement.
   */
  function Step(e: Env, w: Worker, spare: Handle, after: State): (r: Outcome)
    requires EnvValid(e, w) && spare !in e.fibers
    ensures EnvValid(r.env, r.worker)
    ensures r.env.sched.active == e.sched.active && r.env.sched.idle == e.sched.idle
    ensures r.worker.thread == w.thread && r.worker.idleFiber == w.idleFiber
    ensures r.exit || r.aborted ==> r.env == e
    ensures r.aborted <==> Take(e.sched, e.fibers, w.thread).task.None? && e.fibers[w.idleFiber].state == Except
    ensures r.env.sched.stopping == e.sched.stopping && r.env.sched.autoStop == e.sched.autoStop
  {
    var t := Take(e.sched, e.fibers, w.thread);
    var e1 := e.(sched := t.sched);
    TakeKeepsEnvValid(e, w);
    var o := Dispatch(e1, w, t.task, spare, after);
    o.(tickles := o.tickles + if t.tickleMe then 1 else 0)
  }
}

=== FILE: timer.dfy ===
/**
  `Timer` and `TimerManager` (timer.h, timer.cpp).

  Timer objects are shared pointers that outlive their membership in the
  manager's set (a caller may keep a cancelled or fired timer and call
  `cancel`, `refresh` or `reset` on it later). The model therefore keeps
  every timer object in an arena keyed by its identity, and the ordered
  set as a sorted sequence of (deadline, identity) keys. The clock
  (`GetCurrentMS`) is the parameter `now`.
 */
module Timers {
  import opened Basics
  import opened TimerOrder

  /** A timer's callback; `addConditionTimer` wraps the action so that it only runs while `guard` is alive. */
  datatype Callback = Plain(action: nat) | Conditional(action: nat, guard: nat)

  /** The fields of `Timer`; the back-pointer to the manager is implicit. */
  datatype Timer = Timer(recurring: bool, ms: u64, next: u64, cb: Option<Callback>)

  datatype Manager = Manager(
    arena: map<nat, Timer>,  // every timer object, by identity
    order: seq<Key>,         // m_timers
    tickled: bool,           // m_tickled
    previousTime: u64        // m_previousTime
  )

  /** A backward clock jump larger than this many milliseconds expires every timer. */
  const ROLLOVER_MS: nat := 60 * 60 * 1000

  /** Keys in the set are those of live arena objects, sorted, each identity once. */
  ghost predicate SetConsistent(arena: map<nat, Timer>, order: seq<Key>) {
    && Sorted(order)
    && UniqueAddrs(order)
    && forall k :: k in order ==> k.addr in arena && arena[k.addr].next == k.next
  }

  /** A timer whose callback is still set is in the set (cancel and one-shot expiry clear it). */
  ghost predicate LiveInSet(arena: map<nat, Timer>, order: seq<Key>) {
    forall a :: a in arena && arena[a].cb.Some? ==> a in Addrs(order)
  }

  ghost predicate Valid(m: Manager) {
    SetConsistent(m.arena, m.order) && LiveInSet(m.arena, m.order)
  }

  /** The probe `Timer(next)`: only the deadline is set, every other field keeps its default. */
  function Probe(next: u64): (t: Timer)
    ensures !t.recurring && t.ms == 0 && t.cb == None
    ensures t.next == next
  {
    Timer(false, 0, next, None)
  }

  /** `TimerManager()`: empty set, no pending wake-up, clock sampled once. */
  function NewManager(now: u64): (m: Manager)
    ensures Valid(m)
    ensures |m.order| == 0 && !m.tickled && m.previousTime == now
  {
    Manager(map[], [], false, now)
  }

  /** Result of an insertion that may fire the `onTimerInsertedAtFront` hook. */
  datatype Added = Added(manager: Manager, atFront: bool)

  /**
    The protected `addTimer(val, lock)`: insert, then fire the front hook
    only if the timer became the earliest and no wake-up is pending.
   */
  function InsertWithHook(m: Manager, addr: nat, t: Timer): (r: Added)
    requires SetConsistent(m.arena, m.order) && addr !in Addrs(m.order)
    ensures SetConsistent(r.manager.arena, r.manager.order)
    ensures r.manager.arena == m.arena[addr := t]
    ensures forall x :: x in r.manager.order <==> x in m.order || x == Key(t.next, addr)
    ensures Addrs(r.manager.order) == Addrs(m.order) + {addr}
    ensures r.atFront <==> !m.tickled && forall k :: k in m.order ==> Less(Key(t.next, addr), k)
    ensures r.manager.tickled == (m.tickled || r.atFront)
    ensures r.manager.previousTime == m.previousTime
  {
    var k := Key(t.next, addr);
    var order := Insert(m.order, k);
    var atFront := order[0] == k && !m.tickled;
    assert (|m.order| == 0 || Less(k, m.order[0])) <==> forall x :: x in m.order ==> Less(k, x) by {
      if |m.order| > 0 && Less(k, m.order[0]) {
        forall x | x in m.order ensures Less(k, x) {
          var i :| 0 <= i < |m.order| && m.order[i] == x;
          if i > 0 { assert Less(m.order[0], m.order[i]); }
        }
      }
    }
    Added(m.(arena := m.arena[addr := t], order := order, tickled := m.tickled || atFront), atFront)
  }

  /**
    `TimerManager::addTimer(ms, cb, recurring)`: a new timer object with
    identity `addr` and deadline `now + ms` (64-bit) enters the set.
   */
  function AddTimer(m: Manager, now: u64, ms: u64, cb: Option<Callback>, recurring: bool, addr: nat): (r: Added)
    requires Valid(m) && addr !in m.arena
    ensures Valid(r.manager)
    ensures r.manager.arena == m.arena[addr := Timer(recurring, ms, Add64(now, ms), cb)]
    ensures Addrs(r.manager.order) == Addrs(m.order) + {addr}
    ensures r.atFront <==> !m.tickled && forall k :: k in m.order ==> Less(Key(Add64(now, ms), addr), k)
    ensures r.manager.tickled == (m.tickled || r.atFront)
  {
    InsertWithHook(m, addr, Timer(recurring, ms, Add64(now, ms), cb))
  }

  /** `onTimer`: the wrapped action runs only if the guard can still be locked. */
  function Run(cb: Callback, alive: set<nat>): (action: Option<nat>)
    ensures action.Some? ==> action.value == cb.action
    ensures action.None? <==> cb.Conditional? && cb.guard !in alive
  {
    match cb
    case Plain(a) => Some(a)
    case Conditional(a, g) => if g in alive then Some(a) else None
  }

  /** `addConditionTimer`: an ordinary timer whose callback is the guarded wrapper. */
  function AddConditionTimer(m: Manager, now: u64, ms: u64, action: nat, guard: nat, recurring: bool, addr: nat): (r: Added)
    requires Valid(m) && addr !in m.arena
    ensures Valid(r.manager)
    ensures addr in r.manager.arena && r.manager.arena[addr].cb.Some?
    ensures forall alive: set<nat> :: Run(r.manager.arena[addr].cb.value, alive) == (if guard in alive then Some(action) else None)
  {
    AddTimer(m, now, ms, Some(Conditional(action, guard)), recurring, addr)
  }

  datatype Outcome = Outcome(manager: Manager, ok: bool)

  /** `Timer::cancel`: succeeds once, clearing the callback and leaving the set. */
  function Cancel(m: Manager, addr: nat): (r: Outcome)
    requires Valid(m) && addr in m.arena
    ensures Valid(r.manager)
    ensures r.ok <==> m.arena[addr].cb.Some?
    ensures r.ok ==> r.manager.arena == m.arena[addr := m.arena[addr].(cb := None)]
    ensures r.ok ==> Addrs(r.manager.order) == Addrs(m.order) - {addr}
    ensures r.ok ==> r.manager.tickled == m.tickled && r.manager.previousTime == m.previousTime
    ensures !r.ok ==> r.manager == m
  {
    var t := m.arena[addr];
    if t.cb.Some? then
      Outcome(m.(arena := m.arena[addr := t.(cb := None)], order := Remove(m.order, addr)), true)
    else
      Outcome(m, false)
  }

  /** `Timer::refresh`: restart the period from `now`, keeping the timer in the set exactly once. */
  function Refresh(m: Manager, addr: nat, now: u64): (r: Outcome)
    requires Valid(m) && addr in m.arena
    ensures Valid(r.manager)
    ensures r.ok <==> m.arena[addr].cb.Some? && addr in Addrs(m.order)
    ensures r.ok ==> r.manager.arena == m.arena[addr := m.arena[addr].(next := Add64(now, m.arena[addr].ms))]
    ensures r.ok ==> Addrs(r.manager.order) == Addrs(m.order)
    ensures r.ok ==> r.manager.tickled == m.tickled && r.manager.previousTime == m.previousTime
    ensures !r.ok ==> r.manager == m
  {
    var t := m.arena[addr];
    if t.cb.None? || addr !in Addrs(m.order) then Outcome(m, false)
    else
      var t' := t.(next := Add64(now, t.ms));
      var order := Insert(Remove(m.order, addr), Key(t'.next, addr));
      Outcome(m.(arena := m.arena[addr := t'], order := order), true)
  }

  /** Where `reset` measures the new period from: now, or the start of the current cycle. */
  function ResetStart(t: Timer, fromNow: bool, now: u64): u64 {
    if fromNow then now else Sub64(t.next, t.ms)
  }

  datatype ResetOutcome = ResetOutcome(manager: Manager, ok: bool, atFront: bool)

  /** `Timer::reset(ms, from_now)`: change the period and re-insert through the hook-firing path. */
  function Reset(m: Manager, addr: nat, ms: u64, fromNow: bool, now: u64): (r: ResetOutcome)
    requires Valid(m) && addr in m.arena
    ensures Valid(r.manager)
    ensures r.ok <==> !(ms == m.arena[addr].ms && !fromNow) && m.arena[addr].cb.Some? && addr in Addrs(m.order)
    ensures r.ok ==> (r.manager.arena ==
      m.arena[addr := m.arena[addr].(ms := ms, next := Add64(ResetStart(m.arena[addr], fromNow, now), ms))])
    ensures r.ok ==> Addrs(r.manager.order) == Addrs(m.order)
    ensures r.ok ==> (r.atFront <==> !m.tickled && forall k :: k in m.order && k.addr != addr ==>
      Less(Key(Add64(ResetStart(m.arena[addr], fromNow, now), ms), addr), k))
    ensures r.manager.tickled == (m.tickled || r.atFront)
    ensures !r.ok ==> r.manager == m && !r.atFront
  {
    var t := m.arena[addr];
    if ms == t.ms && !fromNow then ResetOutcome(m, false, false)
    else if t.cb.None? || addr !in Addrs(m.order) then ResetOutcome(m, false, false)
    else
      var t' := t.(ms := ms, next := Add64(ResetStart(t, fromNow, now), ms));
      var removed := m.(order := Remove(m.order, addr));
      var added := InsertWithHook(removed, addr, t');
      ResetOutcome(added.manager, true, added.atFront)
  }

  /** Once `cancel` has succeeded, `cancel`, `refresh` and `reset` on that timer all fail. */
  lemma CancelledTimerIsInert(m: Manager, addr: nat, now: u64, ms: u64, fromNow: bool)
    requires Valid(m) && addr in m.arena
    requires Cancel(m, addr).ok
    ensures !Cancel(Cancel(m, addr).manager, addr).ok
    ensures !Refresh(Cancel(m, addr).manager, addr, now).ok
    ensures !Reset(Cancel(m, addr).manager, addr, ms, fromNow, now).ok
  {
  }

  /** Without 64-bit wrap-around, `reset(ms, false)` keeps the cycle's anchor and `reset(ms, true)` starts at now. */
  lemma ResetOrigin(m: Manager, addr: nat, ms: u64, fromNow: bool, now: u64)
    requires Valid(m) && addr in m.arena
    requires Reset(m, addr, ms, fromNow, now).ok
    requires m.arena[addr].ms <= m.arena[addr].next
    requires (if fromNow then now else m.arena[addr].next - m.arena[addr].ms) + ms < TWO_64
    ensures fromNow ==> Reset(m, addr, ms, fromNow, now).manager.arena[addr].next == now + ms
    ensures !fromNow ==> Reset(m, addr, ms, fromNow, now).manager.arena[addr].next
                         == m.arena[addr].next - m.arena[addr].ms + ms
  {
  }

  datatype NextTimeout = NextTimeout(manager: Manager, timeout: u64)

  /**
    `getNextTimer`: ~0 when no timer is set, else how long until the
    earliest deadline (0 if it has passed); always re-arms the front hook.
   */
  function GetNextTimer(m: Manager, now: u64): (r: NextTimeout)
    requires Valid(m)
    ensures r.manager == m.(tickled := false)
    ensures |m.order| == 0 ==> r.timeout == MAX_U64
    ensures (exists k :: k in m.order && k.next <= now) ==> r.timeout == 0
    ensures |m.order| > 0 && (forall k :: k in m.order ==> k.next > now) ==>
      && (forall k :: k in m.order ==> now + r.timeout <= k.next)
      && (exists k :: k in m.order && k.next == now + r.timeout)
  {
    var m' := m.(tickled := false);
    if |m.order| == 0 then NextTimeout(m', MAX_U64)
    else
      var first := m.order[0];
      assert forall k :: k in m.order ==> first.next <= k.next by {
        forall k | k in m.order ensures first.next <= k.next {
          var i :| 0 <= i < |m.order| && m.order[i] == k;
          if i > 0 { assert Less(m.order[0], m.order[i]); }
        }
      }
      if now >= first.next then NextTimeout(m', 0)
      else NextTimeout(m', first.next - now)
  }

  /** `hasTimer`. */
  function HasTimer(m: Manager): (r: bool)
    requires Valid(m)
    ensures r <==> exists a :: a in m.arena && a in Addrs(m.order)
  {
    if |m.order| > 0 then
      assert m.order[0] in m.order;
      true
    else false
  }

  /** The rollover test of `detectClockRollover`, in 64-bit arithmetic. */
  function Rollover(previous: u64, now: u64): (r: bool)
    ensures previous >= ROLLOVER_MS ==> (r <==> now + ROLLOVER_MS < previous)
    ensures previous < ROLLOVER_MS ==> (r <==> now < previous)
  {
    now < previous && now < Sub64(previous, ROLLOVER_MS)
  }

  /** `detectClockRollover`: reports a backward jump and always records `now`. */
  function DetectClockRollover(m: Manager, now: u64): (r: (bool, Manager))
    ensures r.1 == m.(previousTime := now)
    ensures r.0 <==> now < m.previousTime && now < Sub64(m.previousTime, ROLLOVER_MS)
  {
    (Rollover(m.previousTime, now), m.(previousTime := now))
  }

  /** Whether a timer with key `k` is harvested: everything on rollover, else keys not above the probe. */
  predicate Due(k: Key, now: u64, probe: nat, rollover: bool) {
    rollover || !Less(Key(now, probe), k)
  }

  datatype Expiry = Expiry(arena: map<nat, Timer>, order: seq<Key>, cbs: seq<Option<Callback>>)

  /**
    What harvesting `pending` leaves: the set stays consistent over the
    same timers; the callbacks are those of `pending`, in order; a
    recurring timer is re-armed at now + period and back in the set, a
    one-shot one has lost its callback and is out; nothing else changes.
   */
  ghost predicate Harvested(arena: map<nat, Timer>, order: seq<Key>, pending: seq<Key>, now: u64, r: Expiry)
    requires forall k :: k in pending ==> k.addr in arena
  {
    && SetConsistent(r.arena, r.order)
    && r.arena.Keys == arena.Keys
    && |r.cbs| == |pending|
    && (forall i :: 0 <= i < |pending| ==> r.cbs[i] == arena[pending[i].addr].cb)
    && (forall a :: a in arena && a !in Addrs(pending) ==>
          r.arena[a] == arena[a] && (a in Addrs(r.order) <==> a in Addrs(order)))
    && (forall a :: a in Addrs(pending) && arena[a].recurring ==>
          r.arena[a] == arena[a].(next := Add64(now, arena[a].ms)) && a in Addrs(r.order))
    && (forall a :: a in Addrs(pending) && !arena[a].recurring ==>
          r.arena[a] == arena[a].(cb := None) && a !in Addrs(r.order))
  }

  /** The loop over `expired` in `listExpiredCb`: collect callbacks, re-insert recurring timers, disarm the rest. */
  function Expire(arena: map<nat, Timer>, order: seq<Key>, pending: seq<Key>, now: u64): (r: Expiry)
    requires SetConsistent(arena, order)
    requires UniqueAddrs(pending)
    requires forall k :: k in pending ==> k.addr in arena && k.addr !in Addrs(order)
    ensures Harvested(arena, order, pending, now, r)
    decreases |pending|
  {
    if |pending| == 0 then Expiry(arena, order, [])
    else
      var a := pending[0].addr;
      var t := arena[a];
      AddrsCons(pending);
      var (arena', order') := ExpireOne(arena, order, a, now);
      var rest := Expire(arena', order', pending[1..], now);
      ExpireStep(arena, order, pending, now, rest);
      Expiry(rest.arena, rest.order, [t.cb] + rest.cbs)
  }

  /** The identities of a sequence of keys: its head's and its tail's; with unique identities the head's is not in the tail. */
  lemma AddrsCons(pending: seq<Key>)
    requires |pending| > 0 && UniqueAddrs(pending)
    ensures Addrs(pending) == {pending[0].addr} + Addrs(pending[1..])
    ensures pending[0].addr !in Addrs(pending[1..])
    ensures UniqueAddrs(pending[1..])
  {
    assert forall x :: x in pending <==> x == pending[0] || x in pending[1..];
    forall k | k in pending[1..] ensures k.addr != pending[0].addr {
      var j :| 0 <= j < |pending[1..]| && pending[1..][j] == k;
      assert pending[j + 1] == k;
    }
  }

  /** Harvesting the head first, then the tail, is harvesting the whole of `pending`. */
  lemma ExpireStep(arena: map<nat, Timer>, order: seq<Key>, pending: seq<Key>, now: u64, rest: Expiry)
    requires SetConsistent(arena, order) && |pending| > 0 && UniqueAddrs(pending)
    requires forall k :: k in pending ==> k.addr in arena && k.addr !in Addrs(order)
    requires var (arena', order') := ExpireOne(arena, order, pending[0].addr, now);
             && (forall k :: k in pending[1..] ==> k.addr in arena')
             && Harvested(arena', order', pending[1..], now, rest)
    ensures Harvested(arena, order, pending, now, Expiry(rest.arena, rest.order, [arena[pending[0].addr].cb] + rest.cbs))
  {
    var a := pending[0].addr;
    var (arena', order') := ExpireOne(arena, order, a, now);
    AddrsCons(pending);
    var r := Expiry(rest.arena, rest.order, [arena[a].cb] + rest.cbs);
    forall i | 0 <= i < |pending| ensures r.cbs[i] == arena[pending[i].addr].cb {
      if i > 0 {
        assert pending[i] == pending[1..][i - 1];
        assert pending[i].addr in Addrs(pending[1..]);
      }
    }
  }

  /** One due timer: a recurring one is re-armed at now + period and re-inserted, a one-shot one loses its callback. */
  function ExpireOne(arena: map<nat, Timer>, order: seq<Key>, a: nat, now: u64): (r: (map<nat, Timer>, seq<Key>))
    requires SetConsistent(arena, order)
    requires a in arena && a !in Addrs(order)
    ensures SetConsistent(r.0, r.1)
    ensures r.0 == arena[a := if arena[a].recurring then arena[a].(next := Add64(now, arena[a].ms)) else arena[a].(cb := None)]
    ensures Addrs(r.1) == if arena[a].recurring then Addrs(order) + {a} else Addrs(order)
  {
    var t := arena[a];
    if t.recurring then
      var t' := t.(next := Add64(now, t.ms));
      (arena[a := t'], Insert(order, Key(t'.next, a)))
    else (arena[a := t.(cb := None)], order)
  }

  /** Cutting a sorted set with unique identities at `cut` separates the identities of both parts. */
  lemma SplitAt(s: seq<Key>, cut: nat)
    requires Sorted(s) && UniqueAddrs(s) && cut <= |s|
    ensures Sorted(s[..cut]) && UniqueAddrs(s[..cut]) && Sorted(s[cut..]) && UniqueAddrs(s[cut..])
    ensures Addrs(s) == Addrs(s[..cut]) + Addrs(s[cut..])
    ensures forall k :: k in s[..cut] ==> k.addr !in Addrs(s[cut..])
    ensures forall i :: 0 <= i < cut ==> s[i].addr in Addrs(s[..cut]) && s[i].addr !in Addrs(s[cut..])
    ensures forall i :: cut <= i < |s| ==> s[i].addr in Addrs(s[cut..]) && s[i].addr !in Addrs(s[..cut])
  {
    var pending := s[..cut];
    var kept := s[cut..];
    assert forall x :: x in s <==> x in pending || x in kept by {
      assert s == pending + kept;
    }
    assert forall k :: k in pending ==> k.addr !in Addrs(kept) by {
      forall k | k in pending ensures k.addr !in Addrs(kept) {
        var i :| 0 <= i < |pending| && pending[i] == k;
        forall x | x in kept ensures x.addr != k.addr {
          var j :| 0 <= j < |kept| && kept[j] == x;
          assert s[i] == k && s[cut + j] == x;
        }
      }
    }
    forall i | 0 <= i < cut ensures s[i].addr in Addrs(pending) {
      assert pending[i] in pending;
    }
    forall i | cut <= i < |s| ensures s[i].addr in Addrs(kept) {
      assert kept[i - cut] in kept;
    }
  }

  /** Harvest the first `cut` keys of the set: `expired` is the prefix, the rest stays. */
  function ExpirePrefix(m: Manager, cut: nat, now: u64): (e: Expiry)
    requires Valid(m) && cut <= |m.order|
    ensures SetConsistent(e.arena, e.order) && LiveInSet(e.arena, e.order)
    ensures e.arena.Keys == m.arena.Keys
    ensures |e.cbs| == cut
    ensures forall i :: 0 <= i < cut ==> e.cbs[i] == m.arena[m.order[i].addr].cb
    ensures forall i :: 0 <= i < cut ==> var a := m.order[i].addr;
      if m.arena[a].recurring
      then e.arena[a] == m.arena[a].(next := Add64(now, m.arena[a].ms)) && a in Addrs(e.order)
      else e.arena[a] == m.arena[a].(cb := None) && a !in Addrs(e.order)
    ensures forall i :: cut <= i < |m.order| ==> var a := m.order[i].addr;
      e.arena[a] == m.arena[a] && a in Addrs(e.order)
    ensures forall a :: a in m.arena && a !in Addrs(m.order) ==>
      e.arena[a] == m.arena[a] && a !in Addrs(e.order)
  {
    var pending := m.order[..cut];
    var kept := m.order[cut..];
    SplitAt(m.order, cut);
    var e := Expire(m.arena, kept, pending, now);
    assert Harvested(m.arena, kept, pending, now, e);
    forall i | 0 <= i < cut
      ensures var a := m.order[i].addr;
              if m.arena[a].recurring
              then e.arena[a] == m.arena[a].(next := Add64(now, m.arena[a].ms)) && a in Addrs(e.order)
              else e.arena[a] == m.arena[a].(cb := None) && a !in Addrs(e.order)
    {
      assert m.order[i].addr in Addrs(pending);
    }
    forall i | cut <= i < |m.order| ensures var a := m.order[i].addr; e.arena[a] == m.arena[a] && a in Addrs(e.order) {
      assert m.order[i].addr !in Addrs(pending) && m.order[i].addr in Addrs(kept);
    }
    assert LiveInSet(e.arena, e.order) by {
      forall a | a in e.arena && e.arena[a].cb.Some? ensures a in Addrs(e.order) {
        if a !in Addrs(pending) {
          assert e.arena[a] == m.arena[a];
        }
      }
    }
    e
  }

  datatype Expired = Expired(manager: Manager, cbs: seq<Option<Callback>>)

  /**
    `listExpiredCb`: harvest the due timers in set order. `probe` is the
    identity of the temporary `Timer(now)` whose address breaks ties at
    deadline `now` in `upper_bound`.
   */
  function ListExpired(m: Manager, now: u64, probe: nat): (r: Expired)
    requires Valid(m) && probe !in m.arena
    ensures Valid(r.manager)
    ensures |m.order| == 0 ==> r == Expired(m, [])
    ensures |m.order| > 0 ==> r.manager.previousTime == now
    ensures r.manager.tickled == m.tickled
    ensures r.manager.arena.Keys == m.arena.Keys
    ensures |r.cbs| <= |m.order|
    ensures forall i :: 0 <= i < |m.order| ==>
      (i < |r.cbs| <==> Due(m.order[i], now, probe, Rollover(m.previousTime, now)))
    ensures forall i :: 0 <= i < |r.cbs| ==> r.cbs[i] == m.arena[m.order[i].addr].cb
    ensures forall i :: 0 <= i < |r.cbs| ==> var a := m.order[i].addr;
      if m.arena[a].recurring
      then r.manager.arena[a] == m.arena[a].(next := Add64(now, m.arena[a].ms)) && a in Addrs(r.manager.order)
      else r.manager.arena[a] == m.arena[a].(cb := None) && a !in Addrs(r.manager.order)
    ensures forall i :: |r.cbs| <= i < |m.order| ==> var a := m.order[i].addr;
      r.manager.arena[a] == m.arena[a] && a in Addrs(r.manager.order)
    ensures forall a :: a in m.arena && a !in Addrs(m.order) ==>
      r.manager.arena[a] == m.arena[a] && a !in Addrs(r.manager.order)
  {
    if |m.order| == 0 then Expired(m, [])
    else
      var rollover := Rollover(m.previousTime, now);
      var m1 := m.(previousTime := now);
      if !rollover && m.order[0].next > now then
        assert forall i :: 0 <= i < |m.order| ==> Less(Key(now, probe), m.order[i]) by {
          forall i | 0 <= i < |m.order| ensures Less(Key(now, probe), m.order[i]) {
            if i > 0 { assert Less(m.order[0], m.order[i]); }
          }
        }
        Expired(m1, [])
      else
        var cut := if rollover then |m.order| else UpperBound(m.order, Key(now, probe));
        var e := ExpirePrefix(m, cut, now);
        Expired(m1.(arena := e.arena, order := e.order), e.cbs)
  }

  /** A cancelled timer is never harvested and stays disarmed, whatever the clock does. */
  lemma CancelledTimerNeverFires(m: Manager, addr: nat, now: u64, probe: nat)
    requires Valid(m) && addr in m.arena && probe !in m.arena
    requires Cancel(m, addr).ok
    ensures var c := Cancel(m, addr).manager; var r := ListExpired(c, now, probe);
      && (forall i :: 0 <= i < |r.cbs| ==> c.order[i].addr != addr)
      && r.manager.arena[addr].cb.None?
      && addr !in Addrs(r.manager.order)
  {
    var c := Cancel(m, addr).manager;
    var r := ListExpired(c, now, probe);
    forall i | 0 <= i < |r.cbs| ensures c.order[i].addr != addr {
      assert c.order[i] in c.order;
    }
  }

  /** A timer added to an idle manager reports its own delay as the next timeout. */
  lemma AddThenNextTimeout(now: u64, ms: u64, cb: Option<Callback>, recurring: bool, addr: nat)
    requires 0 < ms && now + ms < TWO_64
    ensures var m := AddTimer(NewManager(now), now, ms, cb, recurring, addr).manager;
      GetNextTimer(m, now).timeout == ms
  {
    var m := AddTimer(NewManager(now), now, ms, cb, recurring, addr).manager;
    assert Addrs(m.order) == {addr};
    assert forall k :: k in m.order ==> k.addr == addr && k.next == now + ms;
    assert m.order[0] in m.order;
  }
}

=== FILE: timer_order.dfy ===
/**
  The ordered set behind `TimerManager::m_timers` (timer.h:63): a
  `std::set<Timer::ptr, Timer::Comparator>`, modelled as a strictly sorted
  sequence of keys. A key is a timer's deadline together with its identity
  (the object's address), which is all the comparator looks at.
 */
module TimerOrder {
  import opened Basics

  datatype Key = Key(next: nat, addr: nat)

  /** `Timer::Comparator` on two non-null timers: by deadline, ties broken by identity. */
  predicate Less(a: Key, b: Key) {
    a.next < b.next || (a.next == b.next && a.addr < b.addr)
  }

  /** `Timer::Comparator::operator()` including null pointers, branch by branch. */
  function Compare(lhs: Option<Key>, rhs: Option<Key>): (r: bool)
    ensures lhs.None? && rhs.Some? ==> r
    ensures rhs.None? ==> !r
    ensures lhs.Some? && rhs.Some? ==> (r <==> Less(lhs.value, rhs.value))
  {
    if lhs.None? && rhs.None? then false
    else if lhs.None? then true
    else if rhs.None? then false
    else if lhs.value.next < rhs.value.next then true
    else if rhs.value.next < lhs.value.next then false
    else lhs.value.addr < rhs.value.addr
  }

  /** The comparator is a strict total order, so the set holds each timer at most once. */
  lemma CompareStrictTotalOrder(x: Option<Key>, y: Option<Key>, z: Option<Key>)
    ensures !Compare(x, x)
    ensures Compare(x, y) ==> !Compare(y, x)
    ensures Compare(x, y) && Compare(y, z) ==> Compare(x, z)
    ensures x != y ==> Compare(x, y) || Compare(y, x)
  {
  }

  ghost predicate Sorted(s: seq<Key>) {
    forall i, j :: 0 <= i < j < |s| ==> Less(s[i], s[j])
  }

  ghost predicate UniqueAddrs(s: seq<Key>) {
    forall i, j :: 0 <= i < j < |s| ==> s[i].addr != s[j].addr
  }

  function Addrs(s: seq<Key>): set<nat> {
    set k | k in s :: k.addr
  }

  /** `std::set::insert` of a timer that is not in the set yet. */
  function Insert(s: seq<Key>, k: Key): (r: seq<Key>)
    requires Sorted(s) && UniqueAddrs(s) && k.addr !in Addrs(s)
    ensures Sorted(r) && UniqueAddrs(r)
    ensures |r| == |s| + 1
    ensures forall x :: x in r <==> x in s || x == k
    ensures Addrs(r) == Addrs(s) + {k.addr}
    ensures r[0] == k <==> (|s| == 0 || Less(k, s[0]))
  {
    if |s| == 0 then [k]
    else if Less(k, s[0]) then [k] + s
    else
      var tail := Insert(s[1..], k);
      assert forall x :: x in s <==> x == s[0] || x in s[1..];
      assert Addrs(s) == {s[0].addr} + Addrs(s[1..]);
      [s[0]] + tail
  }

  /** `std::set::erase` of the timer with identity `a` (if present). */
  function Remove(s: seq<Key>, a: nat): (r: seq<Key>)
    requires Sorted(s) && UniqueAddrs(s)
    ensures Sorted(r) && UniqueAddrs(r)
    ensures forall x :: x in r <==> x in s && x.addr != a
    ensures Addrs(r) == Addrs(s) - {a}
    ensures |r| == if a in Addrs(s) then |s| - 1 else |s|
  {
    if |s| == 0 then []
    else
      var tail := Remove(s[1..], a);
      assert forall x :: x in s <==> x == s[0] || x in s[1..];
      assert Addrs(s) == {s[0].addr} + Addrs(s[1..]);
      if s[0].addr == a then
        assert a !in Addrs(s[1..]);
        s[1..]
      else [s[0]] + tail
  }

  /**
    `std::set::upper_bound(probe)`: the number of leading keys that do not
    compare greater than `probe`.
   */
  function UpperBound(s: seq<Key>, probe: Key): (n: nat)
    requires Sorted(s)
    ensures n <= |s|
    ensures forall i :: 0 <= i < n ==> !Less(probe, s[i])
    ensures forall i :: n <= i < |s| ==> Less(probe, s[i])
  {
    if |s| == 0 || Less(probe, s[0]) then 0
    else 1 + UpperBound(s[1..], probe)
  }
}
